=== FILE: README.md ===
# Sales notes, catalogues and notifications — a Dafny model

This project models the core of a small serverless sales-note system built
from three Lambda services:

- **catalogos-service** keeps customers, addresses and products. It validates
  request bodies, normalises them (RFC upper-cased, e-mail lower-cased,
  address type upper-cased, price as an exact decimal) and creates, replaces
  or deletes records.
- **notas-service** creates a sales note (`create_nota_venta`). The request is
  validated, the customer, both addresses and every product are looked up,
  and the lines are priced. The handler then writes the note, one record per
  line and a rendered PDF to an object store, with metadata: the send time,
  a send counter and a downloaded flag. Last it publishes an event, and a
  failed publish is swallowed. The service also serves the PDF download,
  which marks the object as downloaded and redirects.
- **notifications-service** consumes those events. On the SNS path it walks
  the records and publishes one e-mail notification per usable record. It
  answers 200 whatever the publishes return. On the HTTP path it checks the
  three fields and answers with its single publish's status.

The model is functional. The DynamoDB tables and the bucket are maps. The
world is `(ledger, objects, outbox)`, and each handler is a function from a
world and a request to a reply and a new world. Several things are
parameters of the model:
- the uuids, the clock readings and the PDF renderer;
- whether the topic accepts the publish;
- which write of `create_nota_venta` raises, if any;
- `json.loads` and Python's `str()` of a non-string JSON value.

Python behaviour is written out where the handlers depend on it:
- truthiness;
- `int()` truncating a float toward zero;
- `Decimal(str(x))` read exactly;
- `in` on dictionaries, lists and strings;
- `dict.get` giving `None`;
- `re.match` with `$` also matching before a final newline;
- the exceptions that end up as a 500 through the catch-all handlers, except `put_item` refusing a float (see "Left out").

A DynamoDB key that is not a non-empty string makes `get_item` raise. It is
modelled as the handler's 500.

Modules, one file each:
- `Prelude`: Option, Result, Failure, Verdict and the statuses.
- `Text`: characters, case mapping, integer and decimal text.
- `Json`: decoded values and Python conversions.
- `Tables`: existence-checked replace and remove.
- `Catalog`: catalogos-service.
- `Folio`: the note folio.
- `Documents`: bucket objects, the upload and the download.
- `NoteValidation`, `Pricing` and `Notes`: notas-service.
- `Gateway`: how the API gateway reads a request URL's query into
  `queryStringParameters` (cut at every `&`, names and values split at the
  first `=`, percent-decoding, a repeated name keeping its last value), and
  how a followed link reaches it (without its tabs and line breaks).
- `Notifications`: notifications-service.
- `Scenario`: the services together, and the figures of the end-to-end test
  script.

The model follows the code in these details, which a reader might not
expect:
- A stored line record has no product-name snapshot; only the response lines
  and the PDF carry the product name.
- `update_domicilio` does not check that the owning customer exists.
- The address lookups are both issued before either is checked. A bad key on
  either address therefore raises before a missing billing address is
  reported.

## Model

| member | source | states |
|---|---|---|
| Prelude.VerdictFailure | notas-service/lambda_function.py:183-185 | a rejected body is answered 400 with the validator's message; a validator that raises is answered 500 |
| Text.Upper | catalogos-service/lambda_function.py:45 | upper-cases ASCII letters and ñ one character at a time, keeping the length and leaving every other character unchanged |
| Text.UpperInjectiveOnUuidText | notas-service/lambda_function.py:230 | upper-casing uuid text loses nothing: two uuid texts have equal upper-case forms exactly when they are equal |
| Text.ParseIntOfIntToString | notas-service/lambda_function.py:127-136 | the counter written as `str(n)` is read back by `int()` as n |
| Text.ParseDecimalOfIntegerText | notas-service/lambda_function.py:215 | text that `int()` reads as n is read by `Decimal()` as exactly n |
| Json.FirstMissing | notas-service/lambda_function.py:46-49 | the first required field, in list order, that is absent or falsy; none exactly when all are present and truthy |
| Json.PyInt | notas-service/lambda_function.py:58 | Python's `int()` of a JSON value: a float truncated toward zero, a boolean as 0 or 1, integer text parsed, anything else raising; stated by `Json.PositiveQuantity` and `Text.ParseIntOfIntToString` |
| Json.PyDecimal | catalogos-service/lambda_function.py:72 | `Decimal(str(v))` read exactly, raising for null, booleans, lists and objects; stated by `Json.PositiveQuantity`, `Text.ParseDecimalOfIntegerText` and `Catalog.ProductoRecord` |
| Json.StoreKey | notas-service/lambda_function.py:189 | a DynamoDB key is usable exactly when it is a non-empty string |
| Json.PositiveQuantity | notas-service/lambda_function.py:56-58 | a quantity that `int()` reads as positive and `Decimal(str())` can read is at least 1 |
| Tables.Replace | catalogos-service/lambda_function.py:124-138 | replacing under an existing key changes only that key; an absent key is refused |
| Tables.Remove | catalogos-service/lambda_function.py:145-149 | removing an existing key removes only that key; an absent key is refused |
| Catalog.RfcMatches | catalogos-service/lambda_function.py:20 | `RFC_REGEX`: three or four capitals, Ñ or "&", six digits, two or three capitals or digits, with `$` also matching before a final newline; stated by `Catalog.ValidateCliente` and `Catalog.RfcHasNoPercent` |
| Catalog.RfcHasNoPercent | catalogos-service/lambda_function.py:20 | an RFC of RFC shape has no "%" |
| Catalog.EmailMatches | catalogos-service/lambda_function.py:19 | `EMAIL_REGEX`, with `$` also matching before a final newline; stated by `Catalog.LowerKeepsEmail` and `Catalog.EmailNotEmpty` |
| Catalog.LowerKeepsEmail | catalogos-service/lambda_function.py:49-50 | an address that matches the e-mail pattern still matches after `.lower()` |
| Catalog.EmailNotEmpty | catalogos-service/lambda_function.py:19 | an address matching the pattern has at least five characters |
| Catalog.ValidateCliente | catalogos-service/lambda_function.py:38-52 | accepts exactly the bodies with all five fields truthy, an upper-cased RFC of RFC shape and an address of e-mail shape; the messages in check order; a non-text RFC or address raises |
| Catalog.ClienteRecord | catalogos-service/lambda_function.py:89-97 | the stored customer has the RFC upper-cased and the address lower-cased, and is well formed |
| Catalog.ClienteNormalizationFixed | catalogos-service/lambda_function.py:89-97 | re-submitting a stored customer is accepted and stores the same customer: normalisation is a fixed point |
| Catalog.CreateCliente | catalogos-service/lambda_function.py:81-100 | created exactly when the body validates, stored under the new id; a rejected body changes nothing |
| Catalog.UpdateCliente | catalogos-service/lambda_function.py:116-139 | the body is validated before the lookup; a missing id is a 404 that changes nothing; otherwise only that record is replaced |
| Catalog.DeleteCliente | catalogos-service/lambda_function.py:141-150 | a missing id is a 404; otherwise exactly that record is removed and the rest are untouched |
| Catalog.ClientesInvariantPreserved | catalogos-service/lambda_function.py:81-150 | create, update and delete keep every stored customer well formed and stored under its own id |
| Catalog.ValidateDomicilio | catalogos-service/lambda_function.py:54-63 | accepts exactly the bodies with all six fields truthy and a type whose upper-case form is FACTURACION or ENVIO |
| Catalog.DomicilioRecord | catalogos-service/lambda_function.py:167-176 | the stored address has the type upper-cased, one of the two tags |
| Catalog.CreateDomicilio | catalogos-service/lambda_function.py:153-179 | validation, then the owning customer must exist (404), and a key `get_item` rejects raises; created exactly when both pass |
| Catalog.UpdateDomicilio | catalogos-service/lambda_function.py:195-219 | validation before the lookup; the owner is not checked; only that record is replaced |
| Catalog.DeleteDomicilio | catalogos-service/lambda_function.py:221-230 | a missing id is a 404; otherwise exactly that record is removed |
| Catalog.DomiciliosInvariantPreserved | catalogos-service/lambda_function.py:153-230 | the address operations keep every stored address well formed |
| Catalog.ValidateProducto | catalogos-service/lambda_function.py:65-78 | accepts exactly the bodies with all three fields truthy and a positive decimal price; never raises, since every conversion failure is caught |
| Catalog.ProductoRecord | catalogos-service/lambda_function.py:241-247 | the stored price is `Decimal(str(precio_base))`, positive |
| Catalog.CreateProducto | catalogos-service/lambda_function.py:233-250 | created exactly when the body validates; a rejected body changes nothing |
| Catalog.UpdateProducto | catalogos-service/lambda_function.py:266-287 | validation before the lookup; a missing id is a 404; only that record is replaced |
| Catalog.DeleteProducto | catalogos-service/lambda_function.py:289-298 | a missing id is a 404; otherwise exactly that record is removed |
| Catalog.ProductosInvariantPreserved | catalogos-service/lambda_function.py:233-298 | the product operations keep every stored price positive |
| Folio.DayStamp | notas-service/lambda_function.py:230 | `strftime('%Y%m%d')` is eight digits |
| Folio.IdPrefix | notas-service/lambda_function.py:230 | `nota_id[:8]` is the first eight characters, or the whole id when it is shorter |
| Folio.MakeFolio | notas-service/lambda_function.py:230 | "NV-", the day stamp, "-" and the upper-cased id prefix; stated by `Folio.FolioLayout`, `Folio.FolioRoundTrip` and `Folio.FolioInjective` |
| Folio.StampRoundTrip | notas-service/lambda_function.py:230 | the date is read back from its eight-digit stamp |
| Folio.FolioLayout | notas-service/lambda_function.py:230 | a folio is "NV-", the stamp, "-" and the upper-cased prefix, twenty characters for a uuid |
| Folio.FolioRoundTrip | notas-service/lambda_function.py:230 | the folio gives back its date and its upper-cased id prefix |
| Folio.FolioInjective | notas-service/lambda_function.py:230 | two folios are equal exactly when their dates and upper-cased prefixes are |
| Folio.FolioDistinctForUuids | notas-service/lambda_function.py:230 | for uuid ids, folios are equal exactly when the dates and the eight-character prefixes are |
| Documents.NextSendCount | notas-service/lambda_function.py:125-131 | the counter is one more than a readable stored one, and 1 when the object or a readable counter is missing |
| Documents.Upload | notas-service/lambda_function.py:121-147 | writes under "rfc/folio.pdf" with exactly the three metadata keys (send time, "false", the next counter), the PDF content type and the bytes; other objects are untouched |
| Documents.UploadCountsUp | notas-service/lambda_function.py:125-137 | after an upload the counter is readable and one above the previous readable counter, or 1 |
| Documents.CountAfterUploads | notas-service/lambda_function.py:125-137 | after n sequential uploads of one note the counter reads n more than before, or n |
| Documents.UploadAllLeavesNotDownloaded | notas-service/lambda_function.py:135 | every re-send resets the downloaded flag to "false" and stores the latest bytes |
| Documents.Download | notas-service/lambda_function.py:360-406 | a missing object is a 404 that changes nothing; otherwise the same bytes are written back with the downloaded flag "true", the other metadata kept, and a redirect |
| Documents.DownloadIdempotent | notas-service/lambda_function.py:360-406 | downloading twice gives the same answer and state as once |
| Documents.DownloadKeepsCount | notas-service/lambda_function.py:360-406 | a download neither changes the send counter nor creates an object |
| Documents.DownloadRoute | notas-service/lambda_function.py:440-445 | a missing or empty rfc or folio parameter is a 400; otherwise the download runs |
| NoteValidation.HasMember | notas-service/lambda_function.py:55 | Python `in` on an item: a key of an object, an element of a list, a substring of a text, and raising otherwise |
| NoteValidation.ItemVerdict | notas-service/lambda_function.py:54-61 | an item is accepted exactly when it is an object with both keys and a positive `int(cantidad)`; the three messages in check order; a scalar item raises |
| NoteValidation.FirstBadItem | notas-service/lambda_function.py:54-61 | the first item, in request order, that is not accepted |
| NoteValidation.ValidateNota | notas-service/lambda_function.py:45-63 | accepts exactly the bodies with the four fields truthy and a non-empty list of acceptable items; otherwise the first failing check's answer |
| NoteValidation.AcceptedItemsAreObjects | notas-service/lambda_function.py:209-215 | after validation every item is an object with both keys, as the pricing loop indexes them |
| Pricing.ItemFailure | notas-service/lambda_function.py:209-215 | an item fails with 500 for a key `get_item` rejects, 404 "Producto … no encontrado" for an unknown product, and 500 for an unreadable quantity |
| Pricing.LineOf | notas-service/lambda_function.py:214-225 | a line copies the product's name and base price, and its amount is quantity × price |
| Pricing.PriceItems | notas-service/lambda_function.py:205-226 | succeeds exactly when every item prices, with one line per item in order; otherwise it fails with the first failing item's failure |
| Pricing.TotalIsAmount | notas-service/lambda_function.py:205-226 | the accumulated total is exactly the sum of quantity × base price over the request |
| Pricing.TotalPositive | notas-service/lambda_function.py:218 | a total of positive amounts is positive, and zero only for no lines |
| Pricing.PricedLinesPositive | notas-service/lambda_function.py:205-226 | with validated items and positive stored prices every quantity is at least 1 and every amount and the total are positive |
| Pricing.BuildContenidos | notas-service/lambda_function.py:205-226 | the loop as written computes exactly `PriceItems` and the running total is `Total` of the lines |
| Notes.ReadPhase | notas-service/lambda_function.py:183-226 | the gates in order: validation (400/500), customer (500 bad key, 404), both address keys (500), billing 404, shipping 404, then pricing; success carries the stored customer and the priced lines |
| Notes.ApplyAllAppend | notas-service/lambda_function.py:242-264 | writes issued one after another compose |
| Notes.ApplyAllFrame | notas-service/lambda_function.py:242-264 | the writes never touch the catalogue or the outbox, and only the PDF write touches the bucket |
| Notes.StoreLinesContents | notas-service/lambda_function.py:246-258 | line records with distinct ids each land under their own id, and no other record changes |
| Notes.Layout | notas-service/lambda_function.py:90-100 | the PDF table has the header row, one row per line in request order with its quantity, name, price and amount, and the total row |
| Notes.EventOf | notas-service/lambda_function.py:153-171 | the event's subject, its message with e-mail, folio, RFC, base URL and timestamp, and its three attributes; stated by `Notes.CreateNotaPublishes` and `Scenario.EventNotifies` |
| Notes.Publish | notas-service/lambda_function.py:161-176 | a failed publish reports false and leaves the state as it was; a successful one appends the event |
| Notes.ApplyPlan | notas-service/lambda_function.py:242-264 | the whole write phase adds the note, stores the lines and uploads the PDF, and changes nothing else |
| Notes.EarlyExitWritesNothing | notas-service/lambda_function.py:183-212 | every early exit answers its gate's failure (400, 404 or 500) and writes nothing |
| Notes.CreateNota | notas-service/lambda_function.py:179-309 | create_nota_venta: the gates, then the writes, then the swallowed publish; stated by `Notes.EarlyExitWritesNothing`, `Notes.CreateNotaSucceeds`, `Notes.CreateNotaLines`, `Notes.CreateNotaFault` and `Notes.CreateNotaPublishes` |
| Notes.CreateNotaSucceeds | notas-service/lambda_function.py:179-309 | with every gate passing and no write raising: 201, the note's folio and its total as the sum of quantity × base price; the catalogue is untouched; exactly the note is added; the PDF is uploaded under "rfc/folio.pdf" |
| Notes.PlanLines | notas-service/lambda_function.py:246-258 | the write phase adds one line record per line under fresh, distinct ids, each pointing at the note with the line's figures, and keeps existing records |
| Notes.CreateNotaLines | notas-service/lambda_function.py:246-258 | the same, for `create_nota_venta` with passing gates and no failing write |
| Notes.PlanPrefix | notas-service/lambda_function.py:242-264 | a write that raises at position k leaves exactly the earlier writes: nothing, the note, or the note and the first k − 1 lines; nothing is uploaded or published |
| Notes.CreateNotaFault | notas-service/lambda_function.py:453-476 | a write that raises gives 500 with exactly the earlier writes persisted, since the saga is not transactional |
| Notes.CreateNotaPublishes | notas-service/lambda_function.py:267-309 | the publish outcome never changes the reply (201 either way), and the outbox grows by the note's event exactly when the topic accepts it |
| Gateway.Decode | notas-service/lambda_function.py:430 | the gateway's percent-decoding of "%" and two hex digits of an ASCII character; never lengthens, and text without "%" is unchanged |
| Gateway.Encode | notas-service/lambda_function.py:430 | the encoding a link needs: every character of the result is "%" or one a link carries as it is, and the result decodes back to the input |
| Gateway.EncodedAvoids | notas-service/lambda_function.py:430 | an encoded text holds no ASCII character outside the unreserved set other than "%": no "&", tab or line break |
| Gateway.Unbroken | notas-service/lambda_function.py:430 | a followed link is requested without its tabs and line breaks: the result is one line, never longer, shorter exactly when the link had one, and a one-line link is unchanged |
| Gateway.UnbrokenAppend | notas-service/lambda_function.py:430 | the removal works piece by piece over a concatenation |
| Gateway.UnbrokenKeeps | notas-service/lambda_function.py:430 | any character other than a tab or line break is in the request exactly when it is in the link |
| Gateway.QueryOf | notas-service/lambda_function.py:430 | a URL without "?" has an empty query, otherwise the query is shorter than the URL; `Gateway.QueryAfterMark` pins it to the text after the first "?" |
| Gateway.QueryAfterMark | notas-service/lambda_function.py:430 | a URL made of a path without "?", a "?" and a query yields that query |
| Gateway.Split | notas-service/lambda_function.py:430 | the query cut at every "&": at least one piece, and text without "&" is one piece |
| Gateway.SplitPieces | notas-service/lambda_function.py:430 | no piece holds "&" or is longer than the query |
| Gateway.JoinSplit | notas-service/lambda_function.py:430 | joining the pieces with "&" rebuilds the query |
| Gateway.SplitAround | notas-service/lambda_function.py:430 | text cut at a "&" splits into the pieces of each side |
| Gateway.PieceNamed | notas-service/lambda_function.py:430 | every piece's name becomes a parameter |
| Gateway.ParameterFromPiece | notas-service/lambda_function.py:430 | every parameter comes from a piece of that name and holds its value |
| Gateway.LastPieceWins | notas-service/lambda_function.py:430 | a repeated name keeps the value of its last piece |
| Gateway.ThreePieces | notas-service/lambda_function.py:430 | a three-piece query gives the three names their values, later pieces winning |
| Gateway.PieceAt | notas-service/lambda_function.py:430 | a piece splits at its first "=" into a decoded name and a decoded value |
| Notifications.DownloadUrl | notifications-service/lambda_function.py:168 | the link built without encoding; what the download route receives from it is stated by `Notifications.LinkParameters` |
| Notifications.LinkParameters | notifications-service/lambda_function.py:168 | the gateway's reading of the link's text hands the route its RFC and folio exactly when the RFC has no "&"; an RFC with "&" arrives cut short, while the folio always arrives |
| Notifications.UnbrokenLink | notifications-service/lambda_function.py:168 | a followed link is the link of its base, RFC and folio each without tabs and line breaks |
| Notifications.FollowedLinkParameters | notifications-service/lambda_function.py:168 | what the route receives from a followed link: the folio without tabs and line breaks, and the RFC so too when it has no "&", otherwise cut short |
| Notifications.FollowedLink | notifications-service/lambda_function.py:168 | for a one-line folio and texts without "%": the followed link hands the route exactly the RFC and folio if and only if the RFC has no "&", no tab and no line break; otherwise the RFC arrives shorter |
| Notifications.FollowedCutRfcParameters | notifications-service/lambda_function.py:168 | the followed link of a one-line RFC `a&b` gives the route the RFC `a`, `b` with an empty value, and the folio |
| Notifications.CutRfcParameters | notifications-service/lambda_function.py:168 | for an RFC `a&b` the route receives the RFC `a`, and `b` as a parameter of its own with an empty value |
| Notifications.EncodedLinkParameters | notifications-service/lambda_function.py:168 | a link with its RFC and folio percent-encoded hands the route exactly that RFC and folio, for every RFC and folio, whether its text is read or it is followed |
| Notifications.EncodedOneLine | notifications-service/lambda_function.py:168 | an encoded RFC or folio has no "&", no tab and no line break |
| Notifications.SendStatus | notifications-service/lambda_function.py:104-123 | accepted gives 200; invalid parameters 400; topic not found 404; any other failure 500 |
| Notifications.Attempt | notifications-service/lambda_function.py:71-81 | the publish call is issued, with its subject, e-mail, folio, RFC and link, exactly when the three values are strings |
| Notifications.Send | notifications-service/lambda_function.py:69-123 | the result reports the message id when accepted, and otherwise the mapped status; non-string values fail with 500 |
| Notifications.MessageAction | notifications-service/lambda_function.py:156-168 | a message with a falsy e-mail, folio or RFC is skipped; otherwise it notifies with the link, whose base defaults to "" |
| Notifications.RecordAction | notifications-service/lambda_function.py:142-168 | a non-object record raises; a non-SNS record is skipped; an SNS record without an `Sns` object holding a `Message` raises; a non-text or non-JSON message is skipped; a message decoding to a non-object raises |
| Notifications.Actions | notifications-service/lambda_function.py:142 | one action per record, in order |
| Notifications.RunActions | notifications-service/lambda_function.py:142-179 | the loop raises exactly when some record raises, and issues at most one call per record |
| Notifications.RunRecords | notifications-service/lambda_function.py:142-179 | the records loop raises exactly when some record's action does |
| Notifications.RunActionsAppend | notifications-service/lambda_function.py:142-179 | records processed without raising contribute their calls in order, then the rest run |
| Notifications.SkipIsInert | notifications-service/lambda_function.py:153 | a skipped record changes neither the calls nor the outcome |
| Notifications.AllSkippedIsSilent | notifications-service/lambda_function.py:161-165 | records that are all skipped issue no call and raise nothing |
| Notifications.CallsOfDeliveries | notifications-service/lambda_function.py:142-179 | when nothing raises, the calls are exactly those of the delivering records, in record order |
| Notifications.FlattenCons | notifications-service/lambda_function.py:142-179 | the calls of a first record followed by the others' calls |
| Notifications.SingleRecordNotifies | notifications-service/lambda_function.py:142-179 | one delivering SNS record with text fields issues exactly its one call and raises nothing |
| Notifications.RouteOf | notifications-service/lambda_function.py:140 | the SNS path exactly for a non-empty list of records; the HTTP path for absent or empty records; otherwise raising |
| Notifications.RequestBody | notifications-service/lambda_function.py:183-190 | a truthy text `body` that `json.loads` reads is the request; a truthy body that is not text or does not decode falls back to the event, and so does an absent or falsy body |
| Notifications.HttpInvoke | notifications-service/lambda_function.py:181-248 | a non-object request is a 500; a missing field is a 400 with no call; otherwise the single call's status and that call, with the default base |
| Notifications.Handle | notifications-service/lambda_function.py:138-266 | the SNS path answers 200 with the records' calls, or 500 when one raises; the HTTP path answers as `HttpInvoke` |
| Notifications.SnsPathIgnoresReplies | notifications-service/lambda_function.py:175-179 | on the SNS path the status is 200 exactly when no record raises, and 500 otherwise; that the outcome is the same for every topic answer holds by construction, since that branch never reads the answer |
| Notifications.HttpSucceedsExactly | notifications-service/lambda_function.py:183-248 | the HTTP path answers 200 exactly when the request is an object with non-empty text email, folio and RFC and the topic accepts; it issues its one call exactly when the request is complete, and otherwise answers 400 or 500 with no call |
| Notifications.HttpDefaultBase | notifications-service/lambda_function.py:195-248 | a request with three text fields and no base gets its publish's status and one call whose link uses "https://api.example.com" |
| Scenario.FolioAvoids | notas-service/lambda_function.py:230 | a folio never holds a character other than a capital, a digit or "-" that the id lacks, so a uuid's folio has no "&" and no "%" |
| Scenario.EventNotifies | notifications-service/lambda_function.py:142-171 | the event of a note with a non-empty address, RFC and folio, delivered as an SNS record, issues exactly one notification; following its link hands the route that RFC and folio exactly when the RFC has no "&", no tab and no line break |
| Scenario.CreatedNoteEvent | notas-service/lambda_function.py:260-267 | a created note publishes its event last, with a non-empty address, RFC and folio (the folio one line and without "&", no "%" in either), and uploads under the reply's key |
| Scenario.LinkFindsUpload | notas-service/lambda_function.py:440-445 | the download route given an uploaded note's RFC and folio redirects to its object |
| Scenario.LinkRoute | notas-service/lambda_function.py:428-445 | following a link as written, with the PDF in the bucket, redirects to it exactly when the RFC has no "&", no tab and no line break |
| Scenario.RouteOfQuery | notas-service/lambda_function.py:440-445 | with the PDF in the bucket, a query carrying the folio and either the RFC or a shorter text redirects to it exactly when it carries the RFC |
| Scenario.AmpersandRfcQuery | catalogos-service/lambda_function.py:20 | "A&C850101AAA" has RFC shape, and the gateway reads its followed link as RFC "A", a parameter "C850101AAA" and the folio |
| Scenario.AmpersandRfcLinkMisses | notas-service/lambda_function.py:428-445 | after the PDF is uploaded under "A&C850101AAA", following its link answers 404 |
| Scenario.NewlineRfcShape | catalogos-service/lambda_function.py:20 | "ETE201125XYZ" followed by a line break has RFC shape, the pattern's `$` matching before the final newline |
| Scenario.NewlineRfcLinkMisses | notas-service/lambda_function.py:428-445 | after the PDF is uploaded under "ETE201125XYZ" and a line break, following its link answers 404 |
| Scenario.FollowedLinkMisses | notas-service/lambda_function.py:428-445 | after a lone upload, the followed link of an RFC without "&" but with a tab or line break answers 404 |
| Scenario.EncodedLinkFindsUpload | notas-service/lambda_function.py:428-445 | following an encoded link redirects to the uploaded PDF for every RFC and folio, tabs and line breaks included |
| Scenario.PublishedNoteReachesCustomer | notas-service/lambda_function.py:260-267 | end to end: a created note's event, decoded from its message text, yields one notification to the customer; the route given the RFC and folio redirects to the uploaded PDF, and following the link gets that redirect exactly when the RFC has no "&", no tab and no line break |
| Scenario.TestCatalogueBuilt | test-app.py:136-175 | both product bodies of the test run pass `create_producto`, and the table holds exactly the two products with their names and prices 25000.00 and 350.00 |
| Scenario.TestRunTotal | test-app.py:139-201 | the test run's products (25000.00 and 350.00, bought once and twice) price, and the note totals 25700.00; its RFC is of RFC shape |

## Findings

| source | as written | input that shows it | evidently intended | confidence | as-written member | corrected member |
|---|---|---|---|---|---|---|
| notifications-service/lambda_function.py:168 | the download link puts the RFC and folio into the query unencoded; the gateway cuts the query at every "&", and `RFC_REGEX` admits "&" in an RFC, so such a customer's link reaches the download route with a truncated RFC and answers 404 | RFC "A&C850101AAA" with folio "NV-20251125-ABCDEF12" | the RFC and folio percent-encoded in the link, so the route receives them exactly | not executed | Scenario.AmpersandRfcLinkMisses | Scenario.EncodedLinkFindsUpload |
| catalogos-service/lambda_function.py:20 | `RFC_REGEX` ends in `$`, which `re.match` also lets match before a final newline, so an RFC ending in a line break is accepted and stored as it is (:93); the notification link then holds a raw line break, which a client drops when following it, and the route looks up an RFC without it and answers 404 | RFC "ETE201125XYZ" followed by a line break, with folio "NV-20251125-ABCDEF12" | an RFC without the line break (the pattern anchored with `\Z`), or the link percent-encoded so the line break travels as "%0A" | not executed | Scenario.NewlineRfcLinkMisses | Scenario.EncodedLinkFindsUpload |

## Left out

- I/O through boto3 is replaced by maps and parameters: DynamoDB, S3, SNS and CloudWatch. Metrics and logging are left out entirely.
- The PDF renderer (reportlab) is a parameter. Only the table it is given is modelled, not its fonts or styles, and not the `:.2f` float formatting of the amounts.
- Decimal arithmetic is exact here. Python's 28-digit context and its rounding are left out, and so is float rounding of JSON numbers. So is DynamoDB's limit of 38 significant digits on a stored number (see the catalogue operations below).
- `int()` and `Decimal()` of text: surrounding whitespace, underscores, exponents, Infinity and NaN are not modelled. Such text is treated as unreadable.
- Case mapping covers ASCII letters and ñ/Ñ only. Other Unicode letters are left unchanged, and regex `\d` matches ASCII digits only.
- Text.Upper: does not model Python's one-to-many upper-case mappings, which change the length (ß→SS, ﬁ→FI). So an RFC body such as "ßAB201125XYZ", which Python upper-cases to "SSAB201125XYZ", accepts and stores, is rejected by the model with the RFC message.
- Python's `str()` of a non-string JSON value is the parameter `show`, and `json.loads` is the parameter `decode`. The text `json.dumps` produces is any text that `decode` reads back as the message.
- The race between two concurrent uploads of the same note, where the read-modify-write of the counter interleaves, is not modelled: calls are sequential.
- The presigned URL, its 15-minute expiry, the Location header and all response bodies are left out. A redirect is modelled only by the object key it names.
- Exception text appended to messages ("PDF no encontrado: …", "Error interno: …") is not modelled. Such failures carry a fixed message.
- catalogos-service routing and body parsing are left out (method and path matching, path parameters). A `body` that `json.loads` cannot read becomes `{}` there, and one that decodes to a list or text reaches the validators as a non-dict. The validators here take an object, so that last case is not expressible.
- The gateway's query reading is modelled for the links the services build. Percent-decoding covers the escapes of ASCII characters; "+" as a space, the UTF-8 escapes of non-ASCII text such as Ñ (which `Gateway.Encode` leaves as it is) and the comma-joined repeats of the HTTP API payload are left out. A base URL with a "?" in it is not covered.
- Following a link is modelled by the URL Standard's removal of tabs and line breaks. Its trimming of leading and trailing spaces and control characters is left out: a link starts with its base and ends with its folio, and a created note's folio has neither. A "#" that starts a fragment is left out too: neither an RFC of RFC shape nor a folio holds one, and `Gateway.Encode` escapes it. A mail client that links only the first line of a broken link is not modelled; the route then lacks the folio and answers 400, which is no redirect either.
- notas-service routing and event parsing are left out: method and path matching, and composing `api_gateway_url` from the domain and stage. So are `get_nota_venta` and every `get_*`/`list_*` operation, which are outside the modelled core. The download route check and the handler's catch-all are modelled. A body that decodes to a list or a text reaches `validate_nota_venta` as a non-dict (notas-service/lambda_function.py:421-427); the model's request body is always an object, so it cannot express that input.
- The text of the e-mail notification (date, environment name) and its `environment` message attribute are left out.
- Notes.CreateNota: requires a four-digit year from the clock, because `strftime('%Y')` pads years below 1000 differently.
- Notes.CreateNotaLines: states the line contents only when the drawn uuids are fresh and distinct. Collisions of `uuid4` are not modelled.
- Scenario.PublishedNoteReachesCustomer: states the notification only for a message text that `decode` reads back as the published message, and assumes a note id of uuid text. Its statement about following the link covers only a base URL without "?".
- Catalog.CreateCliente: a JSON float in a field stored as given makes `put_item` raise (boto3 refuses Python floats), which the catch-all answers 500 with nothing stored. JSON numbers are not split into integers and floats here, so the model stores such a body. Likewise a number with more than 38 significant digits makes `put_item` raise: DynamoDB keeps at most 38, and boto3 refuses to round. Numbers here are unbounded, so the model stores such a body too.
- Catalog.UpdateCliente: a JSON float in a field stored as given makes `put_item` raise (boto3 refuses Python floats), which the catch-all answers 500 with nothing stored. JSON numbers are not split into integers and floats here, so the model stores such a body. Likewise a number with more than 38 significant digits makes `put_item` raise: DynamoDB keeps at most 38, and boto3 refuses to round. Numbers here are unbounded, so the model stores such a body too.
- Catalog.CreateDomicilio: a JSON float in a field stored as given makes `put_item` raise (boto3 refuses Python floats), which the catch-all answers 500 with nothing stored. JSON numbers are not split into integers and floats here, so the model stores such a body. Likewise a number with more than 38 significant digits makes `put_item` raise: DynamoDB keeps at most 38, and boto3 refuses to round. Numbers here are unbounded, so the model stores such a body too.
- Catalog.UpdateDomicilio: a JSON float in a field stored as given makes `put_item` raise (boto3 refuses Python floats), which the catch-all answers 500 with nothing stored. JSON numbers are not split into integers and floats here, so the model stores such a body. Likewise a number with more than 38 significant digits makes `put_item` raise: DynamoDB keeps at most 38, and boto3 refuses to round. Numbers here are unbounded, so the model stores such a body too.
- Catalog.CreateProducto: a JSON float in a field stored as given makes `put_item` raise (boto3 refuses Python floats), which the catch-all answers 500 with nothing stored. JSON numbers are not split into integers and floats here, so the model stores such a body. Likewise a number with more than 38 significant digits makes `put_item` raise: DynamoDB keeps at most 38, and boto3 refuses to round. This includes a `precio_base` of 39 or more significant digits that passes `validate_producto` and is stored as its exact Decimal. Numbers here are unbounded, so the model stores such a body too.
- Catalog.UpdateProducto: a JSON float in a field stored as given makes `put_item` raise (boto3 refuses Python floats), which the catch-all answers 500 with nothing stored. JSON numbers are not split into integers and floats here, so the model stores such a body. Likewise a number with more than 38 significant digits makes `put_item` raise: DynamoDB keeps at most 38, and boto3 refuses to round. This includes a `precio_base` of 39 or more significant digits that passes `validate_producto` and is stored as its exact Decimal. Numbers here are unbounded, so the model stores such a body too.

=== FILE: catalog.dfy ===
/** The catalogue service: customers (clientes), addresses (domicilios) and
    products (productos). Each has a validator over the decoded request body,
    a normalised stored record, and create / update / delete on its table.
    Success answers 201 for create and 200 for update and delete. */
module Catalog {
  import opened Prelude
  import opened Text
  import opened Json
  import opened Tables

  /** A stored record carries `created_at` when written by create and
      `updated_at` (only) when rewritten by update. */
  datatype Stamp = CreatedAt(at: string) | UpdatedAt(at: string)

  // ---------------------------------------------------------------------
  // RFC_REGEX = ^[A-ZÑ&]{3,4}\d{6}[A-Z0-9]{2,3}$
  // ---------------------------------------------------------------------

  predicate RfcInitial(c: char) { IsAsciiUpper(c) || c == 'Ñ' || c == '&' }
  predicate RfcTail(c: char) { IsAsciiUpper(c) || IsDigit(c) }

  /** `s` is `a` initials, six digits, then two or three tail characters. */
  predicate RfcSplit(s: string, a: nat) {
    && a + 8 <= |s| <= a + 9
    && (forall i :: 0 <= i < a ==> RfcInitial(s[i]))
    && (forall i :: a <= i < a + 6 ==> IsDigit(s[i]))
    && (forall i :: a + 6 <= i < |s| ==> RfcTail(s[i]))
  }

  predicate RfcCore(s: string) { RfcSplit(s, 3) || RfcSplit(s, 4) }

  /** `re.match` of the pattern: its `$` matches at the end of the text or
      just before a final newline. */
  predicate RfcMatches(s: string) {
    RfcCore(s) || (|s| > 0 && s[|s| - 1] == '\n' && RfcCore(s[..|s| - 1]))
  }

  /** An RFC of RFC shape has no '%', so a query hands it over undecoded. */
  lemma RfcHasNoPercent(s: string)
    requires RfcMatches(s)
    ensures '%' !in s
  {
    var core := if RfcCore(s) then s else s[..|s| - 1];
    assert '%' !in core by {
      var a := if RfcSplit(core, 3) then 3 else 4;
      forall i | 0 <= i < |core| ensures core[i] != '%' {
        if i < a {
          assert RfcInitial(core[i]);
        } else if i < a + 6 {
          assert IsDigit(core[i]);
        } else {
          assert RfcTail(core[i]);
        }
      }
    }
    if !RfcCore(s) {
      assert s == core + [s[|s| - 1]];
    }
  }

  // ---------------------------------------------------------------------
  // EMAIL_REGEX = ^[a-zA-Z0-9._%+-]+@[a-zA-Z0-9.-]+\.[a-zA-Z]{2,}$
  // ---------------------------------------------------------------------

  predicate LocalChar(c: char) {
    IsAsciiLetter(c) || IsDigit(c) || c == '.' || c == '_' || c == '%' || c == '+' || c == '-'
  }
  predicate HostChar(c: char) { IsAsciiLetter(c) || IsDigit(c) || c == '.' || c == '-' }

  /** `s` is local part, `@` at `at`, host part, `.` at `dot`, then at least
      two letters. */
  predicate EmailSplit(s: string, at: int, dot: int) {
    && 0 < at && at + 2 <= dot && dot + 3 <= |s|
    && s[at] == '@' && s[dot] == '.'
    && (forall i :: 0 <= i < at ==> LocalChar(s[i]))
    && (forall i :: at < i < dot ==> HostChar(s[i]))
    && (forall i :: dot < i < |s| ==> IsAsciiLetter(s[i]))
  }

  predicate EmailCore(s: string) {
    exists at, dot :: 0 <= at < |s| && 0 <= dot < |s| && EmailSplit(s, at, dot)
  }

  predicate EmailMatches(s: string) {
    EmailCore(s) || (|s| > 0 && s[|s| - 1] == '\n' && EmailCore(s[..|s| - 1]))
  }

  lemma LowerKeepsEmailCore(s: string)
    requires EmailCore(s)
    ensures EmailCore(Lower(s))
  {
    var at, dot :| 0 <= at < |s| && 0 <= dot < |s| && EmailSplit(s, at, dot);
    assert EmailSplit(Lower(s), at, dot);
  }

  /** A lower-cased address still has the shape of an address. */
  lemma LowerKeepsEmail(s: string)
    requires EmailMatches(s)
    ensures EmailMatches(Lower(s))
  {
    if EmailCore(s) {
      LowerKeepsEmailCore(s);
    } else {
      var body := s[..|s| - 1];
      LowerKeepsEmailCore(body);
      assert Lower(s)[..|s| - 1] == Lower(body);
    }
  }

  /** An address has at least a local character, `@`, a host character,
      `.` and two letters. */
  lemma EmailNotEmpty(s: string)
    requires EmailMatches(s)
    ensures |s| >= 5
  {
    if !EmailCore(s) {
      var at, dot :| 0 <= at < |s| - 1 && 0 <= dot < |s| - 1 && EmailSplit(s[..|s| - 1], at, dot);
    }
  }

  // ---------------------------------------------------------------------
  // Clientes
  // ---------------------------------------------------------------------

  datatype Cliente = Cliente(
    id: string,
    razonSocial: Json,
    nombreComercial: Json,
    rfc: string,
    correo: string,
    telefono: Json,
    stamp: Stamp)

  const ClienteFields: seq<string> := ["razon_social", "nombre_comercial", "rfc", "correo", "telefono"]
  const MsgRfc := "RFC no tiene un formato válido"
  const MsgEmail := "Correo electrónico no tiene un formato válido"
  const MsgClienteMissing := "Cliente no encontrado"
  const MsgClienteDeleted := "Cliente eliminado correctamente"

  /** Everything validate_cliente checks holds of the body. */
  predicate ClienteAcceptable(data: Object) {
    && AllProvided(data, ClienteFields)
    && "rfc" in data && data["rfc"].JStr? && RfcMatches(Upper(data["rfc"].s))
    && "correo" in data && data["correo"].JStr? && EmailMatches(data["correo"].s)
  }

  /** validate_cliente. Calling `.upper()` on an RFC, or matching an address,
      that is not text raises. */
  function ValidateCliente(data: Object): (v: Verdict)
    ensures v.Accept? <==> ClienteAcceptable(data)
    ensures !AllProvided(data, ClienteFields) ==>
      v == Reject(RequiredMessage(ClienteFields[FirstMissing(data, ClienteFields).value]))
    ensures (AllProvided(data, ClienteFields) && "rfc" in data && data["rfc"].JStr?
             && !RfcMatches(Upper(data["rfc"].s))) ==> v == Reject(MsgRfc)
    ensures (AllProvided(data, ClienteFields) && "rfc" in data && data["rfc"].JStr?
             && RfcMatches(Upper(data["rfc"].s)) && "correo" in data && data["correo"].JStr?
             && !EmailMatches(data["correo"].s)) ==> v == Reject(MsgEmail)
  {
    match FirstMissing(data, ClienteFields)
    case Some(k) => Reject(RequiredMessage(ClienteFields[k]))
    case None =>
      assert Provided(data, ClienteFields[2]) && Provided(data, ClienteFields[3]);
      var rfc := data["rfc"];
      if !rfc.JStr? then Raise
      else if !RfcMatches(Upper(rfc.s)) then Reject(MsgRfc)
      else
        var correo := data["correo"];
        if !correo.JStr? then Raise
        else if !EmailMatches(correo.s) then Reject(MsgEmail)
        else Accept
  }

  /** A stored customer: required values truthy, RFC upper-case and of RFC
      shape, address lower-case and of address shape. */
  predicate WellFormedCliente(c: Cliente) {
    && Truthy(c.razonSocial) && Truthy(c.nombreComercial) && Truthy(c.telefono)
    && c.rfc != "" && Upper(c.rfc) == c.rfc && RfcMatches(c.rfc)
    && c.correo != "" && Lower(c.correo) == c.correo && EmailMatches(c.correo)
  }

  /** The item create_cliente / update_cliente write: RFC upper-cased and
      address lower-cased, everything else as given. */
  function ClienteRecord(id: string, data: Object, stamp: Stamp): (c: Cliente)
    requires ClienteAcceptable(data)
    ensures WellFormedCliente(c)
    ensures c.id == id && c.stamp == stamp
    ensures c.rfc == Upper(data["rfc"].s) && c.correo == Lower(data["correo"].s)
  {
    assert Provided(data, ClienteFields[0]) && Provided(data, ClienteFields[1]);
    assert Provided(data, ClienteFields[2]) && Provided(data, ClienteFields[3]);
    assert Provided(data, ClienteFields[4]);
    var rfc, correo := data["rfc"].s, data["correo"].s;
    UpperIdempotent(rfc);
    LowerIdempotent(correo);
    LowerKeepsEmail(correo);
    EmailNotEmpty(correo);
    Cliente(id, data["razon_social"], data["nombre_comercial"], Upper(rfc), Lower(correo),
            data["telefono"], stamp)
  }

  /** The request body a stored customer would be sent back as. */
  function ClienteBody(c: Cliente): Object {
    map["razon_social" := c.razonSocial, "nombre_comercial" := c.nombreComercial,
        "rfc" := JStr(c.rfc), "correo" := JStr(c.correo), "telefono" := c.telefono]
  }

  /** Normalising an already normalised customer changes nothing but the stamp:
      sending a stored record back through create or update stores it as it was. */
  lemma ClienteNormalizationFixed(c: Cliente, stamp: Stamp)
    requires WellFormedCliente(c)
    ensures ClienteAcceptable(ClienteBody(c))
    ensures ClienteRecord(c.id, ClienteBody(c), stamp) == c.(stamp := stamp)
  {
    var body := ClienteBody(c);
    assert AllProvided(body, ClienteFields) by {
      forall i | 0 <= i < |ClienteFields| ensures Provided(body, ClienteFields[i]) {
        assert ClienteFields[i] in body;
      }
    }
  }

  function CreateCliente(t: Table<Cliente>, data: Object, id: string, now: string)
    : (r: (Result<Cliente>, Table<Cliente>))
    ensures r.0.Ok? <==> ClienteAcceptable(data)
    ensures r.0.Fail? ==> r.0.failure == VerdictFailure(ValidateCliente(data)) && r.1 == t
    ensures r.0.Ok? ==> r.0.value == ClienteRecord(id, data, CreatedAt(now)) && r.1 == t[id := r.0.value]
  {
    var v := ValidateCliente(data);
    if !v.Accept? then (Fail(VerdictFailure(v)), t)
    else
      var c := ClienteRecord(id, data, CreatedAt(now));
      (Ok(c), t[id := c])
  }

  /** update_cliente: the body is validated before the key is looked up. */
  function UpdateCliente(t: Table<Cliente>, id: string, data: Object, now: string)
    : (r: (Result<Cliente>, Table<Cliente>))
    ensures !ClienteAcceptable(data) ==> r == (Fail(VerdictFailure(ValidateCliente(data))), t)
    ensures ClienteAcceptable(data) && id !in t ==> r == (Fail(Failure(NotFound, MsgClienteMissing)), t)
    ensures ClienteAcceptable(data) && id in t ==>
      && r.0 == Ok(ClienteRecord(id, data, UpdatedAt(now)))
      && r.1.Keys == t.Keys && r.1[id] == r.0.value
      && forall k :: k in t && k != id ==> r.1[k] == t[k]
  {
    var v := ValidateCliente(data);
    if !v.Accept? then (Fail(VerdictFailure(v)), t)
    else
      var c := ClienteRecord(id, data, UpdatedAt(now));
      match Replace(t, id, c)
      case None => (Fail(Failure(NotFound, MsgClienteMissing)), t)
      case Some(t') => (Ok(c), t')
  }

  function DeleteCliente(t: Table<Cliente>, id: string): (r: (Result<string>, Table<Cliente>))
    ensures id !in t ==> r == (Fail(Failure(NotFound, MsgClienteMissing)), t)
    ensures id in t ==>
      && r.0 == Ok(MsgClienteDeleted)
      && r.1.Keys == t.Keys - {id}
      && forall k :: k in r.1 ==> r.1[k] == t[k]
  {
    match Remove(t, id)
    case None => (Fail(Failure(NotFound, MsgClienteMissing)), t)
    case Some(t') => (Ok(MsgClienteDeleted), t')
  }

  /** Every stored customer is well formed and stored under its own id. */
  predicate ClientesInvariant(t: Table<Cliente>) {
    forall k :: k in t ==> t[k].id == k && WellFormedCliente(t[k])
  }

  lemma ClientesInvariantPreserved(t: Table<Cliente>, data: Object, id: string, now: string)
    requires ClientesInvariant(t)
    ensures ClientesInvariant(CreateCliente(t, data, id, now).1)
    ensures ClientesInvariant(UpdateCliente(t, id, data, now).1)
    ensures ClientesInvariant(DeleteCliente(t, id).1)
  {
  }

  // ---------------------------------------------------------------------
  // Domicilios
  // ---------------------------------------------------------------------

  datatype Domicilio = Domicilio(
    id: string,
    clienteId: Json,
    domicilio: Json,
    colonia: Json,
    municipio: Json,
    estado: Json,
    tipo: string,
    stamp: Stamp)

  const DomicilioFields: seq<string> := ["cliente_id", "domicilio", "colonia", "municipio", "estado", "tipo"]
  const Facturacion := "FACTURACION"
  const Envio := "ENVIO"
  const MsgTipo := "Tipo debe ser FACTURACION o ENVIO"
  const MsgDomicilioMissing := "Domicilio no encontrado"
  const MsgDomicilioDeleted := "Domicilio eliminado correctamente"

  predicate DomicilioAcceptable(data: Object) {
    && AllProvided(data, DomicilioFields)
    && "cliente_id" in data
    && "tipo" in data && data["tipo"].JStr?
    && (Upper(data["tipo"].s) == Facturacion || Upper(data["tipo"].s) == Envio)
  }

  /** validate_domicilio. Calling `.upper()` on a type that is not text raises. */
  function ValidateDomicilio(data: Object): (v: Verdict)
    ensures v.Accept? <==> DomicilioAcceptable(data)
    ensures !AllProvided(data, DomicilioFields) ==>
      v == Reject(RequiredMessage(DomicilioFields[FirstMissing(data, DomicilioFields).value]))
    ensures (AllProvided(data, DomicilioFields) && "tipo" in data && data["tipo"].JStr?
             && !DomicilioAcceptable(data)) ==> v == Reject(MsgTipo)
  {
    match FirstMissing(data, DomicilioFields)
    case Some(k) => Reject(RequiredMessage(DomicilioFields[k]))
    case None =>
      assert Provided(data, DomicilioFields[5]);
      var tipo := data["tipo"];
      if !tipo.JStr? then Raise
      else if Upper(tipo.s) != Facturacion && Upper(tipo.s) != Envio then Reject(MsgTipo)
      else Accept
  }

  /** A stored address: required values truthy and the type tag upper-case,
      one of the two accepted tags. */
  predicate WellFormedDomicilio(d: Domicilio) {
    && Truthy(d.clienteId) && Truthy(d.domicilio) && Truthy(d.colonia)
    && Truthy(d.municipio) && Truthy(d.estado)
    && (d.tipo == Facturacion || d.tipo == Envio)
  }

  /** The item create_domicilio / update_domicilio write: the type upper-cased. */
  function DomicilioRecord(id: string, data: Object, stamp: Stamp): (d: Domicilio)
    requires DomicilioAcceptable(data)
    ensures WellFormedDomicilio(d) && Upper(d.tipo) == d.tipo
    ensures d.id == id && d.stamp == stamp && d.tipo == Upper(data["tipo"].s)
  {
    assert Provided(data, DomicilioFields[0]) && Provided(data, DomicilioFields[1]);
    assert Provided(data, DomicilioFields[2]) && Provided(data, DomicilioFields[3]);
    assert Provided(data, DomicilioFields[4]) && Provided(data, DomicilioFields[5]);
    UpperIdempotent(data["tipo"].s);
    Domicilio(id, data["cliente_id"], data["domicilio"], data["colonia"], data["municipio"],
              data["estado"], Upper(data["tipo"].s), stamp)
  }

  /** create_domicilio: validation, then the owning customer must exist. A
      customer reference that is not a non-empty string makes the lookup raise. */
  function CreateDomicilio(t: Table<Domicilio>, clientes: Table<Cliente>, data: Object, id: string, now: string)
    : (r: (Result<Domicilio>, Table<Domicilio>))
    ensures !DomicilioAcceptable(data) ==> r == (Fail(VerdictFailure(ValidateDomicilio(data))), t)
    ensures DomicilioAcceptable(data) && StoreKey(data["cliente_id"]).None? ==> r == (Fail(Internal), t)
    ensures (DomicilioAcceptable(data) && StoreKey(data["cliente_id"]).Some?
             && StoreKey(data["cliente_id"]).value !in clientes)
            ==> r == (Fail(Failure(NotFound, MsgClienteMissing)), t)
    ensures r.0.Ok? <==> (DomicilioAcceptable(data) && StoreKey(data["cliente_id"]).Some?
                          && StoreKey(data["cliente_id"]).value in clientes)
    ensures r.0.Ok? ==> r.0.value == DomicilioRecord(id, data, CreatedAt(now)) && r.1 == t[id := r.0.value]
  {
    var v := ValidateDomicilio(data);
    if !v.Accept? then (Fail(VerdictFailure(v)), t)
    else
      assert Provided(data, DomicilioFields[0]);
      match StoreKey(data["cliente_id"])
      case None => (Fail(Internal), t)
      case Some(cid) =>
        if cid !in clientes then (Fail(Failure(NotFound, MsgClienteMissing)), t)
        else
          var d := DomicilioRecord(id, data, CreatedAt(now));
          (Ok(d), t[id := d])
  }

  /** update_domicilio: validation before the key is looked up; unlike create,
      the owning customer is not looked up. */
  function UpdateDomicilio(t: Table<Domicilio>, id: string, data: Object, now: string)
    : (r: (Result<Domicilio>, Table<Domicilio>))
    ensures !DomicilioAcceptable(data) ==> r == (Fail(VerdictFailure(ValidateDomicilio(data))), t)
    ensures DomicilioAcceptable(data) && id !in t ==> r == (Fail(Failure(NotFound, MsgDomicilioMissing)), t)
    ensures DomicilioAcceptable(data) && id in t ==>
      && r.0 == Ok(DomicilioRecord(id, data, UpdatedAt(now)))
      && r.1.Keys == t.Keys && r.1[id] == r.0.value
      && forall k :: k in t && k != id ==> r.1[k] == t[k]
  {
    var v := ValidateDomicilio(data);
    if !v.Accept? then (Fail(VerdictFailure(v)), t)
    else
      var d := DomicilioRecord(id, data, UpdatedAt(now));
      match Replace(t, id, d)
      case None => (Fail(Failure(NotFound, MsgDomicilioMissing)), t)
      case Some(t') => (Ok(d), t')
  }

  function DeleteDomicilio(t: Table<Domicilio>, id: string): (r: (Result<string>, Table<Domicilio>))
    ensures id !in t ==> r == (Fail(Failure(NotFound, MsgDomicilioMissing)), t)
    ensures id in t ==>
      && r.0 == Ok(MsgDomicilioDeleted)
      && r.1.Keys == t.Keys - {id}
      && forall k :: k in r.1 ==> r.1[k] == t[k]
  {
    match Remove(t, id)
    case None => (Fail(Failure(NotFound, MsgDomicilioMissing)), t)
    case Some(t') => (Ok(MsgDomicilioDeleted), t')
  }

  predicate DomiciliosInvariant(t: Table<Domicilio>) {
    forall k :: k in t ==> t[k].id == k && WellFormedDomicilio(t[k])
  }

  lemma DomiciliosInvariantPreserved(t: Table<Domicilio>, clientes: Table<Cliente>, data: Object, id: string, now: string)
    requires DomiciliosInvariant(t)
    ensures DomiciliosInvariant(CreateDomicilio(t, clientes, data, id, now).1)
    ensures DomiciliosInvariant(UpdateDomicilio(t, id, data, now).1)
    ensures DomiciliosInvariant(DeleteDomicilio(t, id).1)
  {
  }

  // ---------------------------------------------------------------------
  // Productos
  // ---------------------------------------------------------------------

  datatype Producto = Producto(
    id: string,
    nombre: Json,
    unidadMedida: Json,
    precioBase: real,
    stamp: Stamp)

  const ProductoFields: seq<string> := ["nombre", "unidad_medida", "precio_base"]
  const MsgPricePositive := "Precio base debe ser mayor a 0"
  const MsgPriceNumber := "Precio base debe ser un número válido"
  const MsgProductoMissing := "Producto no encontrado"
  const MsgProductoDeleted := "Producto eliminado correctamente"

  predicate ProductoAcceptable(data: Object) {
    && AllProvided(data, ProductoFields)
    && "precio_base" in data && PyDecimal(data["precio_base"]).Some?
    && PyDecimal(data["precio_base"]).value > 0.0
  }

  /** validate_producto. Every failure of the price conversion is caught, so
      this validator never raises. */
  function ValidateProducto(data: Object): (v: Verdict)
    ensures v.Accept? <==> ProductoAcceptable(data)
    ensures !v.Raise?
    ensures !AllProvided(data, ProductoFields) ==>
      v == Reject(RequiredMessage(ProductoFields[FirstMissing(data, ProductoFields).value]))
    ensures (AllProvided(data, ProductoFields) && "precio_base" in data
             && PyDecimal(data["precio_base"]).None?) ==> v == Reject(MsgPriceNumber)
    ensures (AllProvided(data, ProductoFields) && "precio_base" in data
             && PyDecimal(data["precio_base"]).Some? && PyDecimal(data["precio_base"]).value <= 0.0)
            ==> v == Reject(MsgPricePositive)
  {
    match FirstMissing(data, ProductoFields)
    case Some(k) => Reject(RequiredMessage(ProductoFields[k]))
    case None =>
      assert Provided(data, ProductoFields[2]);
      match PyDecimal(data["precio_base"])
      case None => Reject(MsgPriceNumber)
      case Some(p) => if p <= 0.0 then Reject(MsgPricePositive) else Accept
  }

  predicate WellFormedProducto(p: Producto) {
    Truthy(p.nombre) && Truthy(p.unidadMedida) && p.precioBase > 0.0
  }

  /** The item create_producto / update_producto write: the price as
      `Decimal(str(precio_base))`. */
  function ProductoRecord(id: string, data: Object, stamp: Stamp): (p: Producto)
    requires ProductoAcceptable(data)
    ensures WellFormedProducto(p)
    ensures p.id == id && p.stamp == stamp && p.precioBase == PyDecimal(data["precio_base"]).value
  {
    assert Provided(data, ProductoFields[0]) && Provided(data, ProductoFields[1]);
    Producto(id, data["nombre"], data["unidad_medida"], PyDecimal(data["precio_base"]).value, stamp)
  }

  function CreateProducto(t: Table<Producto>, data: Object, id: string, now: string)
    : (r: (Result<Producto>, Table<Producto>))
    ensures r.0.Ok? <==> ProductoAcceptable(data)
    ensures r.0.Fail? ==> r.0.failure == VerdictFailure(ValidateProducto(data)) && r.1 == t
    ensures r.0.Ok? ==> r.0.value == ProductoRecord(id, data, CreatedAt(now)) && r.1 == t[id := r.0.value]
  {
    var v := ValidateProducto(data);
    if !v.Accept? then (Fail(VerdictFailure(v)), t)
    else
      var p := ProductoRecord(id, data, CreatedAt(now));
      (Ok(p), t[id := p])
  }

  function UpdateProducto(t: Table<Producto>, id: string, data: Object, now: string)
    : (r: (Result<Producto>, Table<Producto>))
    ensures !ProductoAcceptable(data) ==> r == (Fail(VerdictFailure(ValidateProducto(data))), t)
    ensures ProductoAcceptable(data) && id !in t ==> r == (Fail(Failure(NotFound, MsgProductoMissing)), t)
    ensures ProductoAcceptable(data) && id in t ==>
      && r.0 == Ok(ProductoRecord(id, data, UpdatedAt(now)))
      && r.1.Keys == t.Keys && r.1[id] == r.0.value
      && forall k :: k in t && k != id ==> r.1[k] == t[k]
  {
    var v := ValidateProducto(data);
    if !v.Accept? then (Fail(VerdictFailure(v)), t)
    else
      var p := ProductoRecord(id, data, UpdatedAt(now));
      match Replace(t, id, p)
      case None => (Fail(Failure(NotFound, MsgProductoMissing)), t)
      case Some(t') => (Ok(p), t')
  }

  function DeleteProducto(t: Table<Producto>, id: string): (r: (Result<string>, Table<Producto>))
    ensures id !in t ==> r == (Fail(Failure(NotFound, MsgProductoMissing)), t)
    ensures id in t ==>
      && r.0 == Ok(MsgProductoDeleted)
      && r.1.Keys == t.Keys - {id}
      && forall k :: k in r.1 ==> r.1[k] == t[k]
  {
    match Remove(t, id)
    case None => (Fail(Failure(NotFound, MsgProductoMissing)), t)
    case Some(t') => (Ok(MsgProductoDeleted), t')
  }

  /** Every stored product is well formed (so its base price is positive) and
      stored under its own id. */
  predicate ProductosInvariant(t: Table<Producto>) {
    forall k :: k in t ==> t[k].id == k && WellFormedProducto(t[k])
  }

  lemma ProductosInvariantPreserved(t: Table<Producto>, data: Object, id: string, now: string)
    requires ProductosInvariant(t)
    ensures ProductosInvariant(CreateProducto(t, data, id, now).1)
    ensures ProductosInvariant(UpdateProducto(t, id, data, now).1)
    ensures ProductosInvariant(DeleteProducto(t, id).1)
  {
  }
}

=== FILE: documents.dfy ===
/** The S3 bucket of rendered notes: objects addressed by "rfc/folio.pdf",
    each with a flat string-to-string metadata map that carries the send time
    (`hora-envio`), the send counter (`veces-enviado`) and the downloaded flag
    (`nota-descargada`). Calls are sequential; the read-modify-write race of
    concurrent calls is not modelled. */
module Documents {
  import opened Prelude
  import opened Text

  type Bytes = seq<bv8>
  type Metadata = map<string, string>

  datatype StoredObject = StoredObject(body: Bytes, contentType: string, metadata: Metadata)

  type ObjectStore = map<string, StoredObject>

  const SentAtKey := "hora-envio"
  const DownloadedKey := "nota-descargada"
  const SendCountKey := "veces-enviado"
  const PdfType := "application/pdf"

  /** The status of the redirect to the pre-signed URL. */
  const Found := 302
  const MsgPdfMissing := "PDF no encontrado"
  const MsgDownloadParams := "Parámetros rfc y folio son requeridos"

  function ObjectKey(rfc: string, folio: string): string {
    rfc + "/" + folio + ".pdf"
  }

  /** The send counter stored under a key, when there is one `int()` reads. */
  function StoredCount(store: ObjectStore, key: string): Option<int> {
    if key in store && SendCountKey in store[key].metadata then ParseInt(store[key].metadata[SendCountKey])
    else None
  }

  /** The counter subir_pdf_s3 writes: one more than the stored one, or 1 when
      the object or its counter is missing or unreadable (the lookup and the
      conversion share one `except` that swallows every failure). */
  function NextSendCount(store: ObjectStore, key: string): (n: int)
    ensures StoredCount(store, key).None? ==> n == 1
    ensures StoredCount(store, key).Some? ==> n == StoredCount(store, key).value + 1
  {
    match StoredCount(store, key)
    case None => 1
    case Some(c) => c + 1
  }

  /** subir_pdf_s3: writes the bytes under "rfc/folio.pdf" with fresh metadata,
      replacing whatever metadata the object had. */
  function Upload(store: ObjectStore, body: Bytes, rfc: string, folio: string, sentAt: string)
    : (r: (string, ObjectStore))
    ensures r.0 == ObjectKey(rfc, folio)
    ensures r.1.Keys == store.Keys + {r.0}
    ensures forall k :: k in store && k != r.0 ==> r.1[k] == store[k]
    ensures r.1[r.0].body == body && r.1[r.0].contentType == PdfType
    ensures r.1[r.0].metadata.Keys == {SentAtKey, DownloadedKey, SendCountKey}
    ensures r.1[r.0].metadata[SentAtKey] == sentAt
    ensures r.1[r.0].metadata[DownloadedKey] == "false"
    ensures StoredCount(r.1, r.0) == Some(NextSendCount(store, r.0))
  {
    var key := ObjectKey(rfc, folio);
    var count := NextSendCount(store, key);
    ParseIntOfIntToString(count);
    var metadata := map[SentAtKey := sentAt, DownloadedKey := "false", SendCountKey := IntToString(count)];
    (key, store[key := StoredObject(body, PdfType, metadata)])
  }

  /** Under sequential uploads the counter never decreases: each upload leaves
      a readable counter one above a readable previous one, and 1 otherwise. */
  lemma UploadCountsUp(store: ObjectStore, body: Bytes, rfc: string, folio: string, sentAt: string)
    ensures var key := ObjectKey(rfc, folio);
      var after := StoredCount(Upload(store, body, rfc, folio, sentAt).1, key);
      && after.Some?
      && (StoredCount(store, key).Some? ==> after.value == StoredCount(store, key).value + 1)
      && (StoredCount(store, key).None? ==> after.value == 1)
  {
  }

  /** One send of a note: the rendered bytes and the clock reading. */
  datatype Send = Send(body: Bytes, sentAt: string)

  /** A run of sequential uploads of the same note. */
  function UploadAll(store: ObjectStore, rfc: string, folio: string, sends: seq<Send>): ObjectStore
    decreases |sends|
  {
    if sends == [] then store
    else UploadAll(Upload(store, sends[0].body, rfc, folio, sends[0].sentAt).1, rfc, folio, sends[1..])
  }

  /** The counter expected after n uploads from a given stored counter. */
  function CountAfter(before: Option<int>, n: nat): int {
    match before
    case Some(c) => c + n
    case None => n
  }

  /** After n sequential uploads the counter reads n more than before, or n
      when there was no readable counter before. */
  lemma {:induction false} CountAfterUploads(store: ObjectStore, rfc: string, folio: string, sends: seq<Send>)
    requires |sends| > 0
    ensures StoredCount(UploadAll(store, rfc, folio, sends), ObjectKey(rfc, folio))
            == Some(CountAfter(StoredCount(store, ObjectKey(rfc, folio)), |sends|))
    decreases |sends|
  {
    var key := ObjectKey(rfc, folio);
    var next := Upload(store, sends[0].body, rfc, folio, sends[0].sentAt).1;
    UploadCountsUp(store, sends[0].body, rfc, folio, sends[0].sentAt);
    assert StoredCount(next, key) == Some(CountAfter(StoredCount(store, key), 1));
    assert UploadAll(store, rfc, folio, sends) == UploadAll(next, rfc, folio, sends[1..]);
    if |sends| > 1 {
      CountAfterUploads(next, rfc, folio, sends[1..]);
      assert CountAfter(StoredCount(next, key), |sends| - 1) == CountAfter(StoredCount(store, key), |sends|);
    } else {
      assert sends[1..] == [];
      assert UploadAll(next, rfc, folio, []) == next;
    }
  }

  /** A note's first upload, and every re-send after it, leaves the object not
      yet downloaded. */
  lemma UploadAllLeavesNotDownloaded(store: ObjectStore, rfc: string, folio: string, sends: seq<Send>)
    requires |sends| > 0
    ensures var key := ObjectKey(rfc, folio);
      var s := UploadAll(store, rfc, folio, sends);
      key in s && DownloadedKey in s[key].metadata && s[key].metadata[DownloadedKey] == "false"
      && s[key].body == sends[|sends| - 1].body
    decreases |sends|
  {
    if |sends| > 1 {
      UploadAllLeavesNotDownloaded(Upload(store, sends[0].body, rfc, folio, sends[0].sentAt).1, rfc, folio, sends[1..]);
      assert sends[1..][|sends| - 2] == sends[|sends| - 1];
    }
  }

  datatype DownloadReply = Redirect(key: string) | Missing(failure: Failure)

  /** download_nota_pdf: a missing object answers 404 and changes nothing;
      otherwise the same bytes are written back with the downloaded flag set
      and the caller is redirected to the object. */
  function Download(store: ObjectStore, rfc: string, folio: string): (r: (DownloadReply, ObjectStore))
    ensures ObjectKey(rfc, folio) !in store ==> r == (Missing(Failure(NotFound, MsgPdfMissing)), store)
    ensures ObjectKey(rfc, folio) in store ==>
      var key, before := ObjectKey(rfc, folio), store[ObjectKey(rfc, folio)];
      && r.0 == Redirect(key)
      && r.1.Keys == store.Keys
      && (forall k :: k in store && k != key ==> r.1[k] == store[k])
      && r.1[key].body == before.body && r.1[key].contentType == PdfType
      && r.1[key].metadata.Keys == before.metadata.Keys + {DownloadedKey}
      && r.1[key].metadata[DownloadedKey] == "true"
      && (forall m :: m in before.metadata && m != DownloadedKey ==> r.1[key].metadata[m] == before.metadata[m])
  {
    var key := ObjectKey(rfc, folio);
    if key !in store then (Missing(Failure(NotFound, MsgPdfMissing)), store)
    else
      var obj := store[key];
      (Redirect(key), store[key := StoredObject(obj.body, PdfType, obj.metadata[DownloadedKey := "true"])])
  }

  /** Downloading again yields the same answer and the same stored state. */
  lemma DownloadIdempotent(store: ObjectStore, rfc: string, folio: string)
    ensures var (reply, once) := Download(store, rfc, folio);
      Download(once, rfc, folio) == (reply, once)
  {
    var key := ObjectKey(rfc, folio);
    if key in store {
      var once := Download(store, rfc, folio).1;
      assert once[key].metadata[DownloadedKey := "true"] == once[key].metadata;
      assert once[key := once[key]] == once;
    }
  }

  /** A download neither changes the send counter nor creates an object. */
  lemma DownloadKeepsCount(store: ObjectStore, rfc: string, folio: string)
    ensures StoredCount(Download(store, rfc, folio).1, ObjectKey(rfc, folio)) == StoredCount(store, ObjectKey(rfc, folio))
    ensures Download(store, rfc, folio).1.Keys == store.Keys
  {
  }

  predicate QueryProvided(query: map<string, string>, name: string) {
    name in query && query[name] != ""
  }

  /** The download route: both query parameters are required. */
  function DownloadRoute(store: ObjectStore, query: map<string, string>): (r: (DownloadReply, ObjectStore))
    ensures !(QueryProvided(query, "rfc") && QueryProvided(query, "folio")) ==>
      r == (Missing(Failure(BadRequest, MsgDownloadParams)), store)
    ensures QueryProvided(query, "rfc") && QueryProvided(query, "folio") ==>
      r == Download(store, query["rfc"], query["folio"])
  {
    if !QueryProvided(query, "rfc") || !QueryProvided(query, "folio") then
      (Missing(Failure(BadRequest, MsgDownloadParams)), store)
    else Download(store, query["rfc"], query["folio"])
  }
}

=== FILE: folio.dfy ===
/** The human-readable reference of a sales note:
    "NV-" + strftime('%Y%m%d') of the clock + "-" + the upper-cased first
    eight characters of the note's id. */
module Folio {
  import opened Text

  /** A calendar day read from the clock. */
  datatype Date = Date(year: int, month: int, day: int)

  /** The clock reads a four-digit year and a month and day in range. */
  predicate ValidDate(d: Date) {
    1000 <= d.year <= 9999 && 1 <= d.month <= 12 && 1 <= d.day <= 31
  }

  /** strftime('%Y%m%d'). */
  function DayStamp(d: Date): (r: string)
    requires ValidDate(d)
    ensures |r| == 8 && AllDigits(r)
  {
    PadDigits(d.year, 4) + PadDigits(d.month, 2) + PadDigits(d.day, 2)
  }

  /** `nota_id[:8]`. */
  function IdPrefix(id: string): (r: string)
    ensures |r| == if |id| < 8 then |id| else 8
    ensures r == id[..|r|]
  {
    if |id| <= 8 then id else id[..8]
  }

  function MakeFolio(d: Date, id: string): (f: string)
    requires ValidDate(d)
  {
    "NV-" + DayStamp(d) + "-" + Upper(IdPrefix(id))
  }

  /** Reading a day back out of an eight-digit stamp. */
  function StampDate(s: string): Date
    requires |s| == 8 && AllDigits(s)
  {
    Date(DigitsValue(s[..4]), DigitsValue(s[4..6]), DigitsValue(s[6..]))
  }

  /** Reading the date back out of a folio's digit block. */
  function FolioDate(f: string): Date
    requires |f| >= 11 && AllDigits(f[3..11])
  {
    StampDate(f[3..11])
  }

  /** Where the parts of a text made of three pieces sit. */
  lemma ThreeParts(a: string, b: string, c: string)
    ensures var s := a + b + c;
      && s[..|a|] == a && s[|a|..|a| + |b|] == b && s[|a| + |b|..] == c
  {
  }

  lemma StampRoundTrip(d: Date)
    requires ValidDate(d)
    ensures StampDate(DayStamp(d)) == d
  {
    var y, m, dd := PadDigits(d.year, 4), PadDigits(d.month, 2), PadDigits(d.day, 2);
    ThreeParts(y, m, dd);
    assert Pow10(4) == 10000 && Pow10(2) == 100;
  }

  /** Where the parts of a folio sit. */
  lemma FolioParts(mark: string, stamp: string, dash: string, tail: string)
    requires |mark| == 3 && |stamp| == 8 && |dash| == 1
    ensures var f := mark + stamp + dash + tail;
      && |f| == 12 + |tail| && f[..3] == mark && f[3..11] == stamp && f[11] == dash[0] && f[12..] == tail
  {
  }

  /** The fixed layout of a folio; a uuid id gives twenty characters. */
  lemma FolioLayout(d: Date, id: string)
    requires ValidDate(d)
    ensures var f := MakeFolio(d, id);
      && |f| == 12 + |IdPrefix(id)|
      && f[..3] == "NV-" && f[3..11] == DayStamp(d) && f[11] == '-'
      && f[12..] == Upper(IdPrefix(id))
      && (|id| >= 8 ==> |f| == 20)
  {
    FolioParts("NV-", DayStamp(d), "-", Upper(IdPrefix(id)));
  }

  /** The folio gives back the day it was made on and the upper-cased id prefix. */
  lemma FolioRoundTrip(d: Date, id: string)
    requires ValidDate(d)
    ensures var f := MakeFolio(d, id);
      |f| >= 11 && AllDigits(f[3..11]) && FolioDate(f) == d && f[12..] == Upper(IdPrefix(id))
  {
    FolioLayout(d, id);
    StampRoundTrip(d);
  }

  /** Two folios are equal exactly when they were made on the same day from
      ids whose upper-cased prefixes agree. */
  lemma FolioInjective(d1: Date, id1: string, d2: Date, id2: string)
    requires ValidDate(d1) && ValidDate(d2)
    ensures MakeFolio(d1, id1) == MakeFolio(d2, id2)
            <==> d1 == d2 && Upper(IdPrefix(id1)) == Upper(IdPrefix(id2))
  {
    FolioRoundTrip(d1, id1);
    FolioRoundTrip(d2, id2);
  }

  /** For uuid ids: on the same day, distinct eight-character prefixes give
      distinct folios, and on different days folios never coincide. */
  lemma FolioDistinctForUuids(d1: Date, id1: string, d2: Date, id2: string)
    requires ValidDate(d1) && ValidDate(d2)
    requires IsUuidText(id1) && IsUuidText(id2)
    ensures MakeFolio(d1, id1) == MakeFolio(d2, id2) <==> d1 == d2 && IdPrefix(id1) == IdPrefix(id2)
  {
    FolioInjective(d1, id1, d2, id2);
    var p1, p2 := IdPrefix(id1), IdPrefix(id2);
    assert IsUuidText(p1) by {
      forall i | 0 <= i < |p1| ensures IsDigit(p1[i]) || ('a' <= p1[i] <= 'f') || p1[i] == '-' {
        assert p1[i] == id1[i];
      }
    }
    assert IsUuidText(p2) by {
      forall i | 0 <= i < |p2| ensures IsDigit(p2[i]) || ('a' <= p2[i] <= 'f') || p2[i] == '-' {
        assert p2[i] == id2[i];
      }
    }
    UpperInjectiveOnUuidText(p1, p2);
  }
}

=== FILE: gateway.dfy ===
/** How the API gateway hands a request's query string to the notas-service
    handler as `queryStringParameters`. The query is the text after the first
    '?'. It is cut at every '&'; each piece is a name and a value cut at the
    piece's first '=' (a piece without '=' is a name with an empty value);
    names and values are percent-decoded; a repeated name keeps its last
    value. A link reaches the gateway the way a client requests it: the URL
    Standard's parser drops every tab and line break from a link before
    reading it. */
module Gateway {
  import opened Prelude
  import opened Text

  // ---------------------------------------------------------------------
  // Percent-encoding
  // ---------------------------------------------------------------------

  /** The characters section 2.3 of RFC 3986 leaves unreserved. */
  predicate Unreserved(c: char) {
    IsAsciiLetter(c) || IsDigit(c) || c == '-' || c == '.' || c == '_' || c == '~'
  }

  /** A character a link carries as it is: an unreserved one, or one outside
      ASCII (whose UTF-8 escapes the model leaves to the client). */
  predicate Literal(c: char) {
    Unreserved(c) || c as int >= 128
  }

  function HexValue(c: char): (v: Option<nat>)
    ensures v.Some? ==> v.value < 16
  {
    if IsDigit(c) then Some(c as int - '0' as int)
    else if 'A' <= c <= 'F' then Some(c as int - 'A' as int + 10)
    else if 'a' <= c <= 'f' then Some(c as int - 'a' as int + 10)
    else None
  }

  function HexDigit(n: nat): (c: char)
    requires n < 16
    ensures Unreserved(c) && HexValue(c) == Some(n)
  {
    if n < 10 then ('0' as int + n) as char else ('A' as int + n - 10) as char
  }

  /** The ASCII character "%" and the hex digits `h` and `l` stand for. */
  function Unescape(h: char, l: char): Option<char> {
    if HexValue(h).Some? && HexValue(l).Some? && 16 * HexValue(h).value + HexValue(l).value < 128
    then Some((16 * HexValue(h).value + HexValue(l).value) as char)
    else None
  }

  /** "%" and the two upper-case hex digits of an ASCII character. */
  function Escape(c: char): (e: string)
    requires c as int < 128
    ensures |e| == 3 && e[0] == '%' && Unreserved(e[1]) && Unreserved(e[2])
    ensures Unescape(e[1], e[2]) == Some(c)
  {
    ['%', HexDigit(c as int / 16), HexDigit(c as int % 16)]
  }

  /** Every "%" followed by the hex digits of an ASCII character replaced by
      that character; any other '%' is kept as it is. */
  function Decode(s: string): (r: string)
    ensures |r| <= |s|
    ensures '%' !in s ==> r == s
    decreases |s|
  {
    if |s| >= 3 && s[0] == '%' && Unescape(s[1], s[2]).Some? then [Unescape(s[1], s[2]).value] + Decode(s[3..])
    else if s == [] then []
    else
      assert '%' !in s ==> '%' !in s[1..];
      [s[0]] + Decode(s[1..])
  }

  lemma DecodeEscape(c: char, rest: string)
    requires c as int < 128
    ensures Decode(Escape(c) + rest) == [c] + Decode(rest)
  {
    var s := Escape(c) + rest;
    assert s[0] == '%' && s[1] == Escape(c)[1] && s[2] == Escape(c)[2] && s[3..] == rest;
  }

  lemma DecodePlain(c: char, rest: string)
    requires c != '%'
    ensures Decode([c] + rest) == [c] + Decode(rest)
  {
    var s := [c] + rest;
    assert s[0] == c && s[1..] == rest;
  }

  /** Text that travels through a query unchanged, as Python's
      `urllib.parse.quote(s, safe='')` writes it: every ASCII character that
      is not unreserved is escaped, so no '&', '%', tab or line break is left,
      and decoding gives the original back. */
  function Encode(s: string): (r: string)
    ensures forall k :: 0 <= k < |r| ==> r[k] == '%' || Literal(r[k])
    ensures Decode(r) == s
    decreases |s|
  {
    if s == [] then []
    else
      var rest := Encode(s[1..]);
      assert s == [s[0]] + s[1..];
      if Literal(s[0]) then
        DecodePlain(s[0], rest);
        [s[0]] + rest
      else
        DecodeEscape(s[0], rest);
        Escape(s[0]) + rest
  }

  /** An encoded text holds no character that must be escaped. */
  lemma EncodedAvoids(s: string, c: char)
    requires c != '%' && !Literal(c)
    ensures c !in Encode(s)
  {
  }

  // ---------------------------------------------------------------------
  // Following a link
  // ---------------------------------------------------------------------

  predicate IsTabOrNewline(c: char) { c == '\t' || c == '\n' || c == '\r' }

  /** Text on one line: no tab and no line break. */
  predicate OneLine(s: string) { '\t' !in s && '\n' !in s && '\r' !in s }

  /** A link as a client requests it: the URL Standard's basic URL parser
      first removes every ASCII tab and newline from its input. */
  function Unbroken(s: string): (r: string)
    ensures OneLine(r)
    ensures |r| <= |s|
    ensures OneLine(s) ==> r == s
    ensures !OneLine(s) ==> |r| < |s|
    decreases |s|
  {
    if s == [] then []
    else
      assert s == [s[0]] + s[1..];
      if IsTabOrNewline(s[0]) then Unbroken(s[1..])
      else [s[0]] + Unbroken(s[1..])
  }

  /** Removing tabs and line breaks works piece by piece. */
  lemma {:induction false} UnbrokenAppend(a: string, b: string)
    ensures Unbroken(a + b) == Unbroken(a) + Unbroken(b)
    decreases |a|
  {
    if a != [] {
      assert (a + b)[0] == a[0] && (a + b)[1..] == a[1..] + b;
      UnbrokenAppend(a[1..], b);
    } else {
      assert a + b == b;
    }
  }

  /** Every other character survives the removal. */
  lemma {:induction false} UnbrokenKeeps(s: string, c: char)
    requires !IsTabOrNewline(c)
    ensures c in Unbroken(s) <==> c in s
    decreases |s|
  {
    if s != [] {
      assert s == [s[0]] + s[1..];
      UnbrokenKeeps(s[1..], c);
    }
  }

  // ---------------------------------------------------------------------
  // Cutting the query
  // ---------------------------------------------------------------------

  /** The text after the first '?', or "" when there is none. */
  function QueryOf(url: string): (q: string)
    ensures '?' !in url ==> q == ""
    ensures '?' in url ==> |q| < |url|
  {
    match IndexOf(url, '?')
    case None => ""
    case Some(i) => url[i + 1..]
  }

  /** The query of a URL is what follows its first '?'. */
  lemma QueryAfterMark(path: string, query: string)
    requires '?' !in path
    ensures QueryOf(path + "?" + query) == query
  {
    var url := path + "?" + query;
    assert url[..|path|] == path;
    IndexOfAt(url, '?', |path|);
    assert url[|path| + 1..] == query;
  }

  /** The pieces of `s` between the separators `c`, in order. */
  function Split(s: string, c: char): (pieces: seq<string>)
    ensures |pieces| >= 1
    ensures c !in s ==> pieces == [s]
    decreases |s|
  {
    match IndexOf(s, c)
    case None => [s]
    case Some(i) => [s[..i]] + Split(s[i + 1..], c)
  }

  /** No piece holds the separator or is longer than the text. */
  lemma {:induction false} SplitPieces(s: string, c: char)
    ensures forall k :: 0 <= k < |Split(s, c)| ==> c !in Split(s, c)[k] && |Split(s, c)[k]| <= |s|
    decreases |s|
  {
    match IndexOf(s, c)
    case None =>
    case Some(i) =>
      SplitPieces(s[i + 1..], c);
      SplitAt(s, c, i);
  }

  /** The pieces put back together with their separators. */
  function Join(pieces: seq<string>, c: char): string
    requires |pieces| >= 1
    decreases |pieces|
  {
    if |pieces| == 1 then pieces[0] else pieces[0] + [c] + Join(pieces[1..], c)
  }

  /** Cutting loses nothing: the pieces rejoin into the text. */
  lemma {:induction false} JoinSplit(s: string, c: char)
    ensures Join(Split(s, c), c) == s
    decreases |s|
  {
    match IndexOf(s, c)
    case None =>
      assert Split(s, c) == [s];
    case Some(i) =>
      var head, tail := s[..i], s[i + 1..];
      SplitAt(s, c, i);
      JoinSplit(tail, c);
      JoinCons(head, Split(tail, c), c);
      CutAround(s, i);
  }

  lemma CutAround<T>(s: seq<T>, i: nat)
    requires i < |s|
    ensures s == s[..i] + [s[i]] + s[i + 1..]
  {
  }

  lemma JoinCons(piece: string, rest: seq<string>, c: char)
    requires |rest| >= 1
    ensures Join([piece] + rest, c) == piece + [c] + Join(rest, c)
  {
    assert ([piece] + rest)[1..] == rest;
  }

  /** Text whose first separator is at `i` splits into the text before it
      and the pieces of the text after it. */
  lemma SplitAt(s: string, c: char, i: nat)
    requires i < |s| && s[i] == c && c !in s[..i]
    ensures Split(s, c) == [s[..i]] + Split(s[i + 1..], c)
  {
    IndexOfAt(s, c, i);
  }

  lemma AppendAssoc<T>(x: seq<T>, y: seq<T>, z: seq<T>)
    ensures (x + y) + z == x + (y + z)
  {
  }

  /** A separator after text without one ends the first piece. */
  lemma SplitAfterPlain(a: string, c: char, b: string)
    requires c !in a
    ensures Split(a + [c] + b, c) == [a] + Split(b, c)
  {
    var s := a + [c] + b;
    assert s[..|a|] == a && s[|a|] == c;
    SplitAt(s, c, |a|);
    assert s[|a| + 1..] == b;
  }

  /** Text whose first separator is at `i` keeps that first piece when more
      text is appended. */
  lemma SplitAfterCut(a: string, c: char, b: string, i: nat)
    requires i < |a| && a[i] == c && c !in a[..i]
    ensures Split(a + [c] + b, c) == [a[..i]] + Split(a[i + 1..] + [c] + b, c)
  {
    var s := a + [c] + b;
    assert s[..i] == a[..i] && s[i] == c;
    SplitAt(s, c, i);
    assert s[i + 1..] == a[i + 1..] + [c] + b;
  }

  /** Cutting a text at one of its separators cuts each side on its own. */
  lemma {:induction false} SplitAround(a: string, c: char, b: string)
    ensures Split(a + [c] + b, c) == Split(a, c) + Split(b, c)
    decreases |a|
  {
    if c !in a {
      SplitAfterPlain(a, c, b);
    } else {
      var i := IndexOf(a, c).value;
      var head, tail := a[..i], a[i + 1..];
      SplitAt(a, c, i);
      SplitAfterCut(a, c, b, i);
      SplitAround(tail, c, b);
      AppendAssoc([head], Split(tail, c), Split(b, c));
    }
  }

  // ---------------------------------------------------------------------
  // queryStringParameters
  // ---------------------------------------------------------------------

  /** The decoded name of a piece: the text before its first '='. */
  function Name(piece: string): string {
    match IndexOf(piece, '=')
    case None => Decode(piece)
    case Some(i) => Decode(piece[..i])
  }

  /** The decoded value of a piece: the text after its first '=', or "". */
  function Value(piece: string): (v: string)
    ensures |v| <= |piece|
  {
    match IndexOf(piece, '=')
    case None => ""
    case Some(i) => Decode(piece[i + 1..])
  }

  /** The parameters the pieces give: one per name, the value of the last
      piece with that name. */
  function Parameters(pieces: seq<string>): map<string, string>
    decreases |pieces|
  {
    if pieces == [] then map[]
    else map[Name(pieces[0]) := Value(pieces[0])] + Parameters(pieces[1..])
  }

  /** Every piece's name is a parameter. */
  lemma {:induction false} PieceNamed(pieces: seq<string>, j: nat)
    requires j < |pieces|
    ensures Name(pieces[j]) in Parameters(pieces)
    decreases j
  {
    if j > 0 {
      assert pieces[1..][j - 1] == pieces[j];
      PieceNamed(pieces[1..], j - 1);
    }
  }

  /** Every parameter comes from a piece with that name and has its value. */
  lemma {:induction false} ParameterFromPiece(pieces: seq<string>, k: string)
    requires k in Parameters(pieces)
    ensures exists j :: 0 <= j < |pieces| && Name(pieces[j]) == k && Parameters(pieces)[k] == Value(pieces[j])
    decreases |pieces|
  {
    var rest := Parameters(pieces[1..]);
    if k in rest {
      ParameterFromPiece(pieces[1..], k);
      var j :| 0 <= j < |pieces[1..]| && Name(pieces[1..][j]) == k && rest[k] == Value(pieces[1..][j]);
      assert pieces[j + 1] == pieces[1..][j];
    } else {
      assert Name(pieces[0]) == k;
    }
  }

  /** A name that no later piece repeats has the value of its piece. */
  lemma {:induction false} LastPieceWins(pieces: seq<string>, j: nat)
    requires j < |pieces|
    requires forall l :: j < l < |pieces| ==> Name(pieces[l]) != Name(pieces[j])
    ensures Name(pieces[j]) in Parameters(pieces) && Parameters(pieces)[Name(pieces[j])] == Value(pieces[j])
    decreases j
  {
    var rest := Parameters(pieces[1..]);
    if j == 0 {
      if Name(pieces[0]) in rest {
        ParameterFromPiece(pieces[1..], Name(pieces[0]));
        assert false;
      }
    } else {
      assert pieces[1..][j - 1] == pieces[j];
      forall l | j - 1 < l < |pieces[1..]| ensures Name(pieces[1..][l]) != Name(pieces[1..][j - 1]) {
        assert pieces[1..][l] == pieces[l + 1];
      }
      LastPieceWins(pieces[1..], j - 1);
    }
  }

  /** `queryStringParameters` of a request for `url`. */
  function QueryParameters(url: string): map<string, string> {
    Parameters(Split(QueryOf(url), '&'))
  }

  /** Two pieces give their two parameters, the second winning a tie. */
  lemma TwoPieces(x: string, y: string)
    ensures Parameters([x, y]) == map[Name(x) := Value(x)] + map[Name(y) := Value(y)]
  {
    assert [x, y][1..] == [y] && [y][1..] == [];
    assert Parameters([y]) == map[Name(y) := Value(y)] + map[];
    assert map[Name(y) := Value(y)] + map[] == map[Name(y) := Value(y)];
  }

  lemma UnionOfThree<K, V>(a: K, b: K, c: K, va: V, vb: V, vc: V)
    ensures map[a := va] + (map[b := vb] + map[c := vc]) == map[a := va, b := vb, c := vc]
  {
    var m := map[a := va, b := vb, c := vc];
    var u := map[a := va] + (map[b := vb] + map[c := vc]);
    assert u.Keys == m.Keys;
  }

  /** Three pieces give their parameters, a later piece winning a tie. */
  lemma ThreePieces(x: string, y: string, z: string)
    ensures Parameters([x, y, z]) == map[Name(x) := Value(x), Name(y) := Value(y), Name(z) := Value(z)]
  {
    assert Parameters([x, y, z]) == map[Name(x) := Value(x)] + Parameters([y, z]) by {
      assert [x, y, z][1..] == [y, z];
    }
    TwoPieces(y, z);
    UnionOfThree(Name(x), Name(y), Name(z), Value(x), Value(y), Value(z));
  }

  /** A piece whose first '=' is at `i`: the name before it, the value
      after it. */
  lemma PieceAt(piece: string, i: nat)
    requires i < |piece| && piece[i] == '=' && '=' !in piece[..i]
    ensures Name(piece) == Decode(piece[..i]) && Value(piece) == Decode(piece[i + 1..])
  {
    IndexOfAt(piece, '=', i);
  }
}

=== FILE: json.dfy ===
/** Decoded JSON request bodies and the Python idioms the handlers apply to
    them: truthiness, `field not in data or not data[field]`, `int(v)`,
    `Decimal(str(v))`, and DynamoDB's check of a key value. */
module Json {
  import opened Prelude
  import opened Text

  /** A decoded JSON value. Numbers are exact rationals. */
  datatype Json =
    | JNull
    | JBool(b: bool)
    | JNum(n: real)
    | JStr(s: string)
    | JList(items: seq<Json>)
    | JObject(fields: map<string, Json>)

  /** A decoded JSON object, as a handler receives a request body. */
  type Object = map<string, Json>

  /** Python truthiness of a decoded value. */
  predicate Truthy(v: Json) {
    match v
    case JNull => false
    case JBool(b) => b
    case JNum(n) => n != 0.0
    case JStr(s) => s != ""
    case JList(xs) => |xs| > 0
    case JObject(m) => |m| > 0
  }

  /** The field is present and its value is truthy. */
  predicate Provided(data: Object, field: string) {
    field in data && Truthy(data[field])
  }

  predicate AllProvided(data: Object, fields: seq<string>) {
    forall i :: 0 <= i < |fields| ==> Provided(data, fields[i])
  }

  /** The position of the first required field that is missing or falsy,
      scanning the list in order as the validators' loops do. */
  function FirstMissing(data: Object, fields: seq<string>): (r: Option<nat>)
    ensures r.None? <==> AllProvided(data, fields)
    ensures r.Some? ==> r.value < |fields| && !Provided(data, fields[r.value])
    ensures r.Some? ==> forall i :: 0 <= i < r.value ==> Provided(data, fields[i])
    decreases |fields|
  {
    if fields == [] then None
    else if !Provided(data, fields[0]) then Some(0)
    else
      match FirstMissing(data, fields[1..])
      case None => None
      case Some(k) => Some(k + 1)
  }

  /** The validators' message for a missing field. */
  function RequiredMessage(field: string): string {
    "Campo requerido: " + field
  }

  /** Python's `int(x)` on a float: truncation toward zero. */
  function Trunc(r: real): int {
    if r >= 0.0 then r.Floor else -((-r).Floor)
  }

  /** Python's `int(v)`; None where `int()` raises (null, lists, objects,
      text that is not an integer). */
  function PyInt(v: Json): Option<int> {
    match v
    case JNum(r) => Some(Trunc(r))
    case JBool(b) => Some(if b then 1 else 0)
    case JStr(s) => ParseInt(s)
    case _ => None
  }

  /** Python's `Decimal(str(v))`; None where the constructor raises. `str()`
      of a boolean, null, list or object is never decimal text. */
  function PyDecimal(v: Json): Option<real> {
    match v
    case JNum(r) => Some(r)
    case JStr(s) => ParseDecimal(s)
    case _ => None
  }

  /** A value `int()` reads as a positive integer and `Decimal(str())` can
      read at all is read by the latter as at least 1. */
  lemma PositiveQuantity(v: Json)
    requires PyInt(v).Some? && PyInt(v).value > 0 && PyDecimal(v).Some?
    ensures PyDecimal(v).value >= 1.0
  {
    match v
    case JNum(_) =>
    case JStr(s) =>
      ParseDecimalOfIntegerText(s);
  }

  /** The key a DynamoDB `get_item` is called with: the table keys are
      strings, and a value of another type or an empty string makes the call
      raise. */
  function StoreKey(v: Json): (r: Option<string>)
    ensures r.Some? <==> v.JStr? && v.s != ""
    ensures r.Some? ==> r.value == v.s
  {
    if v.JStr? && v.s != "" then Some(v.s) else None
  }
}

=== FILE: notes.dfy ===
/** create_nota_venta as a saga over the service's state: a read phase of
    gates that write nothing (validation, customer, billing address, shipping
    address, every product), then a fixed sequence of writes (the note, one
    line per item, the PDF with its metadata), then a best-effort publish of
    the notification event. The writes are not transactional: an exception
    in the middle of them leaves the earlier writes in place and answers 500.

    The uuids, the clock readings, the PDF renderer, whether the bus accepts
    the event and which write (if any) raises are all taken from an `Env`. */
module Notes {
  import opened Prelude
  import opened Json
  import opened Tables
  import opened Catalog
  import opened Folio
  import opened Documents
  import opened NoteValidation
  import opened Pricing

  const Created := 201
  const MsgBillingMissing := "Dirección de facturación no encontrada"
  const MsgShippingMissing := "Dirección de envío no encontrada"

  /** The item written to the notes table. */
  datatype Nota = Nota(
    id: string,
    folio: string,
    clienteId: string,
    facturacionId: string,
    envioId: string,
    total: real,
    createdAt: string)

  /** The item written to the note-contents table, one per line. */
  datatype LineRecord = LineRecord(
    id: string,
    notaId: string,
    productoId: string,
    cantidad: real,
    precioUnitario: real,
    importe: real)

  /** The five DynamoDB tables the service reads and writes. */
  datatype Ledger = Ledger(
    clientes: Table<Cliente>,
    domicilios: Table<Domicilio>,
    productos: Table<Producto>,
    notas: Table<Nota>,
    contenidos: Table<LineRecord>)

  /** A message accepted by the notification topic: the subject, the JSON
      object that is serialised into the message text, and the string
      message attributes. */
  datatype NoteEvent = NoteEvent(subject: string, message: Object, attributes: map<string, string>)

  datatype World = World(ledger: Ledger, objects: ObjectStore, outbox: seq<NoteEvent>)

  /** One row of the PDF's product table. */
  datatype Row =
    | HeaderRow
    | ItemRow(cantidad: real, producto: Json, precioUnitario: real, importe: real)
    | TotalRow(total: real)

  /** What generar_pdf lays out: the customer block, the folio and the table.
      The rendering itself is a parameter. */
  datatype Document = Document(cliente: Cliente, folio: string, rows: seq<Row>)

  /** Everything create_nota_venta takes from outside: the note's uuid, the
      uuid of the i-th line, today's date, the clock readings of the note
      record, of the upload and of the event, the PDF renderer, whether the
      publish succeeds, and the index of the write that raises, if any. */
  datatype Env = Env(
    notaId: string,
    lineId: nat -> string,
    today: Date,
    createdAt: string,
    sentAt: string,
    publishedAt: string,
    render: Document -> Bytes,
    busUp: bool,
    fault: Option<nat>)

  datatype Reply = Done(nota: Nota, contenidos: seq<Contenido>, s3Key: string) | Failed(failure: Failure)

  function ReplyStatus(r: Reply): int {
    match r
    case Done(_, _, _) => Created
    case Failed(f) => f.status
  }

  // ---------------------------------------------------------------------
  // Read phase
  // ---------------------------------------------------------------------

  /** The key a request field gives `get_item`, None where the call raises. */
  function Key(data: Object, field: string): Option<string> {
    if field in data then StoreKey(data[field]) else None
  }

  /** What the read phase hands to the write phase. */
  datatype Gate = Gate(
    cliente: Cliente,
    clienteId: string,
    facturacionId: string,
    envioId: string,
    contenidos: seq<Contenido>)

  function RequestItems(data: Object): (items: seq<Json>)
    requires NotaAcceptable(data)
    ensures PricedShape(items)
  {
    assert PricedShape(data["productos"].items) by {
      forall i | 0 <= i < |data["productos"].items| { AcceptedItemsAreObjects(data, i); }
    }
    data["productos"].items
  }

  /** The request is valid and the customer and both addresses exist. */
  predicate GatesBeforePricing(l: Ledger, data: Object) {
    && NotaAcceptable(data)
    && Key(data, "cliente_id").Some? && Key(data, "cliente_id").value in l.clientes
    && Key(data, "direccion_facturacion_id").Some? && Key(data, "direccion_facturacion_id").value in l.domicilios
    && Key(data, "direccion_envio_id").Some? && Key(data, "direccion_envio_id").value in l.domicilios
  }

  /** The gates of create_nota_venta in their order. Both address lookups are
      issued before either result is checked, so a key `get_item` rejects on
      either address raises before a missing billing address is reported. */
  function ReadPhase(l: Ledger, data: Object): (r: Result<Gate>)
    ensures !NotaAcceptable(data) ==> r == Fail(VerdictFailure(ValidateNota(data)))
    ensures NotaAcceptable(data) && Key(data, "cliente_id").None? ==> r == Fail(Internal)
    ensures (NotaAcceptable(data) && Key(data, "cliente_id").Some? && Key(data, "cliente_id").value !in l.clientes)
            ==> r == Fail(Failure(NotFound, MsgClienteMissing))
    ensures (NotaAcceptable(data) && Key(data, "cliente_id").Some? && Key(data, "cliente_id").value in l.clientes
             && (Key(data, "direccion_facturacion_id").None? || Key(data, "direccion_envio_id").None?))
            ==> r == Fail(Internal)
    ensures (NotaAcceptable(data) && Key(data, "cliente_id").Some? && Key(data, "cliente_id").value in l.clientes
             && Key(data, "direccion_facturacion_id").Some? && Key(data, "direccion_envio_id").Some?
             && Key(data, "direccion_facturacion_id").value !in l.domicilios)
            ==> r == Fail(Failure(NotFound, MsgBillingMissing))
    ensures (NotaAcceptable(data) && Key(data, "cliente_id").Some? && Key(data, "cliente_id").value in l.clientes
             && Key(data, "direccion_facturacion_id").Some? && Key(data, "direccion_envio_id").Some?
             && Key(data, "direccion_facturacion_id").value in l.domicilios
             && Key(data, "direccion_envio_id").value !in l.domicilios)
            ==> r == Fail(Failure(NotFound, MsgShippingMissing))
    ensures r.Ok? ==>
      && NotaAcceptable(data)
      && Key(data, "cliente_id") == Some(r.value.clienteId)
      && Key(data, "direccion_facturacion_id") == Some(r.value.facturacionId)
      && Key(data, "direccion_envio_id") == Some(r.value.envioId)
      && r.value.clienteId in l.clientes && r.value.cliente == l.clientes[r.value.clienteId]
      && r.value.facturacionId in l.domicilios && r.value.envioId in l.domicilios
      && PriceItems(RequestItems(data), l.productos) == Ok(r.value.contenidos)
    ensures GatesBeforePricing(l, data) ==>
      && (r.Ok? <==> PriceItems(RequestItems(data), l.productos).Ok?)
      && (r.Fail? ==> r.failure == PriceItems(RequestItems(data), l.productos).failure)
  {
    var v := ValidateNota(data);
    if !v.Accept? then Fail(VerdictFailure(v))
    else
      match Key(data, "cliente_id")
      case None => Fail(Internal)
      case Some(cid) =>
        if cid !in l.clientes then Fail(Failure(NotFound, MsgClienteMissing))
        else
          var fk, ek := Key(data, "direccion_facturacion_id"), Key(data, "direccion_envio_id");
          if fk.None? || ek.None? then Fail(Internal)
          else if fk.value !in l.domicilios then Fail(Failure(NotFound, MsgBillingMissing))
          else if ek.value !in l.domicilios then Fail(Failure(NotFound, MsgShippingMissing))
          else
            match PriceItems(RequestItems(data), l.productos)
            case Fail(f) => Fail(f)
            case Ok(cs) => Ok(Gate(l.clientes[cid], cid, fk.value, ek.value, cs))
  }

  // ---------------------------------------------------------------------
  // Write phase
  // ---------------------------------------------------------------------

  datatype Write =
    | PutNota(nota: Nota)
    | PutLine(line: LineRecord)
    | PutPdf(rfc: string, folio: string, body: Bytes, sentAt: string)

  function Apply(w: World, op: Write): World {
    match op
    case PutNota(n) => w.(ledger := w.ledger.(notas := w.ledger.notas[n.id := n]))
    case PutLine(line) => w.(ledger := w.ledger.(contenidos := w.ledger.contenidos[line.id := line]))
    case PutPdf(rfc, folio, body, sentAt) => w.(objects := Upload(w.objects, body, rfc, folio, sentAt).1)
  }

  function ApplyAll(w: World, ops: seq<Write>): World
    decreases |ops|
  {
    if ops == [] then w else ApplyAll(Apply(w, ops[0]), ops[1..])
  }

  lemma {:induction false} ApplyAllAppend(w: World, a: seq<Write>, b: seq<Write>)
    ensures ApplyAll(w, a + b) == ApplyAll(ApplyAll(w, a), b)
    decreases |a|
  {
    if a != [] {
      assert (a + b)[1..] == a[1..] + b;
      ApplyAllAppend(Apply(w, a[0]), a[1..], b);
    } else {
      assert a + b == b;
    }
  }

  /** The writes touch only the tables and the store they name: the catalogue
      tables and the outbox never change, and each of the other parts changes
      only when some write targets it. */
  lemma {:induction false} ApplyAllFrame(w: World, ops: seq<Write>)
    ensures var w' := ApplyAll(w, ops);
      && w'.ledger.clientes == w.ledger.clientes
      && w'.ledger.domicilios == w.ledger.domicilios
      && w'.ledger.productos == w.ledger.productos
      && w'.outbox == w.outbox
      && ((forall i :: 0 <= i < |ops| ==> !ops[i].PutNota?) ==> w'.ledger.notas == w.ledger.notas)
      && ((forall i :: 0 <= i < |ops| ==> !ops[i].PutLine?) ==> w'.ledger.contenidos == w.ledger.contenidos)
      && ((forall i :: 0 <= i < |ops| ==> !ops[i].PutPdf?) ==> w'.objects == w.objects)
    decreases |ops|
  {
    if ops != [] {
      ApplyAllFrame(Apply(w, ops[0]), ops[1..]);
      assert forall i :: 0 <= i < |ops| - 1 ==> ops[1..][i] == ops[i + 1];
    }
  }

  /** Line records put one after another into a table. */
  function StoreLines(t: Table<LineRecord>, lines: seq<LineRecord>): Table<LineRecord>
    decreases |lines|
  {
    if lines == [] then t else StoreLines(t[lines[0].id := lines[0]], lines[1..])
  }

  function PutLines(lines: seq<LineRecord>): (ops: seq<Write>)
    ensures |ops| == |lines| && forall i :: 0 <= i < |lines| ==> ops[i] == PutLine(lines[i])
  {
    seq(|lines|, i requires 0 <= i < |lines| => PutLine(lines[i]))
  }

  lemma {:induction false} ApplyLines(w: World, lines: seq<LineRecord>)
    ensures ApplyAll(w, PutLines(lines))
            == w.(ledger := w.ledger.(contenidos := StoreLines(w.ledger.contenidos, lines)))
    decreases |lines|
  {
    if lines != [] {
      assert PutLines(lines)[1..] == PutLines(lines[1..]);
      ApplyLines(Apply(w, PutLine(lines[0])), lines[1..]);
    }
  }

  predicate DistinctIds(lines: seq<LineRecord>) {
    forall i, j :: 0 <= i < j < |lines| ==> lines[i].id != lines[j].id
  }

  /** Without its first line, distinct lines stay distinct, and none of the
      rest shares the first line's id. */
  lemma DistinctRest(lines: seq<LineRecord>)
    requires |lines| > 0 && DistinctIds(lines)
    ensures DistinctIds(lines[1..])
    ensures forall j :: 0 <= j < |lines[1..]| ==> lines[1..][j].id != lines[0].id
  {
    var rest := lines[1..];
    forall i, j | 0 <= i < j < |rest| ensures rest[i].id != rest[j].id {
      assert rest[i] == lines[i + 1] && rest[j] == lines[j + 1];
    }
    forall j | 0 <= j < |rest| ensures rest[j].id != lines[0].id {
      assert rest[j] == lines[j + 1];
    }
  }

  /** The ids of some lines: those of the first line and of the rest. */
  lemma IdsSplit(lines: seq<LineRecord>)
    requires |lines| > 0
    ensures (set i | 0 <= i < |lines| :: lines[i].id)
            == {lines[0].id} + (set i | 0 <= i < |lines[1..]| :: lines[1..][i].id)
  {
    var rest := lines[1..];
    var ids, restIds := set i | 0 <= i < |lines| :: lines[i].id, set i | 0 <= i < |rest| :: rest[i].id;
    forall x | x in ids ensures x in {lines[0].id} + restIds {
      var i :| 0 <= i < |lines| && lines[i].id == x;
      if i > 0 { assert rest[i - 1] == lines[i]; }
    }
    forall x | x in restIds ensures x in ids {
      var i :| 0 <= i < |rest| && rest[i].id == x;
      assert lines[i + 1] == rest[i];
    }
  }

  /** Lines with distinct ids each end up under their own id, and every other
      record keeps its value. */
  lemma {:induction false} StoreLinesContents(t: Table<LineRecord>, lines: seq<LineRecord>)
    requires DistinctIds(lines)
    ensures var t' := StoreLines(t, lines);
      && t'.Keys == t.Keys + (set i | 0 <= i < |lines| :: lines[i].id)
      && (forall i :: 0 <= i < |lines| ==> t'[lines[i].id] == lines[i])
      && (forall k :: k in t && (forall i :: 0 <= i < |lines| ==> lines[i].id != k) ==> t'[k] == t[k])
    decreases |lines|
  {
    if lines != [] {
      var rest := lines[1..];
      DistinctRest(lines);
      IdsSplit(lines);
      var t1 := t[lines[0].id := lines[0]];
      StoreLinesContents(t1, rest);
      var t' := StoreLines(t, lines);
      assert t' == StoreLines(t1, rest);
      forall i | 0 < i < |lines| ensures t'[lines[i].id] == lines[i] {
        assert rest[i - 1] == lines[i];
      }
      forall k | k in t && (forall i :: 0 <= i < |lines| ==> lines[i].id != k) ensures t'[k] == t[k] {
        forall j | 0 <= j < |rest| ensures rest[j].id != k { assert rest[j] == lines[j + 1]; }
      }
    }
  }

  // ---------------------------------------------------------------------
  // The note, its lines, its PDF and its event
  // ---------------------------------------------------------------------

  function NoteOf(g: Gate, env: Env): Nota
    requires ValidDate(env.today)
  {
    Nota(env.notaId, MakeFolio(env.today, env.notaId), g.clienteId, g.facturacionId, g.envioId,
         Total(g.contenidos), env.createdAt)
  }

  function LinesOf(g: Gate, env: Env): (lines: seq<LineRecord>)
    ensures |lines| == |g.contenidos|
    ensures forall i :: 0 <= i < |lines| ==> lines[i].id == env.lineId(i) && lines[i].notaId == env.notaId
  {
    seq(|g.contenidos|, i requires 0 <= i < |g.contenidos| =>
      var c := g.contenidos[i];
      LineRecord(env.lineId(i), env.notaId, c.productoId, c.cantidad, c.precioUnitario, c.importe))
  }

  /** The table of generar_pdf: a header row, one row per line in order, and
      the total row. */
  function Layout(cliente: Cliente, folio: string, cs: seq<Contenido>, total: real): (d: Document)
    ensures d.cliente == cliente && d.folio == folio
    ensures |d.rows| == |cs| + 2
    ensures d.rows[0] == HeaderRow && d.rows[|cs| + 1] == TotalRow(total)
    ensures forall i :: 0 <= i < |cs| ==>
      d.rows[i + 1] == ItemRow(cs[i].cantidad, cs[i].productoNombre, cs[i].precioUnitario, cs[i].importe)
  {
    var items := seq(|cs|, i requires 0 <= i < |cs| =>
      ItemRow(cs[i].cantidad, cs[i].productoNombre, cs[i].precioUnitario, cs[i].importe));
    Document(cliente, folio, [HeaderRow] + items + [TotalRow(total)])
  }

  function PdfOf(g: Gate, env: Env): Write
    requires ValidDate(env.today)
  {
    var nota := NoteOf(g, env);
    PutPdf(g.cliente.rfc, nota.folio, env.render(Layout(g.cliente, nota.folio, g.contenidos, nota.total)), env.sentAt)
  }

  /** The writes in the order the handler issues them. */
  function PlanOf(g: Gate, env: Env): (plan: seq<Write>)
    requires ValidDate(env.today)
    ensures |plan| == |g.contenidos| + 2
  {
    [PutNota(NoteOf(g, env))] + PutLines(LinesOf(g, env)) + [PdfOf(g, env)]
  }

  /** The event publicar_evento_notificacion builds. */
  function EventOf(email: string, folio: string, rfc: string, apiUrl: string, timestamp: string): NoteEvent {
    NoteEvent(
      "Nueva Nota de Venta - " + folio,
      map["email" := JStr(email), "folio" := JStr(folio), "rfc" := JStr(rfc),
          "api_gateway_url" := JStr(apiUrl), "timestamp" := JStr(timestamp)],
      map["folio" := folio, "rfc" := rfc, "email" := email])
  }

  /** publicar_evento_notificacion: a failed publish is reported as false and
      never raised, and leaves nothing in the outbox. */
  function Publish(w: World, event: NoteEvent, busUp: bool): (r: (bool, World))
    ensures r.0 == busUp
    ensures r.1.ledger == w.ledger && r.1.objects == w.objects
    ensures busUp ==> r.1.outbox == w.outbox + [event]
    ensures !busUp ==> r.1.outbox == w.outbox
  {
    if busUp then (true, w.(outbox := w.outbox + [event])) else (false, w)
  }

  // ---------------------------------------------------------------------
  // create_nota_venta
  // ---------------------------------------------------------------------

  /** create_nota_venta. The clock reads a date with a four-digit year. */
  function CreateNota(w: World, data: Object, apiUrl: string, env: Env): (r: (Reply, World))
    requires ValidDate(env.today)
  {
    match ReadPhase(w.ledger, data)
    case Fail(f) => (Failed(f), w)
    case Ok(g) =>
      var plan := PlanOf(g, env);
      if env.fault.Some? && env.fault.value < |plan| then
        (Failed(Internal), ApplyAll(w, plan[..env.fault.value]))
      else
        var nota := NoteOf(g, env);
        var stored := ApplyAll(w, plan);
        var event := EventOf(g.cliente.correo, nota.folio, g.cliente.rfc, apiUrl, env.publishedAt);
        var (_, published) := Publish(stored, event, env.busUp);
        (Done(nota, g.contenidos, ObjectKey(g.cliente.rfc, nota.folio)), published)
  }

  /** The whole plan: the note record, then the lines, then the upload. */
  lemma ApplyPlan(w: World, g: Gate, env: Env)
    requires ValidDate(env.today)
    ensures var nota, pdf := NoteOf(g, env), PdfOf(g, env);
      ApplyAll(w, PlanOf(g, env)) ==
        World(w.ledger.(notas := w.ledger.notas[nota.id := nota],
                        contenidos := StoreLines(w.ledger.contenidos, LinesOf(g, env))),
              Upload(w.objects, pdf.body, pdf.rfc, pdf.folio, pdf.sentAt).1,
              w.outbox)
  {
    var lines := LinesOf(g, env);
    var nota := NoteOf(g, env);
    var pdf := PdfOf(g, env);
    var w1 := Apply(w, PutNota(nota));
    assert ApplyAll(w, [PutNota(nota)]) == w1;
    assert ApplyAll(w1, [pdf]) == Apply(w1, pdf) by {
      assert ApplyAll(Apply(w1, pdf), []) == Apply(w1, pdf);
    }
    ApplyAllAppend(w, [PutNota(nota)], PutLines(lines));
    ApplyAllAppend(w, [PutNota(nota)] + PutLines(lines), [pdf]);
    ApplyLines(w1, lines);
    var w2 := ApplyAll(w1, PutLines(lines));
    ApplyAllAppend(w1, PutLines(lines), [pdf]);
  }

  /** Every early exit answers with its gate's failure and writes nothing. */
  lemma EarlyExitWritesNothing(w: World, data: Object, apiUrl: string, env: Env)
    requires ValidDate(env.today)
    requires ReadPhase(w.ledger, data).Fail?
    ensures CreateNota(w, data, apiUrl, env) == (Failed(ReadPhase(w.ledger, data).failure), w)
    ensures ReplyStatus(CreateNota(w, data, apiUrl, env).0) in {BadRequest, NotFound, InternalError}
  {
    var f := ReadPhase(w.ledger, data).failure;
    if !NotaAcceptable(data) {
      assert f == VerdictFailure(ValidateNota(data));
    } else if GatesBeforePricing(w.ledger, data) {
      var items := RequestItems(data);
      var k :| 0 <= k < |items|
        && (forall i :: 0 <= i < k ==> ItemFailure(items[i], w.ledger.productos).None?)
        && ItemFailure(items[k], w.ledger.productos) == Some(f);
    }
  }

  /** The uuids the handler draws are fresh: the note id is new, the line ids
      are new and pairwise distinct. */
  predicate FreshIds(w: World, env: Env, n: nat) {
    && env.notaId !in w.ledger.notas
    && (forall i: nat :: i < n ==> env.lineId(i) !in w.ledger.contenidos)
    && (forall i: nat, j: nat :: i < j < n ==> env.lineId(i) != env.lineId(j))
  }

  predicate NoFault(env: Env, n: nat) {
    env.fault.None? || env.fault.value >= n + 2
  }

  /** The answer and the state create_nota_venta reaches when every gate
      passes and no write raises. */
  lemma CreateNotaUnfolds(w: World, data: Object, apiUrl: string, env: Env)
    requires ValidDate(env.today)
    requires ReadPhase(w.ledger, data).Ok?
    requires NoFault(env, |ReadPhase(w.ledger, data).value.contenidos|)
    ensures var g := ReadPhase(w.ledger, data).value;
      var nota := NoteOf(g, env);
      CreateNota(w, data, apiUrl, env)
        == (Done(nota, g.contenidos, ObjectKey(g.cliente.rfc, nota.folio)),
            Publish(ApplyAll(w, PlanOf(g, env)),
                    EventOf(g.cliente.correo, nota.folio, g.cliente.rfc, apiUrl, env.publishedAt), env.busUp).1)
  {
  }

  /** When every gate passes and no write raises: the reply is 201 with the
      note, its folio and its exact total, and the priced lines; the catalogue
      is untouched, exactly one note record is added, and the PDF is uploaded
      under "rfc/folio.pdf". */
  lemma CreateNotaSucceeds(w: World, data: Object, apiUrl: string, env: Env)
    requires ValidDate(env.today)
    requires ReadPhase(w.ledger, data).Ok?
    requires NoFault(env, |ReadPhase(w.ledger, data).value.contenidos|)
    ensures var g := ReadPhase(w.ledger, data).value;
      var (reply, w') := CreateNota(w, data, apiUrl, env);
      && reply.Done?
      && ReplyStatus(reply) == Created
      && reply.nota.id == env.notaId
      && reply.nota.folio == MakeFolio(env.today, env.notaId)
      && reply.nota.total == Amount(RequestItems(data), w.ledger.productos)
      && reply.contenidos == g.contenidos
      && reply.s3Key == ObjectKey(g.cliente.rfc, reply.nota.folio)
      && w'.ledger.clientes == w.ledger.clientes
      && w'.ledger.domicilios == w.ledger.domicilios
      && w'.ledger.productos == w.ledger.productos
      && w'.ledger.notas == w.ledger.notas[env.notaId := reply.nota]
      && w'.objects == Upload(w.objects, PdfOf(g, env).body, g.cliente.rfc, reply.nota.folio, env.sentAt).1
  {
    var g := ReadPhase(w.ledger, data).value;
    TotalIsAmount(RequestItems(data), w.ledger.productos);
    CreateNotaUnfolds(w, data, apiUrl, env);
    ApplyPlan(w, g, env);
  }

  /** The line records the whole plan leaves behind, for any gate. */
  lemma PlanLines(w: World, g: Gate, env: Env)
    requires ValidDate(env.today)
    requires FreshIds(w, env, |g.contenidos|)
    ensures var cs := g.contenidos;
      var t, t' := w.ledger.contenidos, ApplyAll(w, PlanOf(g, env)).ledger.contenidos;
      && t'.Keys == t.Keys + (set i: nat | i < |cs| :: env.lineId(i))
      && (forall i: nat :: i < |cs| ==>
            t'[env.lineId(i)]
              == LineRecord(env.lineId(i), env.notaId, cs[i].productoId, cs[i].cantidad, cs[i].precioUnitario, cs[i].importe))
      && (forall k :: k in t ==> t'[k] == t[k])
  {
    var lines := LinesOf(g, env);
    PlanLineTable(w, g, env);
    LineIds(w, g, env);
    StoreLinesContents(w.ledger.contenidos, lines);
  }

  /** The line table the whole plan leaves: the lines stored in order. */
  lemma PlanLineTable(w: World, g: Gate, env: Env)
    requires ValidDate(env.today)
    ensures ApplyAll(w, PlanOf(g, env)).ledger.contenidos == StoreLines(w.ledger.contenidos, LinesOf(g, env))
  {
    ApplyPlan(w, g, env);
  }

  /** With fresh uuids the lines have distinct ids: the drawn ones. */
  lemma LineIds(w: World, g: Gate, env: Env)
    requires FreshIds(w, env, |g.contenidos|)
    ensures var lines := LinesOf(g, env);
      && DistinctIds(lines)
      && (set i | 0 <= i < |lines| :: lines[i].id) == set i: nat | i < |lines| :: env.lineId(i)
  {
  }

  /** When every gate passes, no write raises and the uuids are fresh: one
      line record per item is added under its own id, in request order, each
      pointing at the note and copying the line's figures unchanged, and no
      existing line record changes. */
  lemma CreateNotaLines(w: World, data: Object, apiUrl: string, env: Env)
    requires ValidDate(env.today)
    requires ReadPhase(w.ledger, data).Ok?
    requires NoFault(env, |ReadPhase(w.ledger, data).value.contenidos|)
    requires FreshIds(w, env, |ReadPhase(w.ledger, data).value.contenidos|)
    ensures var cs := ReadPhase(w.ledger, data).value.contenidos;
      var t, t' := w.ledger.contenidos, CreateNota(w, data, apiUrl, env).1.ledger.contenidos;
      && t'.Keys == t.Keys + (set i: nat | i < |cs| :: env.lineId(i))
      && (forall i: nat :: i < |cs| ==>
            t'[env.lineId(i)]
              == LineRecord(env.lineId(i), env.notaId, cs[i].productoId, cs[i].cantidad, cs[i].precioUnitario, cs[i].importe))
      && (forall k :: k in t ==> t'[k] == t[k])
  {
    var g := ReadPhase(w.ledger, data).value;
    CreateNotaUnfolds(w, data, apiUrl, env);
    PlanLines(w, g, env);
  }

  /** The first k elements of a sequence framed by x and y, for k from 1 up
      to the frame's end. */
  lemma PrefixInside<T>(x: T, xs: seq<T>, y: T, k: nat)
    requires 1 <= k <= |xs| + 1
    ensures ([x] + xs + [y])[..k] == [x] + xs[..k - 1]
  {
  }

  lemma PutLinesPrefix(lines: seq<LineRecord>, m: nat)
    requires m <= |lines|
    ensures PutLines(lines)[..m] == PutLines(lines[..m])
  {
  }

  /** The state left when write k of the plan raises, for any gate. */
  lemma PlanPrefix(w: World, g: Gate, env: Env, k: nat)
    requires ValidDate(env.today)
    requires k < |g.contenidos| + 2
    ensures var w' := ApplyAll(w, PlanOf(g, env)[..k]);
      && w'.objects == w.objects
      && w'.outbox == w.outbox
      && (k == 0 ==> w' == w)
      && (k >= 1 ==>
            w'.ledger == w.ledger.(notas := w.ledger.notas[env.notaId := NoteOf(g, env)],
                                   contenidos := StoreLines(w.ledger.contenidos, LinesOf(g, env)[..k - 1])))
  {
    var plan := PlanOf(g, env);
    var lines := LinesOf(g, env);
    var ops := plan[..k];
    ApplyAllFrame(w, ops);
    if k >= 1 {
      var nota := NoteOf(g, env);
      var w1 := Apply(w, PutNota(nota));
      assert ops == [PutNota(nota)] + PutLines(lines[..k - 1]) by {
        PrefixInside(PutNota(nota), PutLines(lines), PdfOf(g, env), k);
        PutLinesPrefix(lines, k - 1);
      }
      ApplyAllAppend(w, [PutNota(nota)], PutLines(lines[..k - 1]));
      assert ApplyAll(w, [PutNota(nota)]) == w1;
      ApplyLines(w1, lines[..k - 1]);
    }
  }

  /** The answer and the state create_nota_venta reaches when every gate
      passes and write k raises. */
  lemma CreateNotaStops(w: World, data: Object, apiUrl: string, env: Env)
    requires ValidDate(env.today)
    requires ReadPhase(w.ledger, data).Ok?
    requires !NoFault(env, |ReadPhase(w.ledger, data).value.contenidos|)
    ensures CreateNota(w, data, apiUrl, env)
      == (Failed(Internal), ApplyAll(w, PlanOf(ReadPhase(w.ledger, data).value, env)[..env.fault.value]))
  {
  }

  /** When write k raises, the reply is 500 and exactly the writes before it
      persist: nothing for k = 0, the note alone for k = 1, the note and the
      first k - 1 lines up to k = n + 1 (the PDF write), and nothing is
      published or uploaded. */
  lemma CreateNotaFault(w: World, data: Object, apiUrl: string, env: Env)
    requires ValidDate(env.today)
    requires ReadPhase(w.ledger, data).Ok?
    requires !NoFault(env, |ReadPhase(w.ledger, data).value.contenidos|)
    ensures var g := ReadPhase(w.ledger, data).value;
      var k := env.fault.value;
      var (reply, w') := CreateNota(w, data, apiUrl, env);
      && reply == Failed(Internal)
      && w'.objects == w.objects
      && w'.outbox == w.outbox
      && (k == 0 ==> w' == w)
      && (k >= 1 ==>
            w'.ledger == w.ledger.(notas := w.ledger.notas[env.notaId := NoteOf(g, env)],
                                   contenidos := StoreLines(w.ledger.contenidos, LinesOf(g, env)[..k - 1])))
  {
    var g := ReadPhase(w.ledger, data).value;
    CreateNotaStops(w, data, apiUrl, env);
    PlanPrefix(w, g, env, env.fault.value);
  }

  /** The publish outcome never changes the reply: the note is created
      (201) either way, and the outbox grows by the note's event exactly when
      the bus accepts it. */
  lemma CreateNotaPublishes(w: World, data: Object, apiUrl: string, env: Env)
    requires ValidDate(env.today)
    requires ReadPhase(w.ledger, data).Ok?
    requires NoFault(env, |ReadPhase(w.ledger, data).value.contenidos|)
    ensures var g := ReadPhase(w.ledger, data).value;
      var (reply, w') := CreateNota(w, data, apiUrl, env);
      var folio := MakeFolio(env.today, env.notaId);
      && ReplyStatus(reply) == Created
      && (env.busUp ==> w'.outbox == w.outbox + [EventOf(g.cliente.correo, folio, g.cliente.rfc, apiUrl, env.publishedAt)])
      && (!env.busUp ==> w'.outbox == w.outbox)
      && CreateNota(w, data, apiUrl, env.(busUp := !env.busUp)).0 == reply
  {
    ApplyAllFrame(w, PlanOf(ReadPhase(w.ledger, data).value, env));
  }
}

=== FILE: notifications.dfy ===
/** The notification consumer. Invoked by the topic, it walks the event's
    records, keeps those that come from SNS and carry a JSON message with an
    email, a folio and an RFC, and publishes one notification per kept record
    with a link to the download route; it answers 200 whatever the publishes
    return. Invoked over HTTP, it reads the same three fields from the request
    body, answers 400 when one is missing, and otherwise answers with the
    status of its single publish.

    `json.loads` is the parameter `decode`; Python's `str()` of a non-string
    JSON value, used only when such a value reaches the link, is the
    parameter `show`; the topic's answer to the HTTP path's publish is the
    parameter `reply`. */
module Notifications {
  import opened Prelude
  import opened Text
  import opened Json
  import opened Gateway

  const SnsSource := "aws:sns"
  const DefaultBase := "https://api.example.com"
  const Success := 200
  const DownloadPath := "/notas/download?rfc="
  const FolioParam := "&folio="

  // ---------------------------------------------------------------------
  // The download link
  // ---------------------------------------------------------------------

  /** The link both invocation paths put in the notification. */
  function DownloadUrl(base: string, rfc: string, folio: string): string {
    base + DownloadPath + rfc + FolioParam + folio
  }

  /** The gateway's reading of the text of a link the services build: it
      cuts the query at every '&', so the link's RFC and folio come through
      exactly when the RFC has no '&'. An RFC with '&' arrives cut short (the
      RFC shape admits '&'). */
  lemma LinkParameters(base: string, rfc: string, folio: string)
    requires '?' !in base && '&' !in folio
    ensures var q := QueryParameters(DownloadUrl(base, rfc, folio));
      && "rfc" in q && "folio" in q && q["folio"] == Decode(folio)
      && ('&' !in rfc ==> q == map["rfc" := Decode(rfc), "folio" := Decode(folio)])
      && ('&' in rfc ==> |q["rfc"]| < |rfc|)
  {
    LinkPieces(base, rfc, folio);
    if '&' !in rfc {
      PlainRfcParameters(rfc, folio);
    } else {
      AmpersandRfcParameters(rfc, folio);
    }
  }

  /** A followed link is requested with its base, RFC and folio each without
      their tabs and line breaks; the fixed parts have none. */
  lemma UnbrokenLink(base: string, rfc: string, folio: string)
    ensures Unbroken(DownloadUrl(base, rfc, folio)) == DownloadUrl(Unbroken(base), Unbroken(rfc), Unbroken(folio))
  {
    assert OneLine(DownloadPath) && OneLine(FolioParam);
    UnbrokenAppend(base + DownloadPath + rfc + FolioParam, folio);
    UnbrokenAppend(base + DownloadPath + rfc, FolioParam);
    UnbrokenAppend(base + DownloadPath, rfc);
    UnbrokenAppend(base, DownloadPath);
  }

  /** What the download route receives when the link is followed: the
      gateway reads the link without its tabs and line breaks. */
  lemma FollowedLinkParameters(base: string, rfc: string, folio: string)
    requires '?' !in base && '&' !in folio
    ensures var q := QueryParameters(Unbroken(DownloadUrl(base, rfc, folio)));
      && "rfc" in q && "folio" in q && q["folio"] == Decode(Unbroken(folio))
      && ('&' !in rfc ==> q == map["rfc" := Decode(Unbroken(rfc)), "folio" := Decode(Unbroken(folio))])
      && ('&' in rfc ==> |q["rfc"]| < |rfc|)
  {
    UnbrokenLink(base, rfc, folio);
    UnbrokenKeeps(base, '?');
    UnbrokenKeeps(rfc, '&');
    UnbrokenKeeps(folio, '&');
    LinkParameters(Unbroken(base), Unbroken(rfc), Unbroken(folio));
  }

  /** A followed link of an RFC and a one-line folio without '%': the route
      gets the folio, and gets the RFC exactly when the RFC has neither '&'
      nor a tab or line break; otherwise it gets a shorter text. */
  lemma FollowedLink(base: string, rfc: string, folio: string)
    requires '?' !in base && '&' !in folio && OneLine(folio)
    requires '%' !in rfc && '%' !in folio
    ensures var q := QueryParameters(Unbroken(DownloadUrl(base, rfc, folio)));
      && "rfc" in q && "folio" in q && q["folio"] == folio
      && (q["rfc"] == rfc <==> '&' !in rfc && OneLine(rfc))
      && (q == map["rfc" := rfc, "folio" := folio] <==> '&' !in rfc && OneLine(rfc))
      && ('&' !in rfc ==> q["rfc"] == Unbroken(rfc))
      && (q["rfc"] != rfc ==> |q["rfc"]| < |rfc|)
  {
    FollowedLinkParameters(base, rfc, folio);
    UnbrokenKeeps(rfc, '%');
  }

  /** The query of a link: the RFC and folio parameters. */
  lemma LinkQuery(base: string, rfc: string, folio: string)
    requires '?' !in base
    ensures QueryOf(DownloadUrl(base, rfc, folio)) == "rfc=" + rfc + "&" + ("folio=" + folio)
  {
    var head := base + "/notas/download";
    var query := "rfc=" + rfc + "&" + ("folio=" + folio);
    assert '?' !in head;
    assert DownloadUrl(base, rfc, folio) == head + "?" + query;
    QueryAfterMark(head, query);
  }

  /** The pieces the gateway cuts a link's query into. */
  lemma LinkPieces(base: string, rfc: string, folio: string)
    requires '?' !in base && '&' !in folio
    ensures Split(QueryOf(DownloadUrl(base, rfc, folio)), '&') == Split("rfc=" + rfc, '&') + ["folio=" + folio]
  {
    LinkQuery(base, rfc, folio);
    assert '&' !in "folio=" + folio;
    SplitAround("rfc=" + rfc, '&', "folio=" + folio);
  }

  /** The "rfc=" piece names the RFC parameter. */
  lemma RfcPiece(rfc: string)
    ensures Name("rfc=" + rfc) == "rfc" && Value("rfc=" + rfc) == Decode(rfc)
  {
    var piece := "rfc=" + rfc;
    assert piece[3] == '=' && piece[..3] == "rfc" && piece[4..] == rfc;
    PieceAt(piece, 3);
    assert '%' !in "rfc";
  }

  /** The "folio=" piece names the folio parameter. */
  lemma FolioPiece(folio: string)
    ensures Name("folio=" + folio) == "folio" && Value("folio=" + folio) == Decode(folio)
  {
    var piece := "folio=" + folio;
    assert piece[5] == '=' && piece[..5] == "folio" && piece[6..] == folio;
    PieceAt(piece, 5);
    assert '%' !in "folio";
  }

  lemma PlainRfcParameters(rfc: string, folio: string)
    requires '&' !in rfc
    ensures Parameters(Split("rfc=" + rfc, '&') + ["folio=" + folio]) == map["rfc" := Decode(rfc), "folio" := Decode(folio)]
  {
    var rfcPiece, folioPiece := "rfc=" + rfc, "folio=" + folio;
    assert Split(rfcPiece, '&') + [folioPiece] == [rfcPiece, folioPiece] by {
      assert '&' !in rfcPiece;
    }
    TwoPieces(rfcPiece, folioPiece);
    RfcPiece(rfc);
    FolioPiece(folio);
  }

  /** An RFC whose first '&' is at `i`: its "rfc=" piece is cut there, and
      the rest of the RFC is cut into pieces of its own. */
  lemma AmpersandRfcPieces(rfc: string, i: nat)
    requires i < |rfc| && rfc[i] == '&' && '&' !in rfc[..i]
    ensures Split("rfc=" + rfc, '&') == ["rfc=" + rfc[..i]] + Split(rfc[i + 1..], '&')
  {
    var head, tail := rfc[..i], rfc[i + 1..];
    assert rfc == head + "&" + tail;
    assert "rfc=" + rfc == ("rfc=" + head) + "&" + tail by {
      AppendAssoc("rfc=", head + "&", tail);
      AppendAssoc("rfc=", head, "&");
    }
    SplitAround("rfc=" + head, '&', tail);
    assert '&' !in "rfc=" + head by {
      assert '&' !in "rfc=";
    }
  }

  lemma AmpersandRfcParameters(rfc: string, folio: string)
    requires '&' in rfc
    ensures var q := Parameters(Split("rfc=" + rfc, '&') + ["folio=" + folio]);
      && "rfc" in q && "folio" in q && q["folio"] == Decode(folio) && |q["rfc"]| < |rfc|
  {
    var i := IndexOf(rfc, '&').value;
    var first := "rfc=" + rfc[..i];
    var middle := Split(rfc[i + 1..], '&');
    AmpersandRfcPieces(rfc, i);
    RfcPiece(rfc[..i]);
    FolioPiece(folio);
    SplitPieces(rfc[i + 1..], '&');
    CutShort(first, middle, "folio=" + folio, |rfc|);
  }

  /** Pieces that open with a short "rfc" piece and close with the folio
      piece, with short pieces between, give a short RFC parameter. */
  lemma CutShort(first: string, middle: seq<string>, last: string, n: nat)
    requires Name(first) == "rfc" && |Value(first)| < n
    requires forall k :: 0 <= k < |middle| ==> |middle[k]| < n
    requires Name(last) == "folio"
    ensures var q := Parameters([first] + middle + [last]);
      && "rfc" in q && "folio" in q && q["folio"] == Value(last) && |q["rfc"]| < n
  {
    var pieces := [first] + middle + [last];
    var q := Parameters(pieces);
    assert pieces[0] == first && pieces[|pieces| - 1] == last;
    PieceNamed(pieces, 0);
    LastPieceWins(pieces, |pieces| - 1);
    ParameterFromPiece(pieces, "rfc");
    var j :| 0 <= j < |pieces| && Name(pieces[j]) == "rfc" && q["rfc"] == Value(pieces[j]);
    assert j < |pieces| - 1 by {
      assert "rfc" != "folio";
    }
    if j > 0 {
      assert pieces[j] == middle[j - 1];
    }
  }

  /** The "rfc=" piece of an RFC `a&b` is cut in two at the '&'. */
  lemma CutRfcPieces(a: string, b: string)
    requires '&' !in a && '&' !in b
    ensures Split("rfc=" + (a + "&" + b), '&') == ["rfc=" + a, b]
  {
    assert "rfc=" + (a + "&" + b) == "rfc=" + a + "&" + b;
    SplitAround("rfc=" + a, '&', b);
    assert '&' !in "rfc=" + a;
  }

  /** A piece without '=' or '%' names itself, with an empty value. */
  lemma BarePiece(b: string)
    requires '=' !in b && '%' !in b
    ensures Name(b) == b && Value(b) == ""
  {
  }

  /** An RFC with one '&' in it: the gateway hands the route the part before
      the '&' as the RFC, and the part after it as a parameter of its own. */
  lemma CutRfcParameters(base: string, a: string, b: string, folio: string)
    requires '?' !in base && '&' !in a && '&' !in b && '&' !in folio
    requires '=' !in b && '%' !in a && '%' !in b && '%' !in folio
    ensures QueryParameters(DownloadUrl(base, a + "&" + b, folio)) == map["rfc" := a, b := "", "folio" := folio]
  {
    var rfcPiece, folioPiece := "rfc=" + a, "folio=" + folio;
    assert Split(QueryOf(DownloadUrl(base, a + "&" + b, folio)), '&') == [rfcPiece, b, folioPiece] by {
      LinkPieces(base, a + "&" + b, folio);
      CutRfcPieces(a, b);
      assert [rfcPiece, b] + [folioPiece] == [rfcPiece, b, folioPiece];
    }
    ThreePieces(rfcPiece, b, folioPiece);
    RfcPiece(a);
    FolioPiece(folio);
    BarePiece(b);
  }

  /** The same RFC `a&b` when the link is followed, with no tab or line
      break in it. */
  lemma FollowedCutRfcParameters(base: string, a: string, b: string, folio: string)
    requires '?' !in base && '&' !in a && '&' !in b && '&' !in folio
    requires '=' !in b && '%' !in a && '%' !in b && '%' !in folio
    requires OneLine(a) && OneLine(b) && OneLine(folio)
    ensures QueryParameters(Unbroken(DownloadUrl(base, a + "&" + b, folio))) == map["rfc" := a, b := "", "folio" := folio]
  {
    assert OneLine(a + "&" + b);
    UnbrokenLink(base, a + "&" + b, folio);
    UnbrokenKeeps(base, '?');
    CutRfcParameters(Unbroken(base), a, b, folio);
  }

  /** The link with its RFC and folio percent-encoded. */
  function EncodedDownloadUrl(base: string, rfc: string, folio: string): string {
    DownloadUrl(base, Encode(rfc), Encode(folio))
  }

  /** An encoded link hands the download route its RFC and folio for every
      RFC and folio, '&', tabs and line breaks included, whether the gateway
      reads its text or the link is followed. */
  lemma EncodedLinkParameters(base: string, rfc: string, folio: string)
    requires '?' !in base
    ensures QueryParameters(EncodedDownloadUrl(base, rfc, folio)) == map["rfc" := rfc, "folio" := folio]
    ensures QueryParameters(Unbroken(EncodedDownloadUrl(base, rfc, folio))) == map["rfc" := rfc, "folio" := folio]
  {
    var r, f := Encode(rfc), Encode(folio);
    EncodedOneLine(rfc);
    EncodedOneLine(folio);
    LinkParameters(base, r, f);
    UnbrokenLink(base, r, f);
    UnbrokenKeeps(base, '?');
    LinkParameters(Unbroken(base), r, f);
  }

  /** An encoded text has no '&' and stays on one line. */
  lemma EncodedOneLine(s: string)
    ensures '&' !in Encode(s) && OneLine(Encode(s))
  {
    EncodedAvoids(s, '&');
    EncodedAvoids(s, '\t');
    EncodedAvoids(s, '\n');
    EncodedAvoids(s, '\r');
  }

  // ---------------------------------------------------------------------
  // enviar_notificacion_sns
  // ---------------------------------------------------------------------

  /** What the topic answers to a publish call. */
  datatype BusReply = Accepted(messageId: string) | InvalidParameter | TopicNotFound | OtherError

  /** The status enviar_notificacion_sns reports for each answer. */
  function SendStatus(reply: BusReply): (s: int)
    ensures s == Success <==> reply.Accepted?
    ensures reply == InvalidParameter ==> s == BadRequest
    ensures reply == TopicNotFound ==> s == NotFound
    ensures reply == OtherError ==> s == InternalError
  {
    match reply
    case Accepted(_) => Success
    case InvalidParameter => BadRequest
    case TopicNotFound => NotFound
    case OtherError => InternalError
  }

  /** A publish call as issued. The message text around the link and the
      `environment` attribute are constant and not modelled. */
  datatype Publication = Publication(subject: string, email: string, folio: string, rfc: string, url: string)

  datatype SendResult = Sent(messageId: string) | NotSent(status: int)

  /** The message attributes must be strings: otherwise the SDK refuses the
      call before it reaches the topic, and the generic `except` reports 500. */
  predicate Publishable(email: Json, folio: Json, rfc: Json) {
    email.JStr? && folio.JStr? && rfc.JStr?
  }

  /** The call enviar_notificacion_sns issues, if it issues one. */
  function Attempt(email: Json, folio: Json, rfc: Json, url: string): (calls: seq<Publication>)
    ensures |calls| <= 1
    ensures |calls| == 1 <==> Publishable(email, folio, rfc)
    ensures |calls| == 1 ==>
      (calls[0].email == email.s && calls[0].folio == folio.s && calls[0].rfc == rfc.s && calls[0].url == url)
  {
    if Publishable(email, folio, rfc) then
      [Publication("Nueva Nota de Venta - Folio " + folio.s, email.s, folio.s, rfc.s, url)]
    else []
  }

  /** enviar_notificacion_sns: it never raises; every failure comes back as
      a status. */
  function Send(email: Json, folio: Json, rfc: Json, url: string, reply: BusReply): (r: SendResult)
    ensures !Publishable(email, folio, rfc) ==> r == NotSent(InternalError)
    ensures Publishable(email, folio, rfc) ==> (r.Sent? <==> reply.Accepted?)
    ensures Publishable(email, folio, rfc) && r.Sent? ==> r.messageId == reply.messageId
    ensures Publishable(email, folio, rfc) && r.NotSent? ==> r.status == SendStatus(reply)
  {
    if !Publishable(email, folio, rfc) then NotSent(InternalError)
    else
      match reply
      case Accepted(id) => Sent(id)
      case _ => NotSent(SendStatus(reply))
  }

  // ---------------------------------------------------------------------
  // The SNS records
  // ---------------------------------------------------------------------

  /** `dict.get(key)`: the value, or None (JSON null) when absent. */
  function Field(m: Object, key: string): Json {
    if key in m then m[key] else JNull
  }

  /** An f-string's rendering of a value. */
  function PyStr(v: Json, show: Json -> string): string {
    if v.JStr? then v.s else show(v)
  }

  /** What the loop does with one record: skip it, fail the whole invocation
      with an uncaught exception, or notify. */
  datatype Action = Skip | Crash | Deliver(email: Json, folio: Json, rfc: Json, url: string)

  /** The fields of a decoded message: a falsy email, folio or RFC skips the
      record; the base of the link defaults to "". */
  function MessageAction(m: Object, show: Json -> string): (a: Action)
    ensures a != Crash
    ensures a == Skip <==> !(Truthy(Field(m, "email")) && Truthy(Field(m, "folio")) && Truthy(Field(m, "rfc")))
    ensures a.Deliver? ==>
      && a.email == m["email"] && a.folio == m["folio"] && a.rfc == m["rfc"]
      && a.url == DownloadUrl(if "api_gateway_url" in m then PyStr(m["api_gateway_url"], show) else "",
                              PyStr(m["rfc"], show), PyStr(m["folio"], show))
  {
    var email, folio, rfc := Field(m, "email"), Field(m, "folio"), Field(m, "rfc");
    var base := if "api_gateway_url" in m then PyStr(m["api_gateway_url"], show) else "";
    if !(Truthy(email) && Truthy(folio) && Truthy(rfc)) then Skip
    else Deliver(email, folio, rfc, DownloadUrl(base, PyStr(rfc, show), PyStr(folio, show)))
  }

  /** A record that comes from SNS. */
  predicate FromSns(record: Json) {
    record.JObject? && "EventSource" in record.fields && record.fields["EventSource"] == JStr(SnsSource)
  }

  /** The body of the loop over `event['Records']`. A record that is not an
      object, or an SNS record without an `Sns` object holding a `Message`,
      raises; a message that is not text or not JSON is skipped, and one that
      decodes to something other than an object raises. */
  function RecordAction(record: Json, decode: string -> Option<Json>, show: Json -> string): (a: Action)
    ensures !record.JObject? ==> a == Crash
    ensures record.JObject? && !FromSns(record) ==> a == Skip
    ensures a.Deliver? ==> FromSns(record)
    ensures (FromSns(record) && !("Sns" in record.fields && record.fields["Sns"].JObject?
                                  && "Message" in record.fields["Sns"].fields)) ==> a == Crash
    ensures FromSns(record) && "Sns" in record.fields && record.fields["Sns"].JObject?
            && "Message" in record.fields["Sns"].fields
            ==> var msg := record.fields["Sns"].fields["Message"];
                && (!msg.JStr? ==> a == Skip)
                && (msg.JStr? && decode(msg.s).None? ==> a == Skip)
                && (msg.JStr? && decode(msg.s).Some? && !decode(msg.s).value.JObject? ==> a == Crash)
                && (msg.JStr? && decode(msg.s).Some? && decode(msg.s).value.JObject?
                    ==> a == MessageAction(decode(msg.s).value.fields, show))
  {
    if !record.JObject? then Crash
    else if !FromSns(record) then Skip
    else
      var fields := record.fields;
      if "Sns" !in fields || !fields["Sns"].JObject? || "Message" !in fields["Sns"].fields then Crash
      else
        match fields["Sns"].fields["Message"]
        case JStr(text) =>
          (match decode(text)
           case None => Skip
           case Some(JObject(m)) => MessageAction(m, show)
           case Some(_) => Crash)
        case _ => Skip
  }

  /** The calls a record's action issues. */
  function Calls(a: Action): seq<Publication> {
    if a.Deliver? then Attempt(a.email, a.folio, a.rfc, a.url) else []
  }

  /** The action the loop takes on each record, in order. */
  function Actions(records: seq<Json>, decode: string -> Option<Json>, show: Json -> string): (acts: seq<Action>)
    ensures |acts| == |records|
    ensures forall i :: 0 <= i < |records| ==> acts[i] == RecordAction(records[i], decode, show)
  {
    seq(|records|, i requires 0 <= i < |records| => RecordAction(records[i], decode, show))
  }

  /** The loop over the records' actions: whether an exception escaped, and
      the publish calls issued until then. */
  function RunActions(acts: seq<Action>): (r: (bool, seq<Publication>))
    ensures r.0 <==> Crash in acts
    ensures |r.1| <= |acts|
    decreases |acts|
  {
    if acts == [] then (false, [])
    else if acts[0] == Crash then (true, [])
    else
      var rest := RunActions(acts[1..]);
      assert acts == [acts[0]] + acts[1..];
      (rest.0, Calls(acts[0]) + rest.1)
  }

  function RunRecords(records: seq<Json>, decode: string -> Option<Json>, show: Json -> string)
    : (r: (bool, seq<Publication>))
    ensures r.0 <==> exists i :: 0 <= i < |records| && RecordAction(records[i], decode, show) == Crash
    ensures |r.1| <= |records|
  {
    var acts := Actions(records, decode, show);
    assert Crash in acts ==> exists i :: 0 <= i < |records| && RecordAction(records[i], decode, show) == Crash by {
      if Crash in acts {
        var i :| 0 <= i < |acts| && acts[i] == Crash;
      }
    }
    RunActions(acts)
  }

  /** Actions taken one after another: a first part that does not raise
      contributes its calls, then the second part runs. */
  lemma {:induction false} RunActionsAppend(a: seq<Action>, b: seq<Action>)
    requires Crash !in a
    ensures RunActions(a + b) == (RunActions(b).0, RunActions(a).1 + RunActions(b).1)
    decreases |a|
  {
    if a == [] {
      assert a + b == b;
      assert RunActions(a) == (false, []);
      assert [] + RunActions(b).1 == RunActions(b).1;
    } else {
      assert (a + b)[0] == a[0] && a[0] != Crash;
      assert (a + b)[1..] == a[1..] + b;
      assert Crash !in a[1..];
      RunActionsAppend(a[1..], b);
      assert RunActions(a + b) == (RunActions(a[1..] + b).0, Calls(a[0]) + RunActions(a[1..] + b).1);
      assert RunActions(a) == (RunActions(a[1..]).0, Calls(a[0]) + RunActions(a[1..]).1);
      var c, x, y := Calls(a[0]), RunActions(a[1..]).1, RunActions(b).1;
      assert c + (x + y) == (c + x) + y;
    }
  }

  /** A skipped record changes nothing: neither the calls nor the status. */
  lemma {:induction false} SkipIsInert(a: seq<Action>, b: seq<Action>)
    ensures RunActions(a + [Skip] + b) == RunActions(a + b)
    decreases |a|
  {
    if a == [] {
      assert a + [Skip] + b == [Skip] + b;
      assert ([Skip] + b)[0] == Skip && ([Skip] + b)[1..] == b;
      assert RunActions([Skip] + b) == (RunActions(b).0, Calls(Skip) + RunActions(b).1);
      assert Calls(Skip) + RunActions(b).1 == RunActions(b).1;
      assert a + b == b;
    } else {
      assert (a + [Skip] + b)[0] == a[0] && (a + b)[0] == a[0];
      assert (a + [Skip] + b)[1..] == a[1..] + [Skip] + b;
      assert (a + b)[1..] == a[1..] + b;
      SkipIsInert(a[1..], b);
    }
  }

  /** Records that are all skipped issue no call and raise nothing. */
  lemma {:induction false} AllSkippedIsSilent(acts: seq<Action>)
    requires forall i :: 0 <= i < |acts| ==> acts[i] == Skip
    ensures RunActions(acts) == (false, [])
    decreases |acts|
  {
    if acts != [] {
      AllSkippedIsSilent(acts[1..]);
    }
  }

  /** The calls are exactly those of the delivering records, in record
      order, when no record raises. */
  lemma {:induction false} CallsOfDeliveries(acts: seq<Action>)
    requires Crash !in acts
    ensures RunActions(acts).1 == Flatten(acts)
    decreases |acts|
  {
    if acts != [] {
      assert acts == [acts[0]] + acts[1..];
      assert Crash !in acts[1..];
      FlattenCons(acts[0], acts[1..]);
      CallsOfDeliveries(acts[1..]);
    }
  }

  /** The calls of a sequence of actions, read from the back. */
  function Flatten(acts: seq<Action>): seq<Publication>
    decreases |acts|
  {
    if acts == [] then [] else Flatten(acts[..|acts| - 1]) + Calls(acts[|acts| - 1])
  }

  lemma {:induction false} FlattenCons(x: Action, xs: seq<Action>)
    ensures Flatten([x] + xs) == Calls(x) + Flatten(xs)
    decreases |xs|
  {
    var all := [x] + xs;
    if xs == [] {
      assert all[..0] == [];
      assert Flatten(all) == Flatten([]) + Calls(x);
    } else {
      assert all[..|all| - 1] == [x] + xs[..|xs| - 1];
      assert all[|all| - 1] == xs[|xs| - 1];
      FlattenCons(x, xs[..|xs| - 1]);
    }
  }

  /** A single SNS record whose message decodes to an object with an email,
      a folio and an RFC, all text, issues exactly one call with the link to
      that RFC and folio. */
  lemma SingleRecordNotifies(record: Json, decode: string -> Option<Json>, show: Json -> string)
    requires RecordAction(record, decode, show).Deliver?
    requires var a := RecordAction(record, decode, show); Publishable(a.email, a.folio, a.rfc)
    ensures var a := RecordAction(record, decode, show);
      RunRecords([record], decode, show)
        == (false, [Publication("Nueva Nota de Venta - Folio " + a.folio.s, a.email.s, a.folio.s, a.rfc.s, a.url)])
  {
    var a := RecordAction(record, decode, show);
    assert Actions([record], decode, show) == [a];
    assert [a][0] == a && [a][1..] == [];
    assert RunActions([a]) == (RunActions([]).0, Calls(a) + RunActions([]).1);
    assert Calls(a) + [] == Calls(a);
  }

  // ---------------------------------------------------------------------
  // lambda_handler
  // ---------------------------------------------------------------------

  /** Which branch `'Records' in event and len(event['Records']) > 0` takes:
      the records of a non-empty list; the HTTP path for an absent or empty
      value; an exception for a non-empty text or object (iterating it yields
      strings, which have no `.get`) and for a value without a length. */
  datatype Route = SnsRecords(records: seq<Json>) | Http | BadRecords

  function RouteOf(event: Object): (r: Route)
    ensures r.SnsRecords? <==> "Records" in event && event["Records"].JList? && |event["Records"].items| > 0
    ensures r.SnsRecords? ==> r.records == event["Records"].items
    ensures r == Http <==> ("Records" !in event
      || (!Truthy(event["Records"]) && (event["Records"].JList? || event["Records"].JStr? || event["Records"].JObject?)))
  {
    if "Records" !in event then Http
    else
      match event["Records"]
      case JList(xs) => if |xs| > 0 then SnsRecords(xs) else Http
      case JStr(s) => if s == "" then Http else BadRecords
      case JObject(m) => if |m| == 0 then Http else BadRecords
      case _ => BadRecords
  }

  /** The HTTP path's request: the decoded `body` text when there is one that
      decodes, otherwise the event itself. */
  function RequestBody(event: Object, decode: string -> Option<Json>): (body: Json)
    ensures ("body" !in event || !Truthy(event["body"])) ==> body == JObject(event)
    ensures ("body" in event && Truthy(event["body"]) && event["body"].JStr? && decode(event["body"].s).Some?)
            ==> body == decode(event["body"].s).value
    ensures ("body" in event && Truthy(event["body"]) && !(event["body"].JStr? && decode(event["body"].s).Some?))
            ==> body == JObject(event)
  {
    if "body" in event && Truthy(event["body"]) && event["body"].JStr? && decode(event["body"].s).Some? then
      decode(event["body"].s).value
    else JObject(event)
  }

  /** The handler's answer: the status and the publish calls issued. The
      response bodies are not modelled. */
  datatype Outcome = Outcome(status: int, calls: seq<Publication>)

  /** The HTTP path. A body that is not an object raises on `.get`. */
  function HttpInvoke(event: Object, decode: string -> Option<Json>, show: Json -> string, reply: BusReply): (o: Outcome)
    ensures !RequestBody(event, decode).JObject? ==> o == Outcome(InternalError, [])
    ensures var body := RequestBody(event, decode);
      body.JObject? ==>
        var m := body.fields;
        var base := if "api_gateway_url" in m then PyStr(m["api_gateway_url"], show) else DefaultBase;
        && (!(Truthy(Field(m, "email")) && Truthy(Field(m, "folio")) && Truthy(Field(m, "rfc")))
            ==> o == Outcome(BadRequest, []))
        && ((Truthy(Field(m, "email")) && Truthy(Field(m, "folio")) && Truthy(Field(m, "rfc"))
             && !Publishable(m["email"], m["folio"], m["rfc"]))
            ==> o == Outcome(InternalError, []))
        && ((Truthy(Field(m, "email")) && Truthy(Field(m, "folio")) && Truthy(Field(m, "rfc"))
             && Publishable(m["email"], m["folio"], m["rfc"]))
            ==> (o.status == SendStatus(reply)
              && o.calls == [Publication("Nueva Nota de Venta - Folio " + m["folio"].s, m["email"].s, m["folio"].s,
                                         m["rfc"].s, DownloadUrl(base, m["rfc"].s, m["folio"].s))]))
  {
    match RequestBody(event, decode)
    case JObject(m) =>
      var email, folio, rfc := Field(m, "email"), Field(m, "folio"), Field(m, "rfc");
      var base := if "api_gateway_url" in m then PyStr(m["api_gateway_url"], show) else DefaultBase;
      if !(Truthy(email) && Truthy(folio) && Truthy(rfc)) then Outcome(BadRequest, [])
      else
        var url := DownloadUrl(base, PyStr(rfc, show), PyStr(folio, show));
        var status := match Send(email, folio, rfc, url, reply)
          case Sent(_) => Success
          case NotSent(s) => s;
        Outcome(status, Attempt(email, folio, rfc, url))
    case _ => Outcome(InternalError, [])
  }

  /** lambda_handler. On the SNS path the answer is 200 unless a record
      raises, whatever the publishes return. */
  function Handle(event: Object, decode: string -> Option<Json>, show: Json -> string, reply: BusReply): (o: Outcome)
    ensures RouteOf(event) == BadRecords ==> o == Outcome(InternalError, [])
    ensures RouteOf(event).SnsRecords? ==>
      var (crashed, calls) := RunRecords(RouteOf(event).records, decode, show);
      o == Outcome(if crashed then InternalError else Success, calls)
    ensures RouteOf(event) == Http ==> o == HttpInvoke(event, decode, show, reply)
  {
    match RouteOf(event)
    case BadRecords => Outcome(InternalError, [])
    case SnsRecords(records) =>
      var (crashed, calls) := RunRecords(records, decode, show);
      Outcome(if crashed then InternalError else Success, calls)
    case Http => HttpInvoke(event, decode, show, reply)
  }

  /** On the SNS path the topic's answers play no part: the outcome is the
      same for every reply, its status is 200 or 500, and 200 exactly when no
      record raises. */
  lemma SnsPathIgnoresReplies(event: Object, decode: string -> Option<Json>, show: Json -> string, r1: BusReply, r2: BusReply)
    requires RouteOf(event).SnsRecords?
    ensures Handle(event, decode, show, r1) == Handle(event, decode, show, r2)
    ensures Handle(event, decode, show, r1).status in {Success, InternalError}
    ensures Handle(event, decode, show, r1).status == Success <==>
      forall i :: 0 <= i < |RouteOf(event).records| ==> RecordAction(RouteOf(event).records[i], decode, show) != Crash
  {
  }

  /** A request the HTTP path can send: an object whose email, folio and RFC
      are all non-empty text. */
  predicate CompleteRequest(body: Json) {
    && body.JObject?
    && "email" in body.fields && body.fields["email"].JStr? && body.fields["email"].s != ""
    && "folio" in body.fields && body.fields["folio"].JStr? && body.fields["folio"].s != ""
    && "rfc" in body.fields && body.fields["rfc"].JStr? && body.fields["rfc"].s != ""
  }

  /** The HTTP path answers 200 exactly when the request is complete and the
      topic accepts the publish; it issues its one call exactly when the
      request is complete, and otherwise answers 400 or 500 without a call. */
  lemma HttpSucceedsExactly(event: Object, decode: string -> Option<Json>, show: Json -> string, reply: BusReply)
    requires RouteOf(event) == Http
    ensures var o := Handle(event, decode, show, reply);
      && (o.status == Success <==> CompleteRequest(RequestBody(event, decode)) && reply.Accepted?)
      && (|o.calls| == 1 <==> CompleteRequest(RequestBody(event, decode)))
      && (!CompleteRequest(RequestBody(event, decode)) ==> o.calls == [] && o.status in {BadRequest, InternalError})
  {
    var body := RequestBody(event, decode);
    if body.JObject? {
      var m := body.fields;
      if Truthy(Field(m, "email")) && Truthy(Field(m, "folio")) && Truthy(Field(m, "rfc"))
         && Publishable(m["email"], m["folio"], m["rfc"]) {
        assert CompleteRequest(body);
      }
    }
  }

  /** A request with all three fields as text gets the status of its publish,
      and its link uses the default base when the body names none. */
  lemma HttpDefaultBase(event: Object, decode: string -> Option<Json>, show: Json -> string, reply: BusReply)
    requires RouteOf(event) == Http
    requires RequestBody(event, decode).JObject?
    requires var m := RequestBody(event, decode).fields;
      && "email" in m && "folio" in m && "rfc" in m
      && Publishable(m["email"], m["folio"], m["rfc"])
      && m["email"].s != "" && m["folio"].s != "" && m["rfc"].s != ""
      && "api_gateway_url" !in m
    ensures var m := RequestBody(event, decode).fields;
      var o := Handle(event, decode, show, reply);
      && o.status == SendStatus(reply)
      && (o.status == Success <==> reply.Accepted?)
      && |o.calls| == 1
      && o.calls[0].url == DefaultBase + "/notas/download?rfc=" + m["rfc"].s + "&folio=" + m["folio"].s
  {
  }
}

=== FILE: prelude.dfy ===
/** Shared vocabulary of the three services: optional values, results that carry
    an HTTP-style failure, and the verdict of a request validator. */
module Prelude {

  datatype Option<+T> = None | Some(value: T)

  /** An error response: the HTTP status and the text of its `error` field. */
  datatype Failure = Failure(status: int, message: string)

  datatype Result<+T> = Ok(value: T) | Fail(failure: Failure)

  /** What a validator does with a request body: accept it, reject it with a
      message (answered with 400), or raise a Python exception (answered with
      500 by the handler's catch-all). */
  datatype Verdict = Accept | Reject(message: string) | Raise

  const BadRequest := 400
  const NotFound := 404
  const InternalError := 500

  /** The handlers answer an escaped exception with 500 and the text
      "Error interno: " followed by the exception text, which is not modelled. */
  const Internal := Failure(InternalError, "Error interno")

  /** The failure a handler answers for a validator that did not accept. */
  function VerdictFailure(v: Verdict): (f: Failure)
    requires !v.Accept?
    ensures v.Reject? ==> f == Failure(BadRequest, v.message)
    ensures v.Raise? ==> f.status == InternalError
  {
    match v
    case Reject(m) => Failure(BadRequest, m)
    case Raise => Internal
  }
}

=== FILE: pricing.dfy ===
/** The pricing loop of create_nota_venta: each requested item is looked up in
    the product table, priced at `Decimal(str(cantidad)) × precio_base`, and
    added to a running total; the first item that cannot be priced ends the
    request. Decimal arithmetic is exact here. */
module Pricing {
  import opened Prelude
  import opened Json
  import opened Tables
  import opened Catalog
  import opened NoteValidation

  /** One entry of the response's `contenidos` list. */
  datatype Contenido = Contenido(
    productoId: string,
    productoNombre: Json,
    cantidad: real,
    precioUnitario: real,
    importe: real)

  /** The items the pricing loop runs over: objects with both keys, as the
      validator guarantees. */
  predicate PricedShape(items: seq<Json>) {
    forall i :: 0 <= i < |items| ==>
      items[i].JObject? && "producto_id" in items[i].fields && "cantidad" in items[i].fields
  }

  function ProductMissing(key: string): string {
    "Producto " + key + " no encontrado"
  }

  /** Why one item cannot be priced, in the order the loop body fails: a key
      `get_item` rejects (500), an unknown product (404), a quantity
      `Decimal(str())` cannot read (500). None when the item prices. */
  function ItemFailure(item: Json, productos: Table<Producto>): (r: Option<Failure>)
    requires item.JObject? && "producto_id" in item.fields && "cantidad" in item.fields
    ensures StoreKey(item.fields["producto_id"]).None? ==> r == Some(Internal)
    ensures StoreKey(item.fields["producto_id"]).Some? && StoreKey(item.fields["producto_id"]).value !in productos
            ==> r == Some(Failure(NotFound, ProductMissing(item.fields["producto_id"].s)))
    ensures r.None? <==>
      && StoreKey(item.fields["producto_id"]).Some?
      && StoreKey(item.fields["producto_id"]).value in productos
      && PyDecimal(item.fields["cantidad"]).Some?
    ensures r.Some? ==> r.value.status in {InternalError, NotFound}
  {
    match StoreKey(item.fields["producto_id"])
    case None => Some(Internal)
    case Some(key) =>
      if key !in productos then Some(Failure(NotFound, ProductMissing(key)))
      else if PyDecimal(item.fields["cantidad"]).None? then Some(Internal)
      else None
  }

  /** The line an item that prices contributes. */
  function LineOf(item: Json, productos: Table<Producto>): (c: Contenido)
    requires item.JObject? && "producto_id" in item.fields && "cantidad" in item.fields
    requires ItemFailure(item, productos).None?
    ensures c.productoId == item.fields["producto_id"].s
    ensures c.productoNombre == productos[c.productoId].nombre
    ensures c.cantidad == PyDecimal(item.fields["cantidad"]).value
    ensures c.precioUnitario == productos[c.productoId].precioBase
    ensures c.importe == c.cantidad * c.precioUnitario
  {
    var key := item.fields["producto_id"].s;
    var cantidad := PyDecimal(item.fields["cantidad"]).value;
    var producto := productos[key];
    Contenido(key, producto.nombre, cantidad, producto.precioBase, cantidad * producto.precioBase)
  }

  /** The pricing loop: the lines in request order, or the failure of the
      first item that does not price. */
  function PriceItems(items: seq<Json>, productos: Table<Producto>): (r: Result<seq<Contenido>>)
    requires PricedShape(items)
    ensures r.Ok? <==> forall i :: 0 <= i < |items| ==> ItemFailure(items[i], productos).None?
    ensures r.Ok? ==> |r.value| == |items|
    ensures r.Ok? ==> forall i :: 0 <= i < |items| ==> r.value[i] == LineOf(items[i], productos)
    ensures r.Fail? ==> exists k :: (0 <= k < |items|
      && (forall i :: 0 <= i < k ==> ItemFailure(items[i], productos).None?)
      && ItemFailure(items[k], productos) == Some(r.failure))
    decreases |items|
  {
    if items == [] then Ok([])
    else
      match ItemFailure(items[0], productos)
      case Some(f) => Fail(f)
      case None =>
        match PriceItems(items[1..], productos)
        case Fail(f) =>
          ghost var k :| 0 <= k < |items| - 1
            && (forall i :: 0 <= i < k ==> ItemFailure(items[1..][i], productos).None?)
            && ItemFailure(items[1..][k], productos) == Some(f);
          assert forall i :: 0 <= i < k + 1 ==> ItemFailure(items[i], productos).None? by {
            forall i | 0 <= i < k + 1 ensures ItemFailure(items[i], productos).None? {
              if i > 0 { assert items[i] == items[1..][i - 1]; }
            }
          }
          assert ItemFailure(items[k + 1], productos) == Some(f) by { assert items[k + 1] == items[1..][k]; }
          Fail(f)
        case Ok(rest) =>
          assert forall i :: 0 <= i < |items| ==> ItemFailure(items[i], productos).None? by {
            forall i | 0 <= i < |items| ensures ItemFailure(items[i], productos).None? {
              if i > 0 { assert items[i] == items[1..][i - 1]; }
            }
          }
          Ok([LineOf(items[0], productos)] + rest)
  }

  /** The running total `total += importe`, folded from the first line. */
  function Total(cs: seq<Contenido>): real
    decreases |cs|
  {
    if cs == [] then 0.0 else Total(cs[..|cs| - 1]) + cs[|cs| - 1].importe
  }

  /** The total seen from the other end: the first line plus the rest. */
  lemma {:induction false} TotalCons(c: Contenido, cs: seq<Contenido>)
    ensures Total([c] + cs) == c.importe + Total(cs)
    decreases |cs|
  {
    if cs != [] {
      var all := [c] + cs;
      assert all[..|all| - 1] == [c] + cs[..|cs| - 1];
      TotalCons(c, cs[..|cs| - 1]);
    }
  }

  /** The amount owed for the items, written independently of the lines:
      the sum of quantity × base price over the request. */
  function Amount(items: seq<Json>, productos: Table<Producto>): real
    requires PricedShape(items)
    requires forall i :: 0 <= i < |items| ==> ItemFailure(items[i], productos).None?
    decreases |items|
  {
    if items == [] then 0.0
    else
      var item := items[0];
      assert ItemFailure(item, productos).None?;
      PyDecimal(item.fields["cantidad"]).value * productos[item.fields["producto_id"].s].precioBase
        + Amount(items[1..], productos)
  }

  /** The stored total is exactly the sum of quantity × base price over the
      request items. */
  lemma {:induction false} TotalIsAmount(items: seq<Json>, productos: Table<Producto>)
    requires PricedShape(items)
    requires PriceItems(items, productos).Ok?
    ensures Total(PriceItems(items, productos).value) == Amount(items, productos)
    decreases |items|
  {
    var cs := PriceItems(items, productos).value;
    if items != [] {
      var rest := items[1..];
      assert PricedShape(rest) by {
        forall i | 0 <= i < |rest| ensures rest[i] == items[i + 1] { }
      }
      assert PriceItems(rest, productos).Ok? by {
        forall i | 0 <= i < |rest| ensures ItemFailure(rest[i], productos).None? {
          assert rest[i] == items[i + 1];
        }
      }
      var tail := PriceItems(rest, productos).value;
      assert cs == [cs[0]] + tail by {
        forall i | 0 <= i < |tail| ensures tail[i] == cs[i + 1] {
          assert rest[i] == items[i + 1];
        }
      }
      TotalIsAmount(rest, productos);
      TotalCons(cs[0], tail);
    }
  }

  /** The total of lines whose amounts are all positive is positive, and zero
      only for no lines. */
  lemma {:induction false} TotalPositive(cs: seq<Contenido>)
    requires forall i :: 0 <= i < |cs| ==> cs[i].importe > 0.0
    ensures |cs| > 0 ==> Total(cs) > 0.0
    ensures |cs| == 0 ==> Total(cs) == 0.0
    decreases |cs|
  {
    if cs != [] {
      TotalPositive(cs[..|cs| - 1]);
    }
  }

  /** With validated items and positive stored prices, every line has a
      quantity of at least one and a positive amount, and so does the total. */
  lemma PricedLinesPositive(items: seq<Json>, productos: Table<Producto>)
    requires PricedShape(items)
    requires forall i :: 0 <= i < |items| ==> WellFormedItem(items[i])
    requires ProductosInvariant(productos)
    requires PriceItems(items, productos).Ok?
    ensures var cs := PriceItems(items, productos).value;
      && (forall i :: 0 <= i < |cs| ==> cs[i].cantidad >= 1.0 && cs[i].importe > 0.0)
      && (|items| > 0 ==> Total(cs) > 0.0)
  {
    var cs := PriceItems(items, productos).value;
    forall i | 0 <= i < |cs| ensures cs[i].cantidad >= 1.0 && cs[i].importe > 0.0 {
      PositiveQuantity(items[i].fields["cantidad"]);
      assert WellFormedProducto(productos[cs[i].productoId]);
    }
    TotalPositive(cs);
  }

  /** The pricing loop as the handler runs it: lines appended and the total
      accumulated item by item, stopping at the first item that fails. */
  method BuildContenidos(items: seq<Json>, productos: Table<Producto>)
    returns (r: Result<seq<Contenido>>, total: real)
    requires PricedShape(items)
    ensures r == PriceItems(items, productos)
    ensures r.Ok? ==> total == Total(r.value)
  {
    var contenidos: seq<Contenido> := [];
    total := 0.0;
    var i := 0;
    while i < |items|
      invariant 0 <= i <= |items|
      invariant |contenidos| == i
      invariant forall j :: 0 <= j < i ==> ItemFailure(items[j], productos).None?
      invariant forall j :: 0 <= j < i ==> contenidos[j] == LineOf(items[j], productos)
      invariant total == Total(contenidos)
    {
      var failure := ItemFailure(items[i], productos);
      if failure.Some? {
        r := Fail(failure.value);
        var whole := PriceItems(items, productos);
        ghost var k :| 0 <= k < |items|
          && (forall j :: 0 <= j < k ==> ItemFailure(items[j], productos).None?)
          && ItemFailure(items[k], productos) == Some(whole.failure);
        assert k == i;
        return;
      }
      var line := LineOf(items[i], productos);
      assert (contenidos + [line])[..|contenidos|] == contenidos;
      contenidos := contenidos + [line];
      total := total + line.importe;
      i := i + 1;
    }
    r := Ok(contenidos);
    assert contenidos == PriceItems(items, productos).value;
  }
}

=== FILE: scenario.dfy ===
/** The three services together: the note create_nota_venta publishes,
    delivered to the notification consumer as an SNS record, yields one
    notification to the customer. Following its link, a client drops any
    tab or line break from it, and the gateway cuts the query at every '&'.
    So the link redirects to the uploaded PDF exactly when the customer's RFC
    has neither; an RFC with '&', or one ending in a line break, both of which
    the RFC shape admits, gets 404. A link with its parameters
    percent-encoded reaches the PDF for every RFC. Also the figures of the end-to-end test
    run: two products at 25000.00 and 350.00, bought once and twice, total
    25700.00. */
module Scenario {
  import opened Prelude
  import opened Text
  import opened Json
  import opened Tables
  import opened Catalog
  import opened Folio
  import opened Documents
  import opened Pricing
  import opened Notes
  import opened Gateway
  import N = Notifications

  /** The SNS record the topic hands the consumer for a message text. */
  function SnsRecord(text: string): Json {
    JObject(map["EventSource" := JStr(N.SnsSource), "Sns" := JObject(map["Message" := JStr(text)])])
  }

  /** A folio never contains a character that is not a capital, a digit or
      '-' when the id it is cut from has none: '&' and '%' in particular. */
  lemma FolioAvoids(d: Date, id: string, c: char)
    requires ValidDate(d)
    requires c !in id
    requires !IsAsciiUpper(c) && c != 'Ñ' && !IsDigit(c) && c != '-'
    ensures c !in MakeFolio(d, id)
  {
    var p := IdPrefix(id);
    var f := MakeFolio(d, id);
    FolioLayout(d, id);
    forall i | 0 <= i < |f| ensures f[i] != c {
      if i >= 12 {
        assert f[i] == Upper(p)[i - 12] == UpperChar(p[i - 12]);
        assert p[i - 12] == id[i - 12];
      } else if 3 <= i < 11 {
        assert f[i] == DayStamp(d)[i - 3];
      } else if i < 3 {
        assert f[i] == "NV-"[i];
      }
    }
  }

  /** The consumer's side: the event of a note with a non-empty address,
      RFC and folio, delivered as an SNS record, issues exactly one
      notification; following its link hands the route that RFC and folio
      exactly when the RFC has no '&' and no tab or line break. */
  lemma EventNotifies(
    correo: string, folio: string, rfc: string, apiUrl: string, timestamp: string,
    text: string, decode: string -> Option<Json>, show: Json -> string)
    requires correo != "" && folio != "" && rfc != "" && '&' !in folio && OneLine(folio)
    ensures var url := N.DownloadUrl(apiUrl, rfc, folio);
      && (decode(text) == Some(JObject(EventOf(correo, folio, rfc, apiUrl, timestamp).message)) ==>
            N.RunRecords([SnsRecord(text)], decode, show)
              == (false, [N.Publication("Nueva Nota de Venta - Folio " + folio, correo, folio, rfc, url)]))
      && ('?' !in apiUrl && '%' !in rfc && '%' !in folio ==>
            (QueryParameters(Unbroken(url)) == map["rfc" := rfc, "folio" := folio] <==> '&' !in rfc && OneLine(rfc)))
  {
    var m := EventOf(correo, folio, rfc, apiUrl, timestamp).message;
    var record := SnsRecord(text);
    var url := N.DownloadUrl(apiUrl, rfc, folio);
    if decode(text) == Some(JObject(m)) {
      assert N.MessageAction(m, show) == N.Deliver(JStr(correo), JStr(folio), JStr(rfc), url);
      assert N.RecordAction(record, decode, show) == N.Deliver(JStr(correo), JStr(folio), JStr(rfc), url);
      N.SingleRecordNotifies(record, decode, show);
    }
    if '?' !in apiUrl && '%' !in rfc && '%' !in folio {
      N.FollowedLink(apiUrl, rfc, folio);
    }
  }

  /** The facts about a created note the consumer's side needs: the event
      is the last thing published, the customer's address, the RFC and the
      folio are non-empty, the folio has no '&' and is one line, and neither
      has a '%'. */
  lemma CreatedNoteEvent(w: World, data: Object, apiUrl: string, env: Env)
    requires ValidDate(env.today) && IsUuidText(env.notaId)
    requires ClientesInvariant(w.ledger.clientes)
    requires ReadPhase(w.ledger, data).Ok?
    requires NoFault(env, |ReadPhase(w.ledger, data).value.contenidos|)
    requires env.busUp
    ensures var g := ReadPhase(w.ledger, data).value;
      var (reply, w') := CreateNota(w, data, apiUrl, env);
      var rfc, folio, correo := g.cliente.rfc, reply.nota.folio, g.cliente.correo;
      && reply.Done?
      && |w'.outbox| == |w.outbox| + 1
      && w'.outbox[|w.outbox|] == EventOf(correo, folio, rfc, apiUrl, env.publishedAt)
      && correo != "" && folio != "" && rfc != "" && '&' !in folio && OneLine(folio)
      && '%' !in folio && '%' !in rfc
      && reply.s3Key == ObjectKey(rfc, folio)
      && w'.objects == Upload(w.objects, PdfOf(g, env).body, rfc, folio, env.sentAt).1
  {
    var g := ReadPhase(w.ledger, data).value;
    CreateNotaSucceeds(w, data, apiUrl, env);
    CreateNotaPublishes(w, data, apiUrl, env);
    assert WellFormedCliente(w.ledger.clientes[g.clienteId]);
    CustomerLinkFacts(g.cliente);
    FolioLinkFacts(env.today, env.notaId);
  }

  /** A stored customer's address and RFC are non-empty, and the RFC has no
      '%'. */
  lemma CustomerLinkFacts(c: Cliente)
    requires WellFormedCliente(c)
    ensures c.correo != "" && c.rfc != "" && '%' !in c.rfc
  {
    RfcHasNoPercent(c.rfc);
  }

  /** The folio of a uuid is non-empty, one line, and has neither '&' nor
      '%'. */
  lemma FolioLinkFacts(d: Date, id: string)
    requires ValidDate(d) && IsUuidText(id)
    ensures var folio := MakeFolio(d, id); folio != "" && '&' !in folio && '%' !in folio && OneLine(folio)
  {
    FolioLayout(d, id);
    forall i | 0 <= i < |id| ensures id[i] != '&' && id[i] != '%' && !IsTabOrNewline(id[i]) { }
    FolioAvoids(d, id, '&');
    FolioAvoids(d, id, '%');
    FolioAvoids(d, id, '\t');
    FolioAvoids(d, id, '\n');
    FolioAvoids(d, id, '\r');
  }

  /** Following the link of an uploaded note redirects to its object. */
  lemma LinkFindsUpload(store: ObjectStore, body: Bytes, rfc: string, folio: string, sentAt: string)
    requires rfc != "" && folio != ""
    ensures DownloadRoute(Upload(store, body, rfc, folio, sentAt).1, map["rfc" := rfc, "folio" := folio]).0
            == Redirect(ObjectKey(rfc, folio))
  {
    var query := map["rfc" := rfc, "folio" := folio];
    assert QueryProvided(query, "rfc") && QueryProvided(query, "folio");
  }

  /** A key for a shorter RFC is a different key. */
  lemma ShorterRfcOtherKey(a: string, b: string, folio: string)
    requires |a| < |b|
    ensures ObjectKey(a, folio) != ObjectKey(b, folio)
  {
    assert |ObjectKey(a, folio)| < |ObjectKey(b, folio)|;
  }

  /** Following a link as written: with the PDF in the bucket, the download
      route redirects to it exactly when the RFC has no '&' and no tab or
      line break. */
  lemma LinkRoute(store: ObjectStore, base: string, rfc: string, folio: string)
    requires '?' !in base && '&' !in folio && OneLine(folio) && '%' !in rfc && '%' !in folio
    requires rfc != "" && folio != ""
    requires ObjectKey(rfc, folio) in store
    ensures (DownloadRoute(store, QueryParameters(Unbroken(N.DownloadUrl(base, rfc, folio)))).0
             == Redirect(ObjectKey(rfc, folio))) <==> '&' !in rfc && OneLine(rfc)
  {
    N.FollowedLink(base, rfc, folio);
    RouteOfQuery(store, rfc, folio, QueryParameters(Unbroken(N.DownloadUrl(base, rfc, folio))));
  }

  /** With the PDF in the bucket, a query that carries the folio, and
      either the RFC or a shorter text for it, redirects to the PDF exactly
      when it carries the RFC. */
  lemma RouteOfQuery(store: ObjectStore, rfc: string, folio: string, q: map<string, string>)
    requires rfc != "" && folio != "" && ObjectKey(rfc, folio) in store
    requires "rfc" in q && "folio" in q && q["folio"] == folio
    requires q["rfc"] == rfc ==> q == map["rfc" := rfc, "folio" := folio]
    requires q["rfc"] != rfc ==> |q["rfc"]| < |rfc|
    ensures DownloadRoute(store, q).0 == Redirect(ObjectKey(rfc, folio)) <==> q["rfc"] == rfc
  {
    if q["rfc"] != rfc {
      if QueryProvided(q, "rfc") && QueryProvided(q, "folio") {
        ShorterRfcOtherKey(q["rfc"], rfc, folio);
      }
    } else {
      assert QueryProvided(q, "rfc") && QueryProvided(q, "folio");
    }
  }

  const AmpersandRfc := "A&C850101AAA"
  const SampleFolio := "NV-20251125-ABCDEF12"

  /** The gateway's reading of the followed link for an RFC of RFC shape
      with an '&': the RFC arrives as "A", and the rest of it as a parameter
      of its own. */
  lemma AmpersandRfcQuery(base: string)
    requires '?' !in base
    ensures RfcMatches(AmpersandRfc)
    ensures QueryParameters(Unbroken(N.DownloadUrl(base, AmpersandRfc, SampleFolio)))
            == map["rfc" := "A", "C850101AAA" := "", "folio" := SampleFolio]
  {
    AmpersandRfcShape();
    AmpersandRfcParts();
    SampleFolioFacts();
    N.FollowedCutRfcParameters(base, "A", "C850101AAA", SampleFolio);
  }

  lemma AmpersandRfcParts()
    ensures AmpersandRfc == "A" + "&" + "C850101AAA"
    ensures '&' !in "A" && '%' !in "A" && OneLine("A")
    ensures '&' !in "C850101AAA" && '=' !in "C850101AAA" && '%' !in "C850101AAA" && OneLine("C850101AAA")
  {
  }

  /** The sample folio is a plain one-line text. */
  lemma SampleFolioFacts()
    ensures SampleFolio != "" && '&' !in SampleFolio && '%' !in SampleFolio && OneLine(SampleFolio)
  {
  }

  lemma AmpersandRfcShape()
    ensures RfcMatches(AmpersandRfc)
  {
    assert RfcSplit(AmpersandRfc, 3);
  }

  /** The discrepancy on one input: after the PDF is uploaded under the RFC
      "A&C850101AAA", following the notification's link answers 404. */
  lemma AmpersandRfcLinkMisses(base: string, body: Bytes, sentAt: string)
    requires '?' !in base
    ensures DownloadRoute(Upload(map[], body, AmpersandRfc, SampleFolio, sentAt).1,
                          QueryParameters(Unbroken(N.DownloadUrl(base, AmpersandRfc, SampleFolio)))).0
            == Missing(Failure(NotFound, MsgPdfMissing))
  {
    AmpersandRfcQuery(base);
    var q := QueryParameters(Unbroken(N.DownloadUrl(base, AmpersandRfc, SampleFolio)));
    assert "rfc" in q && "folio" in q && q["rfc"] == "A" && q["folio"] == SampleFolio;
    ShortRfcMisses(body, AmpersandRfc, SampleFolio, sentAt, q);
  }

  const NewlineRfc := "ETE201125XYZ\n"

  /** The RFC of the test run followed by a line break matches the pattern,
      whose `$` also matches before a final newline. */
  lemma NewlineRfcShape()
    ensures RfcMatches(NewlineRfc)
  {
    assert NewlineRfc[..|NewlineRfc| - 1] == "ETE201125XYZ";
    assert RfcSplit("ETE201125XYZ", 3);
  }

  /** The discrepancy on a second input: after the PDF is uploaded under the
      RFC "ETE201125XYZ\n", the followed link loses the line break and
      answers 404. */
  lemma NewlineRfcLinkMisses(base: string, body: Bytes, sentAt: string)
    requires '?' !in base
    ensures RfcMatches(NewlineRfc)
    ensures DownloadRoute(Upload(map[], body, NewlineRfc, SampleFolio, sentAt).1,
                          QueryParameters(Unbroken(N.DownloadUrl(base, NewlineRfc, SampleFolio)))).0
            == Missing(Failure(NotFound, MsgPdfMissing))
  {
    NewlineRfcShape();
    SampleFolioFacts();
    NewlineRfcUnbroken();
    FollowedLinkMisses(base, body, NewlineRfc, SampleFolio, sentAt);
  }

  lemma NewlineRfcUnbroken()
    ensures '%' !in NewlineRfc && '&' !in NewlineRfc && !OneLine(NewlineRfc)
    ensures Unbroken(NewlineRfc) != ""
  {
    var s := NewlineRfc;
    assert s[|s| - 1] == '\n';
    assert s == [s[0]] + s[1..] && !IsTabOrNewline(s[0]);
  }

  /** After a lone upload, the followed link of an RFC without '&' but with
      a tab or line break, which still holds something else, answers 404. */
  lemma FollowedLinkMisses(base: string, body: Bytes, rfc: string, folio: string, sentAt: string)
    requires '?' !in base && '&' !in folio && OneLine(folio) && '%' !in rfc && '%' !in folio && folio != ""
    requires '&' !in rfc && !OneLine(rfc) && Unbroken(rfc) != ""
    ensures DownloadRoute(Upload(map[], body, rfc, folio, sentAt).1,
                          QueryParameters(Unbroken(N.DownloadUrl(base, rfc, folio)))).0
            == Missing(Failure(NotFound, MsgPdfMissing))
  {
    N.FollowedLink(base, rfc, folio);
    ShortRfcMisses(body, rfc, folio, sentAt, QueryParameters(Unbroken(N.DownloadUrl(base, rfc, folio))));
  }

  /** A query whose RFC is shorter than the one a lone PDF was uploaded
      under misses it. */
  lemma ShortRfcMisses(body: Bytes, rfc: string, folio: string, sentAt: string, q: map<string, string>)
    requires "rfc" in q && "folio" in q && q["rfc"] != "" && q["folio"] == folio && folio != ""
    requires |q["rfc"]| < |rfc|
    ensures DownloadRoute(Upload(map[], body, rfc, folio, sentAt).1, q).0 == Missing(Failure(NotFound, MsgPdfMissing))
  {
    ShorterRfcOtherKey(q["rfc"], rfc, folio);
    assert QueryProvided(q, "rfc") && QueryProvided(q, "folio");
  }

  /** The intended behaviour: a link with its RFC and folio percent-encoded
      leads the download route to the uploaded PDF for every RFC and folio,
      '&', tabs and line breaks included, when the link is followed. */
  lemma EncodedLinkFindsUpload(store: ObjectStore, base: string, rfc: string, folio: string)
    requires '?' !in base
    requires rfc != "" && folio != ""
    requires ObjectKey(rfc, folio) in store
    ensures DownloadRoute(store, QueryParameters(Unbroken(N.EncodedDownloadUrl(base, rfc, folio)))).0
            == Redirect(ObjectKey(rfc, folio))
  {
    N.EncodedLinkParameters(base, rfc, folio);
    var q := QueryParameters(Unbroken(N.EncodedDownloadUrl(base, rfc, folio)));
    assert QueryProvided(q, "rfc") && QueryProvided(q, "folio");
  }

  /** The event a created note publishes reaches its customer: when the
      consumer decodes the event's message text back into the message, it
      issues exactly one notification, to the customer's address, for the
      note's folio. The RFC and folio are the key the PDF was uploaded under,
      and the download route given them redirects to the object; following
      the link itself gets that redirect exactly when the RFC has no '&' and
      no tab or line break. */
  lemma PublishedNoteReachesCustomer(
    w: World, data: Object, apiUrl: string, env: Env,
    text: string, decode: string -> Option<Json>, show: Json -> string)
    requires ValidDate(env.today) && IsUuidText(env.notaId)
    requires ClientesInvariant(w.ledger.clientes)
    requires ReadPhase(w.ledger, data).Ok?
    requires NoFault(env, |ReadPhase(w.ledger, data).value.contenidos|)
    requires env.busUp
    ensures var g := ReadPhase(w.ledger, data).value;
      var (reply, w') := CreateNota(w, data, apiUrl, env);
      var rfc, folio, correo := g.cliente.rfc, reply.nota.folio, g.cliente.correo;
      var url := N.DownloadUrl(apiUrl, rfc, folio);
      && |w'.outbox| == |w.outbox| + 1
      && (decode(text) == Some(JObject(w'.outbox[|w.outbox|].message)) ==>
            N.RunRecords([SnsRecord(text)], decode, show)
              == (false, [N.Publication("Nueva Nota de Venta - Folio " + folio, correo, folio, rfc, url)]))
      && ObjectKey(rfc, folio) == reply.s3Key
      && DownloadRoute(w'.objects, map["rfc" := rfc, "folio" := folio]).0 == Redirect(reply.s3Key)
      && ('?' !in apiUrl ==>
            ((DownloadRoute(w'.objects, QueryParameters(Unbroken(url))).0 == Redirect(reply.s3Key))
               <==> '&' !in rfc && OneLine(rfc)))
  {
    var g := ReadPhase(w.ledger, data).value;
    var (reply, w') := CreateNota(w, data, apiUrl, env);
    var rfc, folio, correo := g.cliente.rfc, reply.nota.folio, g.cliente.correo;
    CreatedNoteEvent(w, data, apiUrl, env);
    EventNotifies(correo, folio, rfc, apiUrl, env.publishedAt, text, decode, show);
    LinkFindsUpload(w.objects, PdfOf(g, env).body, rfc, folio, env.sentAt);
    if '?' !in apiUrl {
      LinkRoute(w'.objects, apiUrl, rfc, folio);
    }
  }

  // ---------------------------------------------------------------------
  // The end-to-end test run's figures
  // ---------------------------------------------------------------------

  const LaptopId := "producto-1"
  const MouseId := "producto-2"

  /** The request bodies the test run posts to create its two products. */
  function LaptopBody(): Object {
    map["nombre" := JStr("Laptop Dell XPS 15"), "unidad_medida" := JStr("Pieza"), "precio_base" := JNum(25000.0)]
  }

  function MouseBody(): Object {
    map["nombre" := JStr("Mouse Wireless Logitech"), "unidad_medida" := JStr("Pieza"), "precio_base" := JNum(350.0)]
  }

  /** The catalogue the test run creates: the laptop, then the mouse, each
      through create_producto into an empty table. */
  function TestCatalogue(): Table<Producto> {
    var laptops := CreateProducto(map[], LaptopBody(), LaptopId, "t0").1;
    CreateProducto(laptops, MouseBody(), MouseId, "t1").1
  }

  /** The test run's items: one laptop, two mice. */
  function TestItems(): (items: seq<Json>)
    ensures PricedShape(items)
  {
    [JObject(map["producto_id" := JStr(LaptopId), "cantidad" := JNum(1.0)]),
     JObject(map["producto_id" := JStr(MouseId), "cantidad" := JNum(2.0)])]
  }

  /** Both of the test run's product bodies pass validate_producto, and the
      catalogue holds exactly the two products at their posted prices. */
  lemma TestCatalogueBuilt()
    ensures CreateProducto(map[], LaptopBody(), LaptopId, "t0").0.Ok?
    ensures CreateProducto(CreateProducto(map[], LaptopBody(), LaptopId, "t0").1, MouseBody(), MouseId, "t1").0.Ok?
    ensures var cat := TestCatalogue();
      && cat.Keys == {LaptopId, MouseId}
      && cat[LaptopId].nombre == JStr("Laptop Dell XPS 15") && cat[LaptopId].precioBase == 25000.0
      && cat[MouseId].nombre == JStr("Mouse Wireless Logitech") && cat[MouseId].precioBase == 350.0
      && ProductosInvariant(cat)
  {
    var laptop, mouse := LaptopBody(), MouseBody();
    assert Provided(laptop, ProductoFields[0]) && Provided(laptop, ProductoFields[1]) && Provided(laptop, ProductoFields[2]);
    assert Provided(mouse, ProductoFields[0]) && Provided(mouse, ProductoFields[1]) && Provided(mouse, ProductoFields[2]);
    var laptops := CreateProducto(map[], laptop, LaptopId, "t0").1;
    ProductosInvariantPreserved(map[], laptop, LaptopId, "t0");
    ProductosInvariantPreserved(laptops, mouse, MouseId, "t1");
  }

  /** The test run's note prices both items and totals 25700.00; its
      customer's RFC is of RFC shape. */
  lemma TestRunTotal()
    ensures PriceItems(TestItems(), TestCatalogue()).Ok?
    ensures Total(PriceItems(TestItems(), TestCatalogue()).value) == 25700.0
    ensures RfcMatches("ETE201125XYZ")
  {
    TestCatalogueBuilt();
    TestItemsPriceOn(TestCatalogue());
    assert RfcSplit("ETE201125XYZ", 3);
  }

  /** The test run's items price to 25700.00 against any catalogue holding
      the laptop at 25000.00 and the mouse at 350.00. */
  lemma TestItemsPriceOn(cat: Table<Producto>)
    requires LaptopId in cat && MouseId in cat
    requires cat[LaptopId].precioBase == 25000.0 && cat[MouseId].precioBase == 350.0
    ensures PriceItems(TestItems(), cat).Ok?
    ensures Total(PriceItems(TestItems(), cat).value) == 25700.0
  {
    var items := TestItems();
    assert ItemFailure(items[0], cat).None? && ItemFailure(items[1], cat).None?;
    TotalIsAmount(items, cat);
    assert items[1..][1..] == [];
    assert Amount(items, cat) == 1.0 * 25000.0 + (2.0 * 350.0 + 0.0);
  }
}

=== FILE: tables.dfy ===
/** A DynamoDB table keyed by its string `id`, as a map, and the
    existence-checked operations the handlers build on it: `get_item` then
    `put_item` to replace, `get_item` then `delete_item` to remove. */
module Tables {
  import opened Prelude

  type Table<R> = map<string, R>

  /** Overwrite the record under an existing key; None when the key is absent. */
  function Replace<R>(t: Table<R>, id: string, record: R): (r: Option<Table<R>>)
    ensures r.None? <==> id !in t
    ensures r.Some? ==> r.value.Keys == t.Keys && r.value[id] == record
    ensures r.Some? ==> forall k :: k in t && k != id ==> r.value[k] == t[k]
  {
    if id in t then Some(t[id := record]) else None
  }

  /** Remove an existing key; None when the key is absent. */
  function Remove<R>(t: Table<R>, id: string): (r: Option<Table<R>>)
    ensures r.None? <==> id !in t
    ensures r.Some? ==> r.value.Keys == t.Keys - {id}
    ensures r.Some? ==> forall k :: k in r.value ==> r.value[k] == t[k]
  {
    if id in t then Some(t - {id}) else None
  }
}

=== FILE: text.dfy ===
/** Character classes, case mapping and decimal text as the services use them:
    `str.upper()`/`str.lower()`, `str(int)`, `int(text)`, `Decimal(text)`,
    zero-padded date fields and the substring test of Python's `in`. */
module Text {
  import opened Prelude

  predicate IsDigit(c: char) { '0' <= c <= '9' }
  predicate IsAsciiUpper(c: char) { 'A' <= c <= 'Z' }
  predicate IsAsciiLower(c: char) { 'a' <= c <= 'z' }
  predicate IsAsciiLetter(c: char) { IsAsciiUpper(c) || IsAsciiLower(c) }

  /** `str.upper()` on one character, for ASCII letters and ñ; every other
      character is left as it is. */
  function UpperChar(c: char): char {
    if IsAsciiLower(c) then (c as int - 32) as char
    else if c == 'ñ' then 'Ñ'
    else c
  }

  /** `str.lower()` on one character, for ASCII letters and Ñ. */
  function LowerChar(c: char): char {
    if IsAsciiUpper(c) then (c as int + 32) as char
    else if c == 'Ñ' then 'ñ'
    else c
  }

  function Upper(s: string): (r: string)
    ensures |r| == |s|
    ensures forall i :: 0 <= i < |s| ==> r[i] == UpperChar(s[i])
  {
    seq(|s|, i requires 0 <= i < |s| => UpperChar(s[i]))
  }

  function Lower(s: string): (r: string)
    ensures |r| == |s|
    ensures forall i :: 0 <= i < |s| ==> r[i] == LowerChar(s[i])
  {
    seq(|s|, i requires 0 <= i < |s| => LowerChar(s[i]))
  }

  /** Upper-casing twice is upper-casing once. */
  lemma UpperIdempotent(s: string)
    ensures Upper(Upper(s)) == Upper(s)
  {
    assert forall i :: 0 <= i < |s| ==> Upper(Upper(s))[i] == Upper(s)[i];
  }

  /** Lower-casing twice is lower-casing once. */
  lemma LowerIdempotent(s: string)
    ensures Lower(Lower(s)) == Lower(s)
  {
    assert forall i :: 0 <= i < |s| ==> Lower(Lower(s))[i] == Lower(s)[i];
  }

  /** The text of a `str(uuid.uuid4())`: lower-case hexadecimal digits and hyphens. */
  predicate IsUuidText(s: string) {
    forall i :: 0 <= i < |s| ==> IsDigit(s[i]) || ('a' <= s[i] <= 'f') || s[i] == '-'
  }

  /** On uuid text, upper-casing loses nothing: distinct texts stay distinct. */
  lemma UpperInjectiveOnUuidText(a: string, b: string)
    requires IsUuidText(a) && IsUuidText(b)
    ensures Upper(a) == Upper(b) <==> a == b
  {
    if Upper(a) == Upper(b) {
      forall i | 0 <= i < |a|
        ensures a[i] == b[i]
      {
        assert UpperChar(a[i]) == Upper(a)[i] == Upper(b)[i] == UpperChar(b[i]);
      }
    }
  }

  function DigitValue(c: char): nat
    requires IsDigit(c)
  {
    c as int - '0' as int
  }

  function DigitChar(d: nat): (c: char)
    requires d < 10
    ensures IsDigit(c) && DigitValue(c) == d
  {
    ('0' as int + d) as char
  }

  predicate AllDigits(s: string) {
    forall i :: 0 <= i < |s| ==> IsDigit(s[i])
  }

  /** The number a string of decimal digits denotes, read most significant first. */
  function DigitsValue(s: string): nat
    requires AllDigits(s)
    decreases |s|
  {
    if s == [] then 0 else DigitsValue(s[..|s| - 1]) * 10 + DigitValue(s[|s| - 1])
  }

  function Pow10(k: nat): (p: nat)
    ensures p >= 1
  {
    if k == 0 then 1 else 10 * Pow10(k - 1)
  }

  lemma DigitsValueSnoc(s: string, c: char)
    requires AllDigits(s) && IsDigit(c)
    ensures AllDigits(s + [c])
    ensures DigitsValue(s + [c]) == DigitsValue(s) * 10 + DigitValue(c)
  {
    assert (s + [c])[..|s|] == s;
  }

  /** `str(n)` for a natural number: its shortest decimal text. */
  function NatToString(n: nat): (r: string)
    ensures |r| > 0 && AllDigits(r)
    ensures DigitsValue(r) == n
    decreases n
  {
    if n < 10 then
      assert [DigitChar(n)][..0] == [];
      [DigitChar(n)]
    else
      var r := NatToString(n / 10) + [DigitChar(n % 10)];
      DigitsValueSnoc(NatToString(n / 10), DigitChar(n % 10));
      r
  }

  /** `str(n)` for an integer. */
  function IntToString(n: int): (r: string)
    ensures |r| > 0
  {
    if n < 0 then "-" + NatToString(-n) else NatToString(n)
  }

  /** The natural number a non-empty digit string denotes. */
  function ParseNat(s: string): (r: Option<nat>)
    ensures r.Some? <==> s != [] && AllDigits(s)
    ensures r.Some? ==> r.value == DigitsValue(s)
  {
    if s != [] && AllDigits(s) then Some(DigitsValue(s)) else None
  }

  /** Python's `int(text)` on text of the form [sign] digits; other text makes
      `int()` raise, answered here with None. */
  function ParseInt(s: string): Option<int> {
    if |s| > 0 && (s[0] == '-' || s[0] == '+') then
      match ParseNat(s[1..])
      case Some(n) => Some(if s[0] == '-' then -(n as int) else n as int)
      case None => None
    else
      match ParseNat(s)
      case Some(n) => Some(n)
      case None => None
  }

  /** Reading back what `str()` wrote gives the same integer. */
  lemma ParseIntOfIntToString(n: int)
    ensures ParseInt(IntToString(n)) == Some(n)
  {
    var r := IntToString(n);
    if n < 0 {
      assert r[1..] == NatToString(-n);
    } else {
      assert IsDigit(r[0]);
    }
  }

  /** The first position of `c` in `s`, if any. */
  function IndexOf(s: string, c: char): (r: Option<nat>)
    ensures r.None? <==> c !in s
    ensures r.Some? ==> r.value < |s| && s[r.value] == c && c !in s[..r.value]
    decreases |s|
  {
    if s == [] then None
    else if s[0] == c then Some(0)
    else
      match IndexOf(s[1..], c)
      case None => None
      case Some(k) =>
        assert s[..k + 1] == [s[0]] + s[1..][..k];
        Some(k + 1)
  }

  /** A `c` at k with none before it is the first one. */
  lemma IndexOfAt(s: string, c: char, k: nat)
    requires k < |s| && s[k] == c && c !in s[..k]
    ensures IndexOf(s, c) == Some(k)
  {
  }

  /** The last position of `c` in `s`, if any. */
  function LastIndexOf(s: string, c: char): (r: Option<nat>)
    ensures r.None? <==> c !in s
    ensures r.Some? ==> r.value < |s| && s[r.value] == c && c !in s[r.value + 1..]
    decreases |s|
  {
    if s == [] then None
    else if s[|s| - 1] == c then Some(|s| - 1)
    else
      match LastIndexOf(s[..|s| - 1], c)
      case None => None
      case Some(k) =>
        assert s[k + 1..] == s[..|s| - 1][k + 1..] + [s[|s| - 1]];
        Some(k)
  }

  /** `Decimal(text)` on unsigned text of the form digits [. digits] with at
      least one digit. */
  function ParseUnsignedDecimal(s: string): Option<real> {
    match IndexOf(s, '.')
    case None =>
      if s != [] && AllDigits(s) then Some(DigitsValue(s) as real) else None
    case Some(k) =>
      var whole, frac := s[..k], s[k + 1..];
      if AllDigits(whole) && AllDigits(frac) && |whole| + |frac| > 0 then
        Some(DigitsValue(whole) as real + DigitsValue(frac) as real / Pow10(|frac|) as real)
      else None
  }

  /** `Decimal(text)` on text of the form [sign] digits [. digits]; other text
      makes the constructor raise, answered here with None. */
  function ParseDecimal(s: string): Option<real> {
    if |s| > 0 && (s[0] == '-' || s[0] == '+') then
      match ParseUnsignedDecimal(s[1..])
      case Some(x) => Some(if s[0] == '-' then -x else x)
      case None => None
    else ParseUnsignedDecimal(s)
  }

  /** Text that `int()` reads as n is read by `Decimal()` as the same number. */
  lemma ParseDecimalOfIntegerText(s: string)
    requires ParseInt(s).Some?
    ensures ParseDecimal(s) == Some(ParseInt(s).value as real)
  {
    if |s| > 0 && (s[0] == '-' || s[0] == '+') {
      var t := s[1..];
      assert forall i :: 0 <= i < |t| ==> t[i] != '.' by {
        forall i | 0 <= i < |t| ensures t[i] != '.' { assert IsDigit(t[i]); }
      }
    } else {
      assert forall i :: 0 <= i < |s| ==> s[i] != '.' by {
        forall i | 0 <= i < |s| ensures s[i] != '.' { assert IsDigit(s[i]); }
      }
    }
  }

  /** `width` decimal digits of n, most significant first, zero-padded on the
      left, as strftime's `%m`, `%d` and `%Y` fields are. */
  function PadDigits(n: nat, width: nat): (r: string)
    ensures |r| == width && AllDigits(r)
    ensures n < Pow10(width) ==> DigitsValue(r) == n
    decreases width
  {
    if width == 0 then ""
    else
      var r := PadDigits(n / 10, width - 1) + [DigitChar(n % 10)];
      DigitsValueSnoc(PadDigits(n / 10, width - 1), DigitChar(n % 10));
      r
  }

  /** `t` occurs in `s` at position i. */
  predicate OccursAt(s: string, t: string, i: nat) {
    i + |t| <= |s| && s[i..i + |t|] == t
  }

  /** Python's `t in s` on strings: substring containment. */
  predicate Contains(s: string, t: string) {
    exists i: nat :: i <= |s| && OccursAt(s, t, i)
  }
}

=== FILE: validation.dfy ===
/** validate_nota_venta: the four required fields, a non-empty list of items,
    and on every item the two keys and a positive `int(cantidad)`. */
module NoteValidation {
  import opened Prelude
  import opened Text
  import opened Json

  const NotaFields: seq<string> := ["cliente_id", "direccion_facturacion_id", "direccion_envio_id", "productos"]
  const MsgNoItems := "Debe incluir al menos un producto"
  const MsgItemFields := "Cada producto debe tener producto_id y cantidad"
  const MsgQuantityPositive := "Cantidad debe ser mayor a 0"
  const MsgQuantityNumber := "Cantidad debe ser un número válido"

  /** Python's `name in item` for a decoded item: a key of an object, an
      element of a list, a substring of a text; None where `in` raises
      (null, booleans and numbers do not support it). */
  function HasMember(item: Json, name: string): (r: Option<bool>)
    ensures r.None? <==> !(item.JObject? || item.JList? || item.JStr?)
    ensures item.JObject? ==> r == Some(name in item.fields)
  {
    match item
    case JObject(m) => Some(name in m)
    case JList(xs) => Some(JStr(name) in xs)
    case JStr(s) => Some(Contains(s, name))
    case _ => None
  }

  /** An item the validator lets through: an object with both keys whose
      quantity `int()` reads as a positive integer. */
  predicate WellFormedItem(item: Json) {
    && item.JObject?
    && "producto_id" in item.fields
    && "cantidad" in item.fields
    && PyInt(item.fields["cantidad"]).Some?
    && PyInt(item.fields["cantidad"]).value > 0
  }

  /** The loop body of validate_nota_venta on one item. A list or a text that
      passes the membership test cannot be indexed by "cantidad"; the error is
      caught by the bare `except` and reported as an invalid quantity. */
  function ItemVerdict(item: Json): (v: Verdict)
    ensures v.Accept? <==> WellFormedItem(item)
    ensures v.Raise? <==> !(item.JObject? || item.JList? || item.JStr?)
    ensures (item.JObject? && ("producto_id" !in item.fields || "cantidad" !in item.fields))
            ==> v == Reject(MsgItemFields)
    ensures (item.JObject? && "producto_id" in item.fields && "cantidad" in item.fields)
            ==> (v == Reject(MsgQuantityNumber) <==> PyInt(item.fields["cantidad"]).None?)
    ensures (item.JObject? && "producto_id" in item.fields && "cantidad" in item.fields)
            ==> (v == Reject(MsgQuantityPositive) <==>
                 PyInt(item.fields["cantidad"]).Some? && PyInt(item.fields["cantidad"]).value <= 0)
    ensures (item.JList? || item.JStr?) ==> v == Reject(MsgItemFields) || v == Reject(MsgQuantityNumber)
  {
    match HasMember(item, "producto_id")
    case None => Raise
    case Some(hasId) =>
      if !hasId || !HasMember(item, "cantidad").value then Reject(MsgItemFields)
      else if !item.JObject? then Reject(MsgQuantityNumber)
      else
        match PyInt(item.fields["cantidad"])
        case None => Reject(MsgQuantityNumber)
        case Some(q) => if q <= 0 then Reject(MsgQuantityPositive) else Accept
  }

  /** The position of the first item the validator does not accept. */
  function FirstBadItem(items: seq<Json>): (r: Option<nat>)
    ensures r.None? <==> forall i :: 0 <= i < |items| ==> WellFormedItem(items[i])
    ensures r.Some? ==> r.value < |items| && !WellFormedItem(items[r.value])
    ensures r.Some? ==> forall i :: 0 <= i < r.value ==> WellFormedItem(items[i])
    decreases |items|
  {
    if items == [] then None
    else if !ItemVerdict(items[0]).Accept? then Some(0)
    else
      match FirstBadItem(items[1..])
      case None => None
      case Some(k) => Some(k + 1)
  }

  predicate NotaAcceptable(data: Object) {
    && AllProvided(data, NotaFields)
    && "productos" in data
    && data["productos"].JList?
    && |data["productos"].items| > 0
    && forall i :: 0 <= i < |data["productos"].items| ==> WellFormedItem(data["productos"].items[i])
  }

  /** validate_nota_venta, with the order of its checks: required fields
      first, then the shape of `productos`, then the items in request order. */
  function ValidateNota(data: Object): (v: Verdict)
    ensures v.Accept? <==> NotaAcceptable(data)
    ensures !AllProvided(data, NotaFields) ==>
      v == Reject(RequiredMessage(NotaFields[FirstMissing(data, NotaFields).value]))
    ensures (AllProvided(data, NotaFields) && "productos" in data && !data["productos"].JList?)
            ==> v == Reject(MsgNoItems)
    ensures (AllProvided(data, NotaFields) && "productos" in data && data["productos"].JList?
             && FirstBadItem(data["productos"].items).Some?)
            ==> v == ItemVerdict(data["productos"].items[FirstBadItem(data["productos"].items).value])
  {
    match FirstMissing(data, NotaFields)
    case Some(k) => Reject(RequiredMessage(NotaFields[k]))
    case None =>
      assert Provided(data, NotaFields[3]);
      var productos := data["productos"];
      if !productos.JList? || |productos.items| == 0 then Reject(MsgNoItems)
      else
        match FirstBadItem(productos.items)
        case None => Accept
        case Some(k) => ItemVerdict(productos.items[k])
  }

  /** A body the validator accepts has every item an object with both keys;
      the pricing loop relies on it. */
  lemma AcceptedItemsAreObjects(data: Object, i: int)
    requires ValidateNota(data).Accept?
    ensures "productos" in data && data["productos"].JList?
    ensures 0 <= i < |data["productos"].items| ==>
      var item := data["productos"].items[i];
      item.JObject? && "producto_id" in item.fields && "cantidad" in item.fields
  {
  }
}
